=== FILE: README.md ===
# Huginn core in Dafny

This project models the core of Huginn, a system that develops models of a cell's
metabolism automatically. Huginn keeps a set of candidate models and chooses experiments
to discriminate between them. It records the outcome of each experiment and revises the
models that the outcome refutes. The modelled parts are:

- **the event archive** (`archive.dfy`, module `EventArchive`). It holds the
  development history, the working models and the known results. It also answers the
  provenance queries: the origin event of a model, the events after an event, and the
  results reported after a model appeared.
- **the quality module** (`quality.dfy`, module `Quality`). It covers the four scoring
  rules, the shift that normalises the qualities, and `check_and_update_qualities`.
- **the overseer's transition table** (`overseer.dfy`, module `Overseer`).
- **the in-vitro oracle** (`oracle.dfy`, module `Oracles`).
- **the model representation** (`domain.dfy` and `interventions.dfy`, modules `Domain`
  and `Interventions`). It covers entities, activities, conditions, compartments, the
  `Add`/`Remove` interventions and `Model.apply_intervention(s)`.
- **the experiment cost model** (`cost_model.dfy`, module `Costs`). It covers the cost
  tables that `generate_all_possible` builds, `remove_None_valued_elements`,
  `set_all_basic_costs_to_1` and `calculate_derived_costs`.
- **the exporter** (`exporter.dfy`, module `Exporter`). It writes the archive's
  contents as answer-set-programming facts, one `\n…` line per fact.
- **the analysis helpers** (`analysis.dfy`, module `Analysis`). These are the template
  of archive-file suffixes, file matching, run cycles, the initial models of a
  development, and the score of a model against the reference model.

Shared helpers:

- `wrappers.dfy` holds `Option`, `Result` and `Effect`. An `Effect` is the state after
  a call together with the exception it raised, if any.
- `lists.dfy` holds `list.index`, `list.remove` and `set(xs)`.
- `text.dfy` holds number printing and parsing, two-digit padding, and `join`/`split`.

Modelling conventions:

- Every exception the modelled operations raise from their own logic is an error value:
  a `Failure` of a `Result`, or the `raised` part of an `Effect`. The exceptions that
  come only from the data classes as written are not modelled; they are listed below
  and under "Left out".
- Classes the code does not recognise are explicit `Unrecognised…` variants, so the
  `TypeError` branches exist in the model.
- Python compares models and events by identity. The model compares them by value.
- Model quality is a mutable attribute in the source. Here it lives in a separate
  `QualityTable`, so updating it does not change the models held by the archive.
- Frozensets (the models of an event, the results of an experiment, the interventions
  of a description) are sequences in some iteration order. The contracts hold for every
  such order. Where the outcome depends on the order, they speak of multisets or sets.
  Removing the refuted models is the exception: its contract states the exact list
  obtained for the given order.

The model follows the code as written in these places:

- `Archive.record` has branches only for ChosenExperiment, Results, RefutedModels,
  RevisedModel and AdditionalModels. Every other event class ends in the error branch,
  after the event has been appended to the history.
  - The test file expects InitialModels, InitialResults and UpdatedModelQuality to be
    recorded; the code does not record them.
  - As a result, `check_and_update_qualities` raises at the first quality it changes.
    This is stated by `Quality.CheckAndUpdateOutcome` and logged under Findings.
- `calculate_derived_costs` gives a complex the *availability* cost sum as its detection
  and localisation cost (exp_cost_model.py:142 and :148). `Costs.ComplexStep` states
  exactly that.
- The data classes in `mnm_repr.py` and `exp_repr.py` do not match the code that uses
  them. The `Domain` module follows the users, so where the classes as written raise,
  the model goes on:
  - `mnm_repr.py` defines `Present` but no PresentEntity, PresentCatalyst or
    PresentTransporter condition. Only `Growth` has `required_conditions`. No activity has
    `changes`, `add_cost` or `remove_cost`. The exporter and the cost model read all of them.
  - `Model.__init__` (mnm_repr.py:127-133) sets `setup_conds` and `termination_conds`.
    The exporter reads `setup_conditions` (exporter.py:123) and `termination_conditions`
    (exporter.py:133 and :151), which would raise AttributeError. `Domain.Model` has one
    field for each pair.
  - `Add` and `Remove` (mnm_repr.py:117-123) call the undefined name `Intervention__init__`,
    so constructing either raises NameError. This includes `generate_all_possible`
    (exp_cost_model.py:41-56). The model constructs them.
  - `Model.__init__` never sets `ignored_results` or `results_covered`. The quality
    module (quality_module.py:26) and the exporter (exporter.py:161) read them, which
    would raise AttributeError. The model starts them empty.
  - In `exp_repr.py`, `LocalisationEntity` (lines 13-17) has no compartment. `Result`
    (lines 60-63) takes two arguments and has no ID, while the oracle (oracle.py:33-58)
    passes three and the exporter reads `result.ID`. No experiment type has
    `ignoring_penalty`, which exporter.py:193 reads. The model gives them these fields.

## Model

| member | source | states |
|---|---|---|
| EventArchive.RemoveEach | archive.py:27-29 | removing the refuted models succeeds iff they form a sub-multiset of the working models; the result is the multiset difference, obtained by taking out each model's first occurrence in turn, so the survivors keep their order; a failure names the first absent model and leaves the removals before it done |
| Lists.RemovedFirstEachUnique | archive.py:28-29 | taking out the first occurrence of each refuted model in turn has a single outcome |
| EventArchive.NewArchive | archive.py:6-9 | a new archive has no history, no working models and no known results |
| EventArchive.Record | archive.py:17-43 | the event is appended to the history before the dispatch; only the five handled classes succeed; Results appends its experiment to the known results; RefutedModels takes out each model's first occurrence in turn, so the survivors keep their order, and an absent model raises after the earlier removals; RevisedModel and AdditionalModels append their models; an unhandled class raises and changes nothing else |
| EventArchive.RecordAll | archive.py:17-43 | recording a run of events extends the history by a prefix of the run; the whole run is recorded when nothing raised, and the event that raised is part of the prefix |
| EventArchive.RecordAllReplayModels | archive.py:27-37 | after a successful run, the working models plus every refuted model equal the initial working models plus every added model, as multisets |
| EventArchive.RecordAllReplayResults | archive.py:24-25 | after a successful run, the known results are the initial ones followed by the experiments of the Results events, in order |
| EventArchive.RecordWithoutBranchRaises | archive.py:39-43 | a run that contains an event class without a branch never completes successfully |
| EventArchive.FindOrigin | archive.py:46-64 | the scan finds the first event that introduces the model; it finds nothing iff no event introduces it |
| EventArchive.GetModelOriginEvent | archive.py:46-64 | succeeds iff some InitialModels, RevisedModel or AdditionalModels event contains the model; the event returned contains it and no earlier event does; otherwise a ValueError |
| EventArchive.GetModelOriginEventAsWritten | archive.py:47 | the loop reads `self.archive`, which an Archive does not have, so every call fails |
| EventArchive.OriginLookupAsWrittenFails | archive.py:46-64 | on a history whose only event introduces the model, the intended lookup returns that event and the lookup as written fails |
| EventArchive.GetEventsAfterEvent | archive.py:67-69 | succeeds iff the event is in the history; the history is a part without the event, then the event, then the result |
| EventArchive.OriginIsFirstOccurrence | archive.py:67-72 | `index` of the origin event finds the origin's own position, so the events after it are those after the origin |
| EventArchive.GetResultsAfterModel | archive.py:71-78 | succeeds iff the model has an origin event; the result lists the results of the Results events after the origin |
| EventArchive.ResultsAfterModelMembership | archive.py:71-78 | a result is reported after a model iff some Results event after the model's origin holds it |
| EventArchive.ResultsAfterModelGrows | archive.py:71-78 | recording one more event extends the results after a model by that event's results (if it is a Results event), and by nothing otherwise |
| Quality.Score | quality_module.py:25-88 | the score counts the covered results (only the new ones for the New rules) less the ignored ones for the Minus rules; only a New rule fails, and only for a model without an origin event |
| Quality.NewCoveredAtMostAllCovered | quality_module.py:67-88 | a New rule never scores a model above its All counterpart |
| Quality.Scores | quality_module.py:9-12 | scoring the working models succeeds iff every model's score does, and gives the scores in order |
| Quality.SeqMin | quality_module.py:46 | the minimum is an element of the list and no element is smaller |
| Quality.Shift | quality_module.py:44-54 | the shift is never negative; it fails (ValueError from `min`) exactly for a normalising rule with no working models |
| Quality.Targets | quality_module.py:28-60 | the targets keep the differences between scores; they equal the scores for the plain rules and for normalising rules whose scores are all at least 1; otherwise every target is at least 1 and the smallest is exactly 1 |
| Quality.PlanUpdates | quality_module.py:28-60 | the update loop as intended: every working model ends with its target quality, and no other model's quality changes |
| Quality.PlanRecordsOnlyChanges | quality_module.py:30-34 | every recorded update is for a working model whose quality differed from its target, and it carries that target |
| Quality.PlanRecordsEveryChange | quality_module.py:30-34 | every working model whose quality differed from its target gets an update |
| Quality.PlanUpdatesEachModelOnce | quality_module.py:29-34 | no model is updated twice, even if it occurs twice among the working models |
| Quality.PlanEmptyIffUpToDate | quality_module.py:30-31 | nothing is recorded iff every quality already equals its target, and then no quality changes |
| Quality.PlanIdempotent | quality_module.py:28-34 | a second pass with the same targets records nothing and changes nothing |
| Quality.RunUpdatesStopsAtFirstUpdate | quality_module.py:28-34 | the loop as written stops at the first planned update: that model has its new quality, the event is in the history, and `record` has raised |
| Quality.RunUpdates | quality_module.py:28-34 | the loop as written never touches the working models or results; it completes iff every model is already up to date, and then it changes nothing |
| Quality.CheckAndUpdateQualities | quality_module.py:9-12 | the working models and known results never change; a failed score or `min` of no scores raises before anything is touched |
| Quality.CheckAndUpdateTargets | quality_module.py:44-60 | every target is the model's score plus one common shift, which makes every normalised quality at least 1 |
| Quality.EveryModelLifted | quality_module.py:44-53 | under a normalising rule, every working model's score plus the shift is at least 1 |
| Quality.CheckAndUpdateOutcome | quality_module.py:9-34 | the call succeeds iff every quality is already at its target (then nothing changes); otherwise the first out-of-date model is updated, its event recorded, and `record` raises |
| Overseer.InTable | overseer.py:5-15 | an edge is in the table iff it is one of the ten listed edges |
| Overseer.OutgoingEdges | overseer.py:5-15 | the edges leaving a state are exactly the table's edges with that source |
| Overseer.StepCoversTable | overseer.py:5-15 | every table edge is the step its name takes from its source |
| Overseer.Step | overseer.py:5-15 | every step the function takes is an edge of the table |
| Overseer.Deterministic | overseer.py:5-15 | a transition name and a source state determine at most one destination |
| Overseer.StartDevelopmentFromStart | overseer.py:6-18 | the machine starts in `start` and stops in `stop`; start_development leads from start to models_tested_and_revised |
| Overseer.QualityRecalculatedHasTwoExits | overseer.py:7-11 | quality_recalculated has exactly two exits: get_experiment and produce_additional_models |
| Overseer.StopIsTerminal | overseer.py:14-18 | no edge leaves the final state, and an edge enters it iff it is a stop_development |
| Overseer.StartIsNeverReentered | overseer.py:5-15 | no edge enters the initial state |
| Overseer.ExperimentCycle | overseer.py:7-12 | get_experiment, execute_experiment, record_result, test_and_revise_models, recalculate_models_quality lead from quality_recalculated back to it |
| Overseer.EveryStateReachable | overseer.py:5-18 | every state is reachable from the initial state |
| Oracles.NewOracle | oracle.py:17-26 | construction succeeds iff the reference entities' IDs are distinct, else a ValueError |
| Oracles.FirstWithId | oracle.py:39 | the first reference entity with the ID; none (the IndexError of `[0]`) iff no entity has it |
| Oracles.CatalysedIds | oracle.py:40 | an ID is listed iff the entity has a Catalyses property for it |
| Oracles.TransportedIds | oracle.py:52 | an ID is listed iff the entity has a Transports property for it |
| Oracles.ExecuteInVitroExps | oracle.py:29-61 | the result has no ID and carries the description. An activity reconstruction succeeds iff the activity is a reference activity. An enzyme or transporter experiment fails iff no entity has the ID; otherwise it succeeds iff the activity is a reference activity that the entity catalyses or transports. Any other type is a TypeError |
| Oracles.ValidatedOracleOutcome | oracle.py:17-58 | with validated IDs, the outcome depends only on the unique entity with the ID, not on the order of the entities |
| Oracles.FirstWithIdUnique | oracle.py:17-20 | when the reference IDs are distinct, the entity found for an ID is the one reference entity carrying it |
| Interventions.NewModel | mnm_repr.py:126-133 | a new model holds the given lists, the given status and no results |
| Interventions.ApplyIntervention | mnm_repr.py:139-157 | Add appends a condition to the setup conditions and an activity to the termination conditions; Remove takes out the first occurrence and keeps the rest in order (a ValueError when absent); any other target or intervention class is a TypeError; nothing else changes |
| Interventions.ApplyInterventions | mnm_repr.py:135-137 | applying no interventions changes nothing; applying one is `apply_intervention`, whose exception leaves the model as it was; the intermediate activities never change |
| Interventions.ApplyInterventionsAppend | mnm_repr.py:135-137 | applying two batches in a row is applying their concatenation; an exception in the first batch stops both |
| Interventions.ApplyInterventionsSnoc | mnm_repr.py:135-137 | the loop is the left-to-right fold of `apply_intervention`: one more intervention at the end is applied to the result of the others, unless they raised |
| Interventions.AddThenRemove | mnm_repr.py:139-152 | removing what was just added succeeds and leaves the lists with the elements they had before; it gives back the very same model when the element was not there before |
| Costs.CompartmentKey | exp_cost_model.py:24-29 | a compartment key is "c_" followed by the two-digit number |
| Costs.CompartmentKeysUpTo | exp_cost_model.py:24-29 | the key of a number is in the set iff the number is between 2 and the last |
| Costs.CompartmentKeysCount | exp_cost_model.py:24-29 | the keys up to `last` are `last - 1` distinct keys |
| Costs.GenerateAllPossible | exp_cost_model.py:17-66 | succeeds iff every setup condition is a present entity, else an AttributeError; the tables hold the seven experiment classes and the compartments c_02 to c_34; every entry is unset except the zero-cost Adds of the import activities |
| Costs.InitialAddCosts | exp_cost_model.py:40-56 | an Add of an activity costs 0 and an Add of a metabolite to the medium is unset |
| Costs.GeneratedTableSizes | exp_cost_model.py:19-29 | a new cost model has 7 experiment classes and 33 compartments, from c_02 to c_34 (c_01 is the medium and absent) |
| Costs.CompartmentKeysShape | exp_cost_model.py:24-29 | every localisation compartment key is `c_` followed by a two-digit number from 2 to 34 |
| Costs.GeneratedEntityTables | exp_cost_model.py:43-58 | genes are never available or detectable and are deletable iff a setup condition holds them; every non-gene is available and detectable; only non-metabolites are localisable |
| Costs.GeneratedActivityTables | exp_cost_model.py:60-66 | import activities are never priced; growth goes to the detection table and every other activity to the reconstruction table |
| Costs.GeneratedInterventionTables | exp_cost_model.py:40-56 | the priced Adds are the import activities and the metabolites in the medium; the priced Removes are the setup conditions of genes or in the medium |
| Costs.SetAllBasicCostsTo1 | exp_cost_model.py:172-200 | every entry of the type, compartment, deletable, activity-detection and remove tables becomes 1; in the availability, localisation and entity-detection tables a complex keeps its cost and every other entry becomes 1; an Add stays 0 if it was 0 and becomes 1 otherwise; the keys of every table, the key order and the reconstruction table are unchanged |
| Costs.SetAllBasicCostsTo1Idempotent | exp_cost_model.py:172-200 | setting the basic costs twice is setting them once |
| Costs.RemoveNoneValuedElements | exp_cost_model.py:72-122 | a key stays iff its cost is set, with the same cost; the key order stays well formed; no unset entry remains |
| Costs.RemoveNoneIdempotent | exp_cost_model.py:72-122 | removing the unset entries twice is removing them once |
| Costs.RemoveNoneOnFreshModel | exp_cost_model.py:72-122 | on a fresh cost model every table becomes empty except the zero-cost Adds of the import activities |
| Costs.LookupAll | exp_cost_model.py:134-146 | looking up a list of keys succeeds iff all are keys (else a KeyError), and gives their costs in order |
| Costs.Sum | exp_cost_model.py:135-136 | summing succeeds iff no cost is unset |
| Costs.LookupSum | exp_cost_model.py:134-136 | the looked-up costs contain no None iff all are set, and then they sum to the total cost |
| Costs.FormationReactions | exp_cost_model.py:129 | an activity is listed iff it is one of the activities and produces the entity |
| Costs.ComplexStep | exp_cost_model.py:127-154 | a complex with exactly one formation reaction gets its components' availability sum as its available, detection and localisation cost, each when that table's component costs are all set; a missing component raises a KeyError; writing the availability sum while an availability cost is unset raises a TypeError; anything else is left alone |
| Costs.ComplexOfUnitComponents | exp_cost_model.py:131-148 | with every component costing 1, the complex costs as many as it has components in all three tables |
| Costs.ComplexLoop | exp_cost_model.py:127-154 | a loop over one entity is one complex step; only the availability, detection and localisation tables change; over entities with availability entries, only the complexes' costs change and every key stays; a loop that meets no complex changes nothing |
| Costs.ComplexLoopAppend | exp_cost_model.py:127 | the loop over two lists in a row is the loop over their concatenation, and an error in the first list stops it |
| Costs.ComplexStepUntouched | exp_cost_model.py:136-148 | one complex step writes only the entries of the entity it visits |
| Costs.ComplexLoopUntouched | exp_cost_model.py:127-154 | the loop writes only the entries of the entities it visits |
| Costs.ComplexStepPricesComplex | exp_cost_model.py:134-148 | a step after earlier steps prices a complex with non-complex components as it would over the original costs |
| Costs.ComplexLoopPricesComplex | exp_cost_model.py:127-154 | a complex visited once, with one formation reaction of non-complex components, ends with its components' availability sum in each table where their costs are set, and keeps its entry elsewhere; with unit components it costs their number |
| Costs.ComplexStepKeepsBasicCosts | exp_cost_model.py:127-154 | one complex step changes only that complex's availability, detection and localisation costs |
| Costs.RecCost | exp_cost_model.py:157-168 | growth and expression keep their cost; a reaction costs the substrates' availability plus the products' detection when all are set, and keeps its cost otherwise; a missing key raises a KeyError |
| Costs.ReactionOfUnitEntities | exp_cost_model.py:161-168 | with unit costs, a reaction costs its number of substrates plus products |
| Costs.RecCosts | exp_cost_model.py:157-168 | the activity loop fails iff some activity's cost fails, and otherwise gives each activity its new cost |
| Costs.RecCostsIdempotent | exp_cost_model.py:157-168 | recomputing the activity costs a second time changes nothing |
| Costs.CalculateDerivedCostsPricesComplex | exp_cost_model.py:125-154 | on a well-ordered model every priced complex with non-complex components gets its components' availability sum in the tables where their costs are set; with unit components, their number |
| Costs.CalculateDerivedCosts | exp_cost_model.py:125-168 | fails iff the complex loop or the activity loop fails; every activity gets the cost `RecCost` computes over the complexes' new costs; on a well-ordered model it keeps the experiment types, compartments, deletable genes, activity detection costs, interventions, the key order and every basic entity cost, and the model stays well-ordered |
| Exporter.ExportEach | exporter.py:66-106 | exporting element by element succeeds iff every element does; a failure comes from some element; otherwise one line per element, in order |
| Exporter.ExportEachAppend | exporter.py:66-106 | exporting two lists is exporting each in turn, the first failure winning |
| Exporter.KindTag | exporter.py:9-18 | an entity class has a fact name iff the code recognises it |
| Exporter.PropertyFact | exporter.py:23-29 | a property gives a fact iff it is Catalyses or Transports, else a TypeError |
| Exporter.PropertyFacts | exporter.py:23-29 | the property facts succeed iff every property is recognised, else a TypeError; one fact per property, in order |
| Exporter.EntityFacts | exporter.py:8-29 | a recognised entity gives its class fact (ID and version), then one fact per property, in order |
| Exporter.ExportEntities | exporter.py:6-31 | succeeds iff every entity and property is recognised; gives one fact per entity plus one per property |
| Exporter.ExportEntitiesAppend | exporter.py:6-31 | exporting two lists of entities is exporting each in turn |
| Exporter.ExportCompartments | exporter.py:34-36 | the result is a single fact |
| Exporter.CompartmentsRoundTrip | exporter.py:34-36 | splitting the fact's argument at ';' gives back the compartment IDs, in order |
| Exporter.RequirementFacts | exporter.py:48-58 | a substrate gives one fact; a catalyst or transporter gives two; any other requirement is a TypeError |
| Exporter.AllRequirementFacts | exporter.py:48-58 | the requirement facts succeed iff every requirement is recognised, and there is one or two facts per requirement |
| Exporter.ProductFact | exporter.py:61 | a change gives a fact iff it is a present entity, else an AttributeError; the fact is a `product(` fact |
| Exporter.ProductFacts | exporter.py:60-61 | one product fact per change, in order |
| Exporter.ExportActivity | exporter.py:46-63 | the requirement facts, then one product fact per change; a requirement error wins over a product error |
| Exporter.ExportActivities | exporter.py:39-43 | succeeds iff every activity is exportable; one block of facts per activity |
| Exporter.ExportActivitiesAppend | exporter.py:39-43 | exporting two lists of activities is exporting each in turn |
| Exporter.ExperimentTerm | exporter.py:71-104 | an experiment class has a term iff the code recognises it |
| Exporter.ResultFact | exporter.py:68-104 | a result gives a fact iff its experiment class is recognised, else a TypeError |
| Exporter.ExportResults | exporter.py:66-106 | succeeds iff every result's experiment class is recognised; one fact per result, in order |
| Exporter.ExportResultsAppend | exporter.py:66-106 | exporting two lists of results is exporting each in turn |
| Exporter.SetupFact | exporter.py:123-124 | a setup condition gives a fact iff it is a present entity; the fact is an `added_to_model(setup_present(` fact |
| Exporter.MemberFact | exporter.py:126-127 | an intermediate activity always gives an `added_to_model(` fact; this export cannot fail |
| Exporter.ExportModelSpecification | exporter.py:120-129 | one fact per setup condition plus one per intermediate activity; fails iff some setup condition is not a present entity, with an AttributeError |
| Exporter.ModelSpecificationFacts | exporter.py:120-129 | the facts are the setup conditions' facts, then the intermediate activities' membership facts, in order |
| Exporter.SpecificationFacts | exporter.py:115-116 | the specifications of all models succeed iff every model's setup is exportable |
| Exporter.ExportModels | exporter.py:109-118 | succeeds iff every model's setup is exportable; the first line is the `model(` fact of the IDs joined by ';'; every later line is the models' specifications, in order |
| Exporter.ModelsRoundTrip | exporter.py:112-113 | splitting the `model(` fact's argument at ';' gives back the model IDs, in order |
| Exporter.SpecificationFactsAppend | exporter.py:115-116 | the specifications of two lists of models are those of each list in turn, the first failure winning |
| Exporter.ExportOneModel | exporter.py:109-118 | exporting one model is its `model(` fact followed by its own specification |
| Exporter.TerminationFact | exporter.py:135-152 | a termination condition gives a fact iff it is a present entity |
| Exporter.ExportTerminationCondsRevision | exporter.py:132-137 | one example per termination condition, each opening with `#example synthesizable(`; fails iff one is not a present entity |
| Exporter.ExportTerminationCondsConsistency | exporter.py:149-154 | one constraint per termination condition, each opening with `:- not synthesizable(`; fails iff one is not a present entity |
| Exporter.TerminationExportsAgree | exporter.py:132-154 | the revision and consistency exports fail together, and their lines pair up with the same arguments |
| Exporter.PairFacts | exporter.py:143-145 | two facts per result, in positions 2j and 2j+1: that it is relevant to the model, then the constraint about it |
| Exporter.PairFactsMembership | exporter.py:143-145 | a line is a pair fact iff it is the relevance fact or the constraint of one of the results |
| Exporter.ExportRelevancyResultsRevision | exporter.py:140-146 | two facts per (model, result) pair, whatever the base model ignores |
| Exporter.RelevancyRevisionMembership | exporter.py:140-146 | a line is in the revision export iff it is the relevance fact or the `#example not inconsistent(` example of some model and one of its results |
| Exporter.ExportRelevancyResultsRevisionAppend | exporter.py:140-146 | the revision export of two lists of entries is that of each in turn |
| Exporter.Kept | exporter.py:161-162 | the results kept are exactly those not ignored by the base model, in order |
| Exporter.ExportRelevancyResultsConsistency | exporter.py:157-166 | two facts for each (model, result) pair whose result the base model does not ignore |
| Exporter.RelevancyConsistencyMembership | exporter.py:157-166 | a line is in the consistency export iff it is the relevance fact or the `:- inconsistent(` constraint of some model and one of its results that the base model does not ignore |
| Exporter.ExportRelevancyResultsConsistencyAppend | exporter.py:157-166 | the consistency export of two lists of entries is that of each in turn |
| Exporter.RelevancyConsistencyAtMostRevision | exporter.py:140-166 | the consistency export never has more facts than the revision export, and has as many when nothing is ignored |
| Exporter.ExternalModelFacts | exporter.py:171-177 | an external model gives 2 + (number of activities) facts: first its `external_model(` declaration and last the `#example different(` constraint |
| Exporter.InModelFacts | exporter.py:174-175 | one `in_model(` fact per activity, and each activity's fact is among them |
| Exporter.ExternalModelInModelFacts | exporter.py:171-177 | the `in_model(` facts of an external model are exactly those of its activities |
| Exporter.ExportForceNewModel | exporter.py:169-178 | the number of facts is the sum over the external models of 2 + their activity count |
| Exporter.ForceNewModelMembership | exporter.py:169-178 | a fact is forced iff it is a fact of one of the external models |
| Exporter.ForceNewModelInModelFacts | exporter.py:169-178 | the forced `in_model(` facts are exactly the external models' activities, each paired with its own model |
| Exporter.ExportForceNewModelAppend | exporter.py:169-178 | forcing over two lists of external models is forcing over each in turn |
| Exporter.ChoiceRoundTrip | exporter.py:185 | a weighted choice line reads back as its verb, ID, cost and level, when the verb has no '(' and the ID no ')' |
| Exporter.ExportAddActivities | exporter.py:181-185 | one line per activity; the i-th line reads back as an `add` choice with the i-th activity's ID and add cost at level 1 |
| Exporter.ExportRemoveActivities | exporter.py:188-189 | one line per activity; the i-th line reads back as a `remove` choice with the i-th activity's ID and remove cost at level 1 |
| Exporter.ExportIgnoreResults | exporter.py:192-193 | one line per result; the i-th line reads back as an `ignore` choice with the i-th result's ID and ignoring penalty at level 2 |
| Exporter.ExportAddActivitiesAppend | exporter.py:181-185 | the add choices of two lists are those of each in turn |
| Exporter.ExportRemoveActivitiesAppend | exporter.py:188-189 | the remove choices of two lists are those of each in turn |
| Exporter.ExportIgnoreResultsAppend | exporter.py:192-193 | the ignore choices of two lists are those of each in turn |
| Analysis.EntryRoundTrip | development_analysis.py:240-253 | every suffix is 14 characters long, and its configuration, test case and repetition can be read back from it |
| Analysis.EntryInjective | development_analysis.py:240-253 | different experiments have different suffixes |
| Analysis.CreateSmallTemplateMatrix | development_analysis.py:235-256 | 17 × 3 rows in test-case-then-repetition order; row `i` holds the suffixes of the 36 configurations for test case `i / 3` and repetition `i % 3` |
| Analysis.CreateRow | development_analysis.py:239-253 | a row holds the suffix of every configuration for one test case and repetition, in configuration order |
| Analysis.TemplateEntriesDistinct | development_analysis.py:235-256 | every entry of the template is a 14-character suffix, and no suffix occurs twice |
| Analysis.LastChars | development_analysis.py:228 | `s[-14:]` is the last 14 characters, or the whole string when it is shorter |
| Analysis.GetMatchingFileNameSmall | development_analysis.py:226-232 | None iff no path's last 14 characters are the suffix; otherwise the first such path |
| Analysis.MatchesIffEndsWith | development_analysis.py:228 | a path matches a suffix iff it is at least 14 characters long and ends with it |
| Analysis.NumberOfRunCycles | development_analysis.py:121-123 | the number of cycles is one less than the number of checkpoints, so -1 without one |
| Analysis.CheckPointsCount | development_analysis.py:122 | the checkpoints counted are the successful and the failed checkpoints of the history |
| Analysis.RunCyclesGrow | development_analysis.py:121-123 | recording a checkpoint adds one cycle; any other event adds none |
| Analysis.ReplayStep | development_analysis.py:164-173 | InitialModels extends the initial models; a RevisedModel extends the revised models and takes the first occurrence of its old model out of the initial models, keeping the rest in order, failing iff the old model is absent; any other event changes nothing |
| Analysis.Replay | development_analysis.py:164-173 | the loop fails only with the old-model error, and only when some event is a RevisedModel |
| Analysis.ReplayRevised | development_analysis.py:164-173 | the replay's revised models are those of every RevisedModel event, in order |
| Analysis.ReplayInitial | development_analysis.py:164-173 | the replay's initial models plus the old models equal every initial model, as multisets |
| Analysis.ReplayStepKeeps | development_analysis.py:164-173 | after one step, the initial models plus the removed old model equal the previous initial models plus the added ones, as multisets |
| Analysis.ReplayAppend | development_analysis.py:164-173 | replaying two lists of events in turn is replaying their concatenation |
| Analysis.GetInitialModels | development_analysis.py:155-177 | fails with the unbound `first_check_point` iff the history has no successful checkpoint |
| Analysis.InitialModelsContents | development_analysis.py:155-177 | the result ends with every revised model of the preparation period; together with the models revised away it is every initial and every revised model |
| Analysis.InitialModelsIgnoreLaterEvents | development_analysis.py:156-161 | events after the first successful checkpoint do not change the initial models |
| Analysis.SymmetricDifference | development_analysis.py:149 | an element is in `a ^ b` iff it is in exactly one of the two sets |
| Analysis.ScoreZeroIffSameActivities | development_analysis.py:149-151 | a score is 0 iff the model has the reference model's activities; the score is symmetric |
| Analysis.ScoreTriangle | development_analysis.py:149-151 | the score is a distance: going through a third model never makes it shorter |
| Analysis.Score | development_analysis.py:149 | the score is at least the difference of the two activity counts and at most their sum |
| Analysis.Scores | development_analysis.py:149-151 | one score per model, in order |
| Analysis.GetInitlAndFinalScores | development_analysis.py:145-152 | succeeds iff the initial models do; gives the initial models' scores and the working models' scores against the reference model |

## Left out

- Timestamps (`event.timestamp`, `start_time`) are not modelled, because no modelled operation reads them except `total_time`, which is left out with them.
- The archive's `mnm_*` and `allowed_exp_types` lists are not modelled: no modelled operation reads them.
- Partial state after an exception is modelled for `record`, the removal of refuted models and the quality loop (through `Effect`), and for `apply_interventions`. Elsewhere a failure returns only the error.
- Costs.ComplexLoop: the value a complex receives is stated as a closed formula only when its components are not complexes (`ComplexLoopPricesComplex`). A complex built from complexes reads their costs as the loop has left them so far, which depends on the visiting order. For those complexes the loop is pinned down only step by step, through the one-entity clause and `ComplexLoopAppend`.
- Costs.CalculateDerivedCosts: the source writes the complexes' and activities' new costs into the cost model's dicts as it goes (exp_cost_model.py:136, :142, :148, :168), so those writes survive a later KeyError or TypeError. The model returns only the error and drops the partially updated cost model.
- Interventions.ApplyIntervention: `Model.__init__` keeps the caller's lists (mnm_repr.py:129-131), and `apply_intervention` appends to them and removes from them in place (mnm_repr.py:142-152). Any other holder of those lists, such as the original of the oracle's shallow `copy(self.model)` (oracle.py:71-73), sees the change. The model returns a new value and does not model this sharing.
- Python object identity is replaced by value equality. Two equal models in the working list are therefore the same model here.
- The iteration order of frozensets and of the models-to-results dict is a parameter (the order of the sequence). No contract depends on one particular order.
- Overseer: the methods an edge names belong to the other modules and are not part of the table. `start_development` and `stop_development` do nothing.
- Oracles: `execute_in_vivo`, `prepare_input_in_vivo`, `write_and_execute` and `process_output` run an external solver and are not modelled.
- Oracles: the reference model and the lists of all entities, compartments and activities are only read by that in-vivo path, and are left out.
- Costs: the `CostModel` constructor is only `generate_all_possible`; it is modelled as that function.
- Costs.GenerateAllPossible: states the order of the `design_available` keys only as "each key once" (`WellOrdered`), not as the exact insertion order.
- Interventions.NewModel: `Model.__init__` (mnm_repr.py:126-133) never creates `ignored_results` or `results_covered`, so reading them raises AttributeError. The model starts both empty, and no contract promises that AttributeError.
- Domain: the AttributeErrors from `setup_conditions` and `termination_conditions` (exporter.py:123, :133, :151) against the `setup_conds` and `termination_conds` that `Model.__init__` sets are not modelled. The model's exports succeed where the code as written raises.
- Interventions: the NameError that `Add(...)` and `Remove(...)` raise through the undefined `Intervention__init__` (mnm_repr.py:119 and :123) is not modelled. `generate_all_possible` (exp_cost_model.py:41-56) and `apply_intervention` are modelled as if construction succeeded.
- Domain: the TypeError from the oracle's three-argument `Result(None, expD, outcome)` (oracle.py:33-58) against the two-parameter `Result.__init__` (exp_repr.py:60-63) is not modelled. Neither are the AttributeErrors from the missing `Result.ID`, `LocalisationEntity.compartment` and `ignoring_penalty`.
- Exporter: `models_rules`, `predictions_rules`, `interventions_rules`, `inconsistency_rules` and `model_difference_rules` return fixed rule texts and are not modelled.
- Exporter: the printed form of a fact is stated only as far as the contracts need it. That is its arguments, its line shape, and the ';'-joined lists.
- Analysis: `read_archive`, `get_all_paths` and `create_archives_matrix_small` read pickled files from disk and are not modelled. The printing and plotting functions are not modelled either.
- Analysis: `best_improvement`, `worst_improvement` and `average_improvement` divide in floating point and are not modelled. Their inputs are, through `GetInitlAndFinalScores`.
- Analysis: `model_of_ref` is an attribute the analysed archives carry; it is a parameter of `GetInitlAndFinalScores`.
- Analysis: the intermediate activities are compared as sets, as `^` does.
- Analysis.GetInitialModels: states the initial models through `InitialModelsContents` as a multiset identity and a suffix. It does not give the exact order of the unrevised initial models.

## Findings

| source | as written | input that shows it | evidently intended | confidence | as-written member | corrected member |
|---|---|---|---|---|---|---|
| archive.py:46-64 | the loop iterates `self.archive`, which an Archive never has, so every call raises AttributeError (and `get_results_after_model` with it) | an archive whose history is `[AdditionalModels([m])]`, asked for the origin of `m` | a forward scan of `self.development_history` returning the first event that introduces the model | not executed | EventArchive.GetModelOriginEventAsWritten | EventArchive.GetModelOriginEvent |
| archive.py:17-43, quality_module.py:28-34 | `record` has no branch for UpdatedModelQuality. The branch at line 39 names an undefined class, and line 43 raises a tuple. Either way, recording a quality update raises, and the quality loop stops at the first model whose quality changes | a working model whose quality is None, under any scoring rule | every out-of-date model gets its new quality and exactly one UpdatedModelQuality event | not executed | Quality.RunUpdatesStopsAtFirstUpdate | Quality.PlanUpdates |

=== FILE: analysis.dfy ===
/** The pure helpers of the development analysis (development_analysis.py): the template
    of archive-file suffixes the paper's experiments produce, matching a file name to a
    suffix, counting the run cycles of a development history, replaying the models the
    development started from, and scoring a model against the reference model. */
module Analysis {
  import opened Wrappers
  import opened Lists
  import opened Text
  import opened Domain
  import opened EventArchive

  // ---------------------------------------------------------------------------------------
  // The template matrix of file suffixes

  const TestCases: nat := 17
  const Repetitions: nat := 3
  const Configurations: nat := 36
  /** The length of every suffix, and the number of trailing characters a file name is matched on. */
  const SuffixLength: nat := 14

  /** The suffix of the archive of configuration `conf`, test case `tc`, repetition `rep`:
      `confNN_tcNN_rR`, the two numbers padded to two digits. */
  function MatrixEntry(conf: nat, tc: nat, rep: nat): string
    requires conf < 100 && tc < 100 && rep < 10
  {
    "conf" + Pad2(conf) + "_tc" + Pad2(tc) + "_r" + NatToString(rep)
  }

  /** The configuration, test case and repetition read back from a suffix. */
  function EntryFields(s: string): (nat, nat, nat)
    requires |s| == SuffixLength
    requires IsDigit(s[4]) && IsDigit(s[5]) && IsDigit(s[9]) && IsDigit(s[10]) && IsDigit(s[13])
  {
    (10 * DigitValue(s[4]) + DigitValue(s[5]), 10 * DigitValue(s[9]) + DigitValue(s[10]), DigitValue(s[13]))
  }

  /** Every suffix is 14 characters long and its three numbers can be read back from it. */
  lemma EntryRoundTrip(conf: nat, tc: nat, rep: nat)
    requires conf < 100 && tc < 100 && rep < 10
    ensures var s := MatrixEntry(conf, tc, rep);
            && |s| == SuffixLength
            && IsDigit(s[4]) && IsDigit(s[5]) && IsDigit(s[9]) && IsDigit(s[10]) && IsDigit(s[13])
            && EntryFields(s) == (conf, tc, rep)
  {
    var s := MatrixEntry(conf, tc, rep);
    var c, t, r := Pad2(conf), Pad2(tc), NatToString(rep);
    assert r == [DigitChar(rep)];
    assert s == "conf" + c + "_tc" + t + "_r" + r;
    assert s[4] == c[0] && s[5] == c[1] && s[9] == t[0] && s[10] == t[1] && s[13] == r[0];
  }

  /** Distinct experiments have distinct suffixes. */
  lemma EntryInjective(c1: nat, t1: nat, r1: nat, c2: nat, t2: nat, r2: nat)
    requires c1 < 100 && t1 < 100 && r1 < 10 && c2 < 100 && t2 < 100 && r2 < 10
    requires MatrixEntry(c1, t1, r1) == MatrixEntry(c2, t2, r2)
    ensures c1 == c2 && t1 == t2 && r1 == r2
  {
    EntryRoundTrip(c1, t1, r1);
    EntryRoundTrip(c2, t2, r2);
  }

  /** The row of test case `tc`, repetition `rep`: one suffix per configuration. */
  function Row(tc: nat, rep: nat): (row: seq<string>)
    requires tc < TestCases && rep < Repetitions
    ensures |row| == Configurations
  {
    seq(Configurations, conf requires 0 <= conf < Configurations => MatrixEntry(conf, tc, rep))
  }

  /** One row of the template: the suffixes of every configuration, in order. */
  method CreateRow(tc: nat, rep: nat) returns (row: seq<string>)
    requires tc < TestCases && rep < Repetitions
    ensures |row| == Configurations
    ensures forall conf | 0 <= conf < Configurations :: row[conf] == MatrixEntry(conf, tc, rep)
  {
    ghost var full := Row(tc, rep);
    row := [];
    var conf := 0;
    while conf < Configurations
      invariant 0 <= conf <= Configurations
      invariant row == full[..conf]
    {
      var entry := MatrixEntry(conf, tc, rep);
      assert entry == full[conf];
      ExtendPrefix(row, full, conf);
      row := row + [entry];
      conf := conf + 1;
    }
    ExtendPrefix(row, full, Configurations);
  }

  /** Appending the next element to a prefix gives the next prefix. */
  lemma ExtendPrefix<T>(row: seq<T>, full: seq<T>, n: nat)
    requires n <= |full| && row == full[..n]
    ensures n < |full| ==> row + [full[n]] == full[..n + 1]
    ensures n == |full| ==> row == full
  {
  }

  /** The row appended for test case `tc` and repetition `rep` sits where the division
      by the number of repetitions finds them again. */
  lemma RowPosition(tc: nat, rep: nat)
    requires rep < Repetitions
    ensures (Repetitions * tc + rep) / Repetitions == tc && (Repetitions * tc + rep) % Repetitions == rep
  {
  }

  /** `create_small_template_matrix`: 17 test cases times 3 repetitions rows, in that
      order, each holding the suffixes of the 36 configurations. */
  method CreateSmallTemplateMatrix() returns (matrix: seq<seq<string>>)
    ensures |matrix| == TestCases * Repetitions
    ensures forall i | 0 <= i < |matrix| :: |matrix[i]| == Configurations
    ensures forall i, conf | 0 <= i < |matrix| && 0 <= conf < Configurations ::
      matrix[i][conf] == MatrixEntry(conf, i / Repetitions, i % Repetitions)
  {
    ghost var full := seq(TestCases * Repetitions, i requires 0 <= i < TestCases * Repetitions =>
                          Row(i / Repetitions, i % Repetitions));
    matrix := [];
    var tc := 0;
    while tc < TestCases
      invariant 0 <= tc <= TestCases
      invariant matrix == full[..Repetitions * tc]
    {
      var rep := 0;
      while rep < Repetitions
        invariant 0 <= rep <= Repetitions
        invariant matrix == full[..Repetitions * tc + rep]
      {
        var row := CreateRow(tc, rep);
        RowPosition(tc, rep);
        assert row == full[Repetitions * tc + rep];
        ExtendPrefix(matrix, full, Repetitions * tc + rep);
        matrix := matrix + [row];
        rep := rep + 1;
      }
      tc := tc + 1;
    }
    ExtendPrefix(matrix, full, TestCases * Repetitions);
  }

  /** Every entry of the template is a 14-character suffix, and no suffix occurs twice. */
  lemma TemplateEntriesDistinct(matrix: seq<seq<string>>)
    requires |matrix| == TestCases * Repetitions
    requires forall i | 0 <= i < |matrix| :: |matrix[i]| == Configurations
    requires forall i, conf | 0 <= i < |matrix| && 0 <= conf < Configurations ::
      matrix[i][conf] == MatrixEntry(conf, i / Repetitions, i % Repetitions)
    ensures forall i, c | 0 <= i < |matrix| && 0 <= c < Configurations :: |matrix[i][c]| == SuffixLength
    ensures forall i1, c1, i2, c2 | 0 <= i1 < |matrix| && 0 <= c1 < Configurations && 0 <= i2 < |matrix| && 0 <= c2 < Configurations ::
      matrix[i1][c1] == matrix[i2][c2] ==> i1 == i2 && c1 == c2
  {
    forall i, c | 0 <= i < |matrix| && 0 <= c < Configurations ensures |matrix[i][c]| == SuffixLength {
      EntryRoundTrip(c, i / Repetitions, i % Repetitions);
    }
    forall i1, c1, i2, c2 | 0 <= i1 < |matrix| && 0 <= c1 < Configurations && 0 <= i2 < |matrix| && 0 <= c2 < Configurations
      && matrix[i1][c1] == matrix[i2][c2]
      ensures i1 == i2 && c1 == c2
    {
      EntryInjective(c1, i1 / Repetitions, i1 % Repetitions, c2, i2 / Repetitions, i2 % Repetitions);
      assert i1 == Repetitions * (i1 / Repetitions) + i1 % Repetitions;
      assert i2 == Repetitions * (i2 / Repetitions) + i2 % Repetitions;
    }
  }

  // ---------------------------------------------------------------------------------------
  // Matching a file name to a suffix

  /** `s[-n:]`: the last `n` characters, or the whole string when it is shorter. */
  function LastChars(s: string, n: nat): (r: string)
    ensures |r| == if |s| >= n then n else |s|
    ensures s == s[..|s| - |r|] + r
  {
    if |s| >= n then s[|s| - n..] else s
  }

  /** A file name matches a suffix when its last 14 characters are the suffix. */
  predicate Matches(path: string, sfx: string) {
    LastChars(path, SuffixLength) == sfx
  }

  /** `get_matching_file_name_small`: the first path matching the suffix, None when none does. */
  method GetMatchingFileNameSmall(paths: seq<string>, sfx: string) returns (r: Option<string>)
    ensures r.None? <==> forall p | p in paths :: !Matches(p, sfx)
    ensures r.Some? ==> exists i | 0 <= i < |paths| :: paths[i] == r.value && Matches(r.value, sfx)
                          && forall j | 0 <= j < i :: !Matches(paths[j], sfx)
  {
    var i := 0;
    while i < |paths|
      invariant 0 <= i <= |paths|
      invariant forall j | 0 <= j < i :: !Matches(paths[j], sfx)
    {
      if LastChars(paths[i], SuffixLength) == sfx {
        assert paths[i] in paths;
        return Some(paths[i]);
      }
      i := i + 1;
    }
    return None;
  }

  /** A path matches a template suffix exactly when it ends with it; a shorter path cannot match. */
  lemma MatchesIffEndsWith(path: string, sfx: string)
    requires |sfx| == SuffixLength
    ensures Matches(path, sfx) <==> |path| >= SuffixLength && path[|path| - SuffixLength..] == sfx
  {
  }

  // ---------------------------------------------------------------------------------------
  // Run cycles

  predicate IsCheckPoint(e: Event) {
    e.CheckPointSuccess? || e.CheckPointFail?
  }

  /** The checkpoint events of a history, in order. */
  function CheckPoints(h: seq<Event>): (r: seq<Event>)
    ensures forall e | e in r :: IsCheckPoint(e)
  {
    if |h| == 0 then []
    else (if IsCheckPoint(h[0]) then [h[0]] else []) + CheckPoints(h[1..])
  }

  /** `number_of_run_cycles`: the full cycles between checkpoints, one fewer than the
      checkpoints (so -1 for a history without one). */
  function NumberOfRunCycles(h: seq<Event>): (n: int)
    ensures -1 <= n < |h|
  {
    CheckPointsAtMost(h);
    |CheckPoints(h)| - 1
  }

  lemma {:induction false} CheckPointsAtMost(h: seq<Event>)
    ensures |CheckPoints(h)| <= |h|
  {
    if |h| > 0 {
      CheckPointsAtMost(h[1..]);
    }
  }

  /** The checkpoints counted are the successful and the failed checkpoints of the history. */
  lemma {:induction false} CheckPointsCount(h: seq<Event>)
    ensures |CheckPoints(h)| == multiset(h)[CheckPointSuccess] + multiset(h)[CheckPointFail]
  {
    if |h| > 0 {
      CheckPointsCount(h[1..]);
      assert h == [h[0]] + h[1..];
      assert multiset(h) == multiset{h[0]} + multiset(h[1..]);
    }
  }

  /** Each further checkpoint recorded adds one run cycle; any other event adds none. */
  lemma RunCyclesGrow(h: seq<Event>, e: Event)
    ensures NumberOfRunCycles(h + [e]) == NumberOfRunCycles(h) + (if IsCheckPoint(e) then 1 else 0)
  {
    CheckPointsCount(h);
    CheckPointsCount(h + [e]);
    assert multiset(h + [e]) == multiset(h) + multiset{e};
  }

  // ---------------------------------------------------------------------------------------
  // Initial models

  datatype AnalysisError =
    | NoCheckPoint   // the history has no CheckPointSuccess: `first_check_point` is never bound
    | OldModelAbsent // `init_models.remove(old_model)` raises ValueError

  /** What one event contributes to the initial models, to the revised models, and to the
      models removed from the initial ones. */
  function EventInitial(e: Event): seq<Model> {
    if e.InitialModels? then e.models else []
  }

  function EventRevised(e: Event): seq<Model> {
    if e.RevisedModel? then e.revisedModels else []
  }

  function EventOld(e: Event): seq<Model> {
    if e.RevisedModel? then [e.oldModel] else []
  }

  /** The models of the InitialModels events among `events`, in order. */
  function InitialOf(events: seq<Event>): seq<Model> {
    if |events| == 0 then [] else EventInitial(events[0]) + InitialOf(events[1..])
  }

  /** The revised models of the RevisedModel events among `events`, in order. */
  function RevisedOf(events: seq<Event>): seq<Model> {
    if |events| == 0 then [] else EventRevised(events[0]) + RevisedOf(events[1..])
  }

  /** The old models of the RevisedModel events among `events`, in order. */
  function OldOf(events: seq<Event>): seq<Model> {
    if |events| == 0 then [] else EventOld(events[0]) + OldOf(events[1..])
  }

  /** One iteration of the loop of `get_initial_models`: InitialModels extend the initial
      models; a RevisedModel extends the revised models and removes its old model from the
      initial ones, which fails when the old model is not among them. */
  function ReplayStep(e: Event, init: seq<Model>, revised: seq<Model>): (r: Option<(seq<Model>, seq<Model>)>)
    ensures r.None? <==> e.RevisedModel? && e.oldModel !in init
    ensures r.Some? ==> r.value.1 == revised + EventRevised(e)
    ensures r.Some? && e.InitialModels? ==> r.value.0 == init + e.models
    ensures r.Some? && e.RevisedModel? ==> RemovedFirst(init, e.oldModel, r.value.0)
    ensures r.Some? && !e.InitialModels? && !e.RevisedModel? ==> r.value.0 == init
  {
    if e.InitialModels? then Some((init + e.models, revised))
    else if e.RevisedModel? then
      match RemoveFirst(init, e.oldModel)
      case None => None
      case Some(init1) => Some((init1, revised + e.revisedModels))
    else
      assert revised + [] == revised;
      Some((init, revised))
  }

  /** One step keeps the balance of initial models: what it leaves, plus the model it
      removes, is what it had plus the models it adds. */
  lemma ReplayStepKeeps(e: Event, init: seq<Model>, revised: seq<Model>)
    requires ReplayStep(e, init, revised).Some?
    ensures multiset(ReplayStep(e, init, revised).value.0) + multiset(EventOld(e)) == multiset(init) + multiset(EventInitial(e))
  {
    if e.InitialModels? {
      assert multiset(init + e.models) == multiset(init) + multiset(e.models);
    } else if e.RevisedModel? {
      var init1 := RemoveFirst(init, e.oldModel).value;
      assert e.oldModel in init;
      assert multiset(init1) + multiset{e.oldModel} == multiset(init);
    }
  }

  /** The loop of `get_initial_models` over a list of events. */
  function Replay(events: seq<Event>, init: seq<Model>, revised: seq<Model>): (r: Result<(seq<Model>, seq<Model>), AnalysisError>)
    ensures r.Failure? ==> r.error == OldModelAbsent
    // only a RevisedModel event can make the replay fail
    ensures r.Failure? ==> exists k | 0 <= k < |events| :: events[k].RevisedModel?
    decreases |events|
  {
    if |events| == 0 then Success((init, revised))
    else
      match ReplayStep(events[0], init, revised)
      case None => Failure(OldModelAbsent)
      case Some((init1, revised1)) =>
        var r := Replay(events[1..], init1, revised1);
        assert forall k | 0 <= k < |events[1..]| :: events[1..][k] == events[k + 1];
        r
  }

  /** The replay's revised models are the revised models of every RevisedModel event, in order. */
  lemma {:induction false} ReplayRevised(events: seq<Event>, init: seq<Model>, revised: seq<Model>)
    requires Replay(events, init, revised).Success?
    ensures Replay(events, init, revised).value.1 == revised + RevisedOf(events)
    decreases |events|
  {
    if |events| == 0 {
      assert revised + [] == revised;
    } else {
      var e, rest := events[0], events[1..];
      var step := ReplayStep(e, init, revised);
      assert step.Some?;
      var init1, revised1 := step.value.0, step.value.1;
      ReplayRevised(rest, init1, revised1);
      assert Replay(events, init, revised) == Replay(rest, init1, revised1);
      AppendChain(revised, EventRevised(e), RevisedOf(rest), revised1, Replay(rest, init1, revised1).value.1);
    }
  }

  /** The replay's initial models are every initial model less one occurrence of each old model. */
  lemma {:induction false} ReplayInitial(events: seq<Event>, init: seq<Model>, revised: seq<Model>)
    requires Replay(events, init, revised).Success?
    ensures multiset(Replay(events, init, revised).value.0) + multiset(OldOf(events))
            == multiset(init) + multiset(InitialOf(events))
    decreases |events|
  {
    if |events| > 0 {
      var e, rest := events[0], events[1..];
      var step := ReplayStep(e, init, revised);
      assert step.Some?;
      var init1, revised1 := step.value.0, step.value.1;
      ReplayStepKeeps(e, init, revised);
      ReplayInitial(rest, init1, revised1);
      assert Replay(events, init, revised) == Replay(rest, init1, revised1);
      var x := multiset(Replay(rest, init1, revised1).value.0);
      assert x + multiset(OldOf(rest)) == multiset(init1) + multiset(InitialOf(rest));
      assert multiset(init1) + multiset(EventOld(e)) == multiset(init) + multiset(EventInitial(e));
      assert OldOf(events) == EventOld(e) + OldOf(rest);
      assert InitialOf(events) == EventInitial(e) + InitialOf(rest);
      assert multiset(OldOf(events)) == multiset(EventOld(e)) + multiset(OldOf(rest));
      assert multiset(InitialOf(events)) == multiset(EventInitial(e)) + multiset(InitialOf(rest));
      calc {
        x + multiset(OldOf(events));
        (x + multiset(OldOf(rest))) + multiset(EventOld(e));
        (multiset(init1) + multiset(EventOld(e))) + multiset(InitialOf(rest));
        multiset(init) + multiset(InitialOf(events));
      }
    }
  }

  /** Replaying events one list after another is replaying them together. */
  lemma {:induction false} ReplayAppend(a: seq<Event>, b: seq<Event>, init: seq<Model>, revised: seq<Model>)
    ensures Replay(a + b, init, revised) ==
      match Replay(a, init, revised)
      case Failure(e) => Failure(e)
      case Success((i, rv)) => Replay(b, i, rv)
    decreases |a|
  {
    if |a| == 0 {
      assert a + b == b;
    } else {
      assert (a + b)[0] == a[0];
      assert (a + b)[1..] == a[1..] + b;
      match ReplayStep(a[0], init, revised)
      case None =>
      case Some((init1, revised1)) => ReplayAppend(a[1..], b, init1, revised1);
    }
  }

  /** The events before the first successful checkpoint: the development's preparation. */
  function Preparation(h: seq<Event>): (prep: seq<Event>)
    requires CheckPointSuccess in h
    ensures |prep| < |h| && CheckPointSuccess !in prep && h[|prep|] == CheckPointSuccess && prep == h[..|prep|]
  {
    h[..IndexOf(h, CheckPointSuccess).value]
  }

  /** `get_initial_models`: the models the development started from, replayed from the
      events before the first successful checkpoint — the initial models that were not
      revised, followed by every revised model. */
  function GetInitialModels(h: seq<Event>): (r: Result<seq<Model>, AnalysisError>)
    ensures r == Failure(NoCheckPoint) <==> CheckPointSuccess !in h
  {
    match IndexOf(h, CheckPointSuccess)
    case None => Failure(NoCheckPoint)
    case Some(k) =>
      match Replay(h[..k], [], [])
      case Failure(e) => Failure(e)
      case Success((init, revised)) => Success(init + revised)
  }

  /** What the initial models are: the revised models of the preparation come last, and
      together with the models revised away they are the initial and the revised models. */
  lemma InitialModelsContents(h: seq<Event>)
    requires GetInitialModels(h).Success?
    ensures CheckPointSuccess in h
    ensures var r, prep := GetInitialModels(h).value, Preparation(h);
            && multiset(r) + multiset(OldOf(prep)) == multiset(InitialOf(prep)) + multiset(RevisedOf(prep))
            && |RevisedOf(prep)| <= |r|
            && r[|r| - |RevisedOf(prep)|..] == RevisedOf(prep)
  {
    assert CheckPointSuccess in h;
    var prep := Preparation(h);
    var rp := Replay(prep, [], []);
    assert rp.Success?;
    var init, revised := rp.value.0, rp.value.1;
    assert GetInitialModels(h) == Success(init + revised);
    ReplayInitial(prep, [], []);
    var none: seq<Model> := [];
    assert multiset(init) + multiset(OldOf(prep)) == multiset(InitialOf(prep)) by {
      assert multiset(none) == multiset{};
    }
    ReplayRevised(prep, [], []);
    assert revised == RevisedOf(prep) by {
      assert [] + RevisedOf(prep) == RevisedOf(prep);
    }
    ConcatenationParts(init, revised);
  }

  lemma ConcatenationParts<T>(a: seq<T>, b: seq<T>)
    ensures multiset(a + b) == multiset(a) + multiset(b)
    ensures (a + b)[|a + b| - |b|..] == b
  {
  }

  /** Only the preparation counts: events recorded after the first successful checkpoint
      do not change the initial models. */
  lemma InitialModelsIgnoreLaterEvents(h: seq<Event>, later: seq<Event>)
    requires CheckPointSuccess in h
    ensures GetInitialModels(h + later) == GetInitialModels(h)
  {
    IndexOfAppend(h, later, CheckPointSuccess);
    var k := IndexOf(h, CheckPointSuccess).value;
    assert (h + later)[..k] == h[..k];
  }

  // ---------------------------------------------------------------------------------------
  // Scores

  /** `a ^ b` on sets. */
  function SymmetricDifference<T>(a: set<T>, b: set<T>): (d: set<T>)
    ensures forall x | x in a + b :: x in d <==> (x in a) != (x in b)
    ensures d <= a + b
  {
    (a - b) + (b - a)
  }

  /** The size of `a ^ b` lies between the difference and the sum of the sizes. */
  lemma SymmetricDifferenceSize<T>(a: set<T>, b: set<T>)
    ensures |a| - |b| <= |SymmetricDifference(a, b)| <= |a| + |b|
    ensures |b| - |a| <= |SymmetricDifference(a, b)|
  {
    var ab, ba, both := a - b, b - a, a * b;
    assert a == ab + both && ab * both == {};
    assert b == ba + both && ba * both == {};
    assert ab * ba == {};
    assert SymmetricDifference(a, b) == ab + ba;
    SubsetCardinality(both, b);
    SubsetCardinality(both, a);
  }

  /** A model's score: how many activities it and the reference model do not share. It is
      at least the difference of their activity counts and at most their sum. */
  function Score(m: Model, reference: Model): (s: nat)
    ensures s <= |Elements(m.intermediateActivities)| + |Elements(reference.intermediateActivities)|
    ensures |Elements(m.intermediateActivities)| - |Elements(reference.intermediateActivities)| <= s
    ensures |Elements(reference.intermediateActivities)| - |Elements(m.intermediateActivities)| <= s
  {
    SymmetricDifferenceSize(Elements(m.intermediateActivities), Elements(reference.intermediateActivities));
    |SymmetricDifference(Elements(m.intermediateActivities), Elements(reference.intermediateActivities))|
  }

  /** The score is 0 exactly when the model has the reference model's activities, and it
      does not depend on which model is the reference. */
  lemma ScoreZeroIffSameActivities(m: Model, reference: Model)
    ensures Score(m, reference) == 0 <==> Elements(m.intermediateActivities) == Elements(reference.intermediateActivities)
    ensures Score(m, reference) == Score(reference, m)
  {
    var a, b := Elements(m.intermediateActivities), Elements(reference.intermediateActivities);
    assert SymmetricDifference(a, b) == SymmetricDifference(b, a);
    if a != b {
      if x :| x in a && x !in b {
        assert x in SymmetricDifference(a, b);
      } else {
        var y :| y in b && y !in a;
        assert y in SymmetricDifference(a, b);
      }
    }
  }

  /** The score is a distance: going through a third model never shortens it. */
  lemma ScoreTriangle(m1: Model, m2: Model, m3: Model)
    ensures Score(m1, m3) <= Score(m1, m2) + Score(m2, m3)
  {
    var a, b, c := Elements(m1.intermediateActivities), Elements(m2.intermediateActivities), Elements(m3.intermediateActivities);
    var ab, bc, ac := SymmetricDifference(a, b), SymmetricDifference(b, c), SymmetricDifference(a, c);
    assert ac <= ab + bc;
    SubsetCardinality(ac, ab + bc);
  }


  /** The scores of a list of models, in order. */
  function Scores(ms: seq<Model>, reference: Model): (s: seq<nat>)
    ensures |s| == |ms| && forall i | 0 <= i < |ms| :: s[i] == Score(ms[i], reference)
  {
    seq(|ms|, i requires 0 <= i < |ms| => Score(ms[i], reference))
  }

  /** `get_initl_and_final_scores`: the scores of the initial models and of the working
      models against the reference model (the archive's `model_of_ref`). */
  function GetInitlAndFinalScores(a: Archive, reference: Model): (r: Result<(seq<nat>, seq<nat>), AnalysisError>)
    ensures r.Success? <==> GetInitialModels(a.developmentHistory).Success?
    ensures r.Success? ==>
      && r.value.0 == Scores(GetInitialModels(a.developmentHistory).value, reference)
      && |r.value.1| == |a.workingModels|
      && forall i | 0 <= i < |a.workingModels| :: r.value.1[i] == Score(a.workingModels[i], reference)
  {
    match GetInitialModels(a.developmentHistory)
    case Failure(e) => Failure(e)
    case Success(init) => Success((Scores(init, reference), Scores(a.workingModels, reference)))
  }
}

=== FILE: archive.dfy ===
/** The event archive (archive.py): an append-only development history of events and
    two lists derived from it, the working models and the known results, together with
    the provenance queries that the quality rules build on.

    `record` stamps the event, appends it to the history and only then dispatches on
    its class; an exception raised by the dispatch therefore leaves the event in the
    history. `Record` returns that state together with the exception (an Effect). */
module EventArchive {
  import opened Wrappers
  import opened Lists
  import opened Domain

  /** The event classes. Model payloads of RefutedModels, RevisedModel and AdditionalModels
      are frozensets in the source; the sequences here are their iteration order, which the
      source leaves unspecified, so the contracts below hold for any such order.
      The classes from NewResults on are imported from the archive by the analysis scripts
      (development_analysis.py:4) and carry no payload the modelled code reads. */
  datatype Event =
    | InitialModels(models: seq<Model>)
    | InitialResults(experiment: Experiment)
    | ChosenExperiment(description: ExperimentDescription)
    | Results(experiment: Experiment)
    | RefutedModels(refutedModels: seq<Model>)
    | RevisedModel(oldModel: Model, revisedModels: seq<Model>)
    | UpdatedModelQuality(model: Model, newQuality: int)
    | AdditionalModels(additionalModels: seq<Model>)
    | NewResults(experiment: Experiment)
    | AcceptedResults(experiment: Experiment)
    | RevisionFail
    | AdditModProdFail
    | ExpDesignFail
    | CheckPointFail
    | CheckPointSuccess
    | RevisedIgnoredUpdate

  datatype Archive = Archive(developmentHistory: seq<Event>, workingModels: seq<Model>, knownResults: seq<Experiment>)

  /** `Archive.__init__`: no history, no working models and no known results. */
  function NewArchive(): (a: Archive)
    ensures |a.developmentHistory| == 0 && |a.workingModels| == 0 && |a.knownResults| == 0
  {
    Archive([], [], [])
  }

  datatype ArchiveError =
    | UnknownEventType            // the event's class has no branch in `record`
    | RefutedModelAbsent(model: Model) // ValueError from `working_models.remove`
    | NoOriginEvent(model: Model) // ValueError from `get_model_origin_event`
    | EventNotInHistory           // ValueError from `development_history.index`
    | MissingAttribute(name: string) // AttributeError

  /** The branches `record` has: all other event classes end in the error path. */
  predicate HasRecordBranch(e: Event) {
    e.ChosenExperiment? || e.Results? || e.RefutedModels? || e.RevisedModel? || e.AdditionalModels?
  }

  /** `for model in refuted: working_models.remove(model)`: one occurrence per refuted model;
      the first refuted model that is absent raises, leaving the earlier removals done. */
  function RemoveEach(wm: seq<Model>, refuted: seq<Model>): (r: Effect<seq<Model>, ArchiveError>)
    ensures RemoveEachOutcome(wm, refuted, r)
    decreases |refuted|
  {
    if |refuted| == 0 then Effect(wm, None)
    else
      var x := refuted[0];
      match RemoveFirst(wm, x)
      case None =>
        MultisetCons(refuted);
        MultisetAbsent(multiset(wm), x, multiset(refuted[1..]));
        assert refuted[..0] == [];
        Effect(wm, Some(RefutedModelAbsent(x)))
      case Some(rest) =>
        var r := RemoveEach(rest, refuted[1..]);
        RemoveEachConsStep(wm, refuted, rest, r);
        r
  }

  /** What removing the refuted models one by one gives: success iff they form a
      sub-multiset of the working models, and then the multiset difference, obtained by
      taking out each model's first occurrence in turn, so that the survivors keep their
      order; otherwise the first absent model raises, after the models before it have been
      taken out. */
  predicate RemoveEachOutcome(wm: seq<Model>, refuted: seq<Model>, r: Effect<seq<Model>, ArchiveError>) {
    && (r.Ok() <==> multiset(refuted) <= multiset(wm))
    && (r.Ok() ==> multiset(r.state) == multiset(wm) - multiset(refuted))
    && (r.Ok() ==> RemovedFirstEach(wm, refuted, r.state))
    && (r.raised.Some? ==> StoppedAtAbsent(wm, refuted, r.raised.value, r.state))
  }

  /** `list.remove` raised `err` for the k-th refuted model, which is absent from `st`, the
      working models after the models before it have been taken out. */
  predicate StoppedAtAbsent(wm: seq<Model>, refuted: seq<Model>, err: ArchiveError, st: seq<Model>) {
    exists k | 0 <= k < |refuted| ::
      && err == RefutedModelAbsent(refuted[k])
      && RemovedFirstEach(wm, refuted[..k], st)
      && refuted[k] !in st
  }

  /** The outcome for the remaining refuted models, after the first one was taken out of
      `wm` to leave `rest`, is the outcome for all of them. */
  lemma RemoveEachConsStep(wm: seq<Model>, refuted: seq<Model>, rest: seq<Model>, r: Effect<seq<Model>, ArchiveError>)
    requires |refuted| > 0 && RemoveFirst(wm, refuted[0]) == Some(rest)
    requires RemoveEachOutcome(rest, refuted[1..], r)
    ensures RemoveEachOutcome(wm, refuted, r)
  {
    var x := refuted[0];
    MultisetCons(refuted);
    MultisetRemoveStep(multiset(wm), x, multiset(rest), multiset(refuted[1..]));
    assert refuted == [x] + refuted[1..];
    if r.Ok() {
      RemovedFirstEachStep(wm, x, rest, refuted[1..], r.state);
    } else {
      RemoveEachRaisedStep(wm, refuted, rest, r);
    }
  }

  /** The failure clause of `RemoveEach`, carried from the tail of the refuted models to
      the whole list once the first removal has succeeded. */
  lemma RemoveEachRaisedStep(wm: seq<Model>, refuted: seq<Model>, rest: seq<Model>, r: Effect<seq<Model>, ArchiveError>)
    requires |refuted| > 0 && RemovedFirst(wm, refuted[0], rest)
    requires r.raised.Some?
    requires StoppedAtAbsent(rest, refuted[1..], r.raised.value, r.state)
    ensures StoppedAtAbsent(wm, refuted, r.raised.value, r.state)
  {
    var k :| 0 <= k < |refuted[1..]| && r.raised.value == RefutedModelAbsent(refuted[1..][k])
             && RemovedFirstEach(rest, refuted[1..][..k], r.state) && refuted[1..][k] !in r.state;
    assert refuted[..k + 1] == [refuted[0]] + refuted[1..][..k];
    RemovedFirstEachStep(wm, refuted[0], rest, refuted[1..][..k], r.state);
    assert refuted[k + 1] == refuted[1..][k];
  }

  /** `Archive.record`. */
  function Record(a: Archive, e: Event): (r: Effect<Archive, ArchiveError>)
    // the event becomes the new last element; nothing earlier is removed or reordered
    ensures r.state.developmentHistory == a.developmentHistory + [e]
    // only the five classes with a branch can succeed, and RefutedModels only when every refuted model is present
    ensures r.Ok() <==> HasRecordBranch(e) && (e.RefutedModels? ==> multiset(e.refutedModels) <= multiset(a.workingModels))
    ensures !HasRecordBranch(e) ==> r.raised == Some(UnknownEventType)
    ensures !HasRecordBranch(e) ==> r.state.workingModels == a.workingModels
    // Results appends its experiment to the known results; nothing else touches them
    ensures e.Results? ==> r.state.knownResults == a.knownResults + [e.experiment]
    ensures !e.Results? ==> r.state.knownResults == a.knownResults
    // ChosenExperiment and Results leave the working models alone
    ensures e.ChosenExperiment? || e.Results? ==> r.state.workingModels == a.workingModels
    // RefutedModels takes out one occurrence of each refuted model
    ensures e.RefutedModels? && r.Ok() ==>
      multiset(r.state.workingModels) == multiset(a.workingModels) - multiset(e.refutedModels)
    // ... its first occurrence each time, so the surviving models keep their order; the
    // first absent one raises after the removals before it
    ensures e.RefutedModels? && r.Ok() ==> RemovedFirstEach(a.workingModels, e.refutedModels, r.state.workingModels)
    ensures e.RefutedModels? && r.raised.Some? ==>
      StoppedAtAbsent(a.workingModels, e.refutedModels, r.raised.value, r.state.workingModels)
    // RevisedModel and AdditionalModels append every new model after the existing ones;
    // the old model of a RevisedModel stays
    ensures e.RevisedModel? ==>
      && |a.workingModels| <= |r.state.workingModels|
      && r.state.workingModels[..|a.workingModels|] == a.workingModels
      && multiset(r.state.workingModels) == multiset(a.workingModels) + multiset(e.revisedModels)
    ensures e.AdditionalModels? ==>
      && |a.workingModels| <= |r.state.workingModels|
      && r.state.workingModels[..|a.workingModels|] == a.workingModels
      && multiset(r.state.workingModels) == multiset(a.workingModels) + multiset(e.additionalModels)
  {
    var a1 := a.(developmentHistory := a.developmentHistory + [e]);
    match e
    case ChosenExperiment(_) => Effect(a1, None)
    case Results(x) => Effect(a1.(knownResults := a.knownResults + [x]), None)
    case RefutedModels(ms) =>
      var rm := RemoveEach(a.workingModels, ms);
      Effect(a1.(workingModels := rm.state), rm.raised)
    case RevisedModel(_, ms) =>
      assert (a.workingModels + ms)[..|a.workingModels|] == a.workingModels;
      Effect(a1.(workingModels := a.workingModels + ms), None)
    case AdditionalModels(ms) =>
      assert (a.workingModels + ms)[..|a.workingModels|] == a.workingModels;
      Effect(a1.(workingModels := a.workingModels + ms), None)
    case _ => Effect(a1, Some(UnknownEventType))
  }

  /** A caller recording events one after another; the first exception stops it. */
  function RecordAll(a: Archive, es: seq<Event>): (r: Effect<Archive, ArchiveError>)
    // the history grows by a prefix of the events, all of them when nothing was raised,
    // and the event that raised is part of that prefix
    ensures var k := |r.state.developmentHistory| - |a.developmentHistory|;
            && 0 <= k <= |es|
            && r.state.developmentHistory == a.developmentHistory + es[..k]
            && (r.Ok() ==> k == |es|)
            && (!r.Ok() ==> k >= 1)
    decreases |es|
  {
    if |es| == 0 then Effect(a, None)
    else
      var r1 := Record(a, es[0]);
      if !r1.Ok() then
        HistoryPrefixStep(a.developmentHistory, es, r1.state.developmentHistory, r1.state.developmentHistory);
        r1
      else
        var r := RecordAll(r1.state, es[1..]);
        HistoryPrefixStep(a.developmentHistory, es, r1.state.developmentHistory, r.state.developmentHistory);
        r
  }

  /** A history grown by the first event and then by a prefix of the rest has grown by a
      non-empty prefix of all the events. */
  lemma HistoryPrefixStep<T>(h: seq<T>, es: seq<T>, h1: seq<T>, h2: seq<T>)
    requires |es| > 0 && h1 == h + [es[0]]
    requires var k := |h2| - |h1|; 0 <= k <= |es| - 1 && h2 == h1 + es[1..][..k]
    ensures var k := |h2| - |h|; 1 <= k <= |es| && h2 == h + es[..k]
  {
    var k := |h2| - |h1|;
    assert [es[0]] + es[1..][..k] == es[..k + 1];
  }

  /** The models one event adds to the working models, and those it takes out. */
  function AddedBy(e: Event): multiset<Model> {
    match e
    case RevisedModel(_, ms) => multiset(ms)
    case AdditionalModels(ms) => multiset(ms)
    case _ => multiset{}
  }

  function RefutedBy(e: Event): multiset<Model> {
    if e.RefutedModels? then multiset(e.refutedModels) else multiset{}
  }

  /** The models a sequence of events adds to the working models, and those it takes out. */
  function AddedModels(es: seq<Event>): multiset<Model> {
    if |es| == 0 then multiset{} else AddedBy(es[0]) + AddedModels(es[1..])
  }

  function RefutedModelsOf(es: seq<Event>): multiset<Model> {
    if |es| == 0 then multiset{} else RefutedBy(es[0]) + RefutedModelsOf(es[1..])
  }

  /** The experiments of the Results events, in order. */
  function ResultExperiments(es: seq<Event>): seq<Experiment> {
    if |es| == 0 then [] else ResultExperimentOf(es[0]) + ResultExperiments(es[1..])
  }

  function ResultExperimentOf(e: Event): seq<Experiment> {
    if e.Results? then [e.experiment] else []
  }

  /** One successful `record` call, in the terms of the replay below. */
  lemma RecordStepModels(a: Archive, e: Event)
    requires Record(a, e).Ok()
    ensures multiset(Record(a, e).state.workingModels) + RefutedBy(e) == multiset(a.workingModels) + AddedBy(e)
  {
    if e.RefutedModels? {
      assert multiset(e.refutedModels) <= multiset(a.workingModels);
    }
  }

  lemma RecordStepResults(a: Archive, e: Event)
    ensures Record(a, e).state.knownResults == a.knownResults + ResultExperimentOf(e)
  {
  }

  /** `RecordAll` of a non-empty run is one `Record` followed by the rest. */
  lemma RecordAllUnfold(a: Archive, es: seq<Event>)
    requires |es| > 0 && RecordAll(a, es).Ok()
    ensures Record(a, es[0]).Ok()
    ensures RecordAll(a, es) == RecordAll(Record(a, es[0]).state, es[1..])
  {
  }

  /** Bookkeeping of the replay step: two balances chain into one. */
  lemma MultisetShuffle<T>(w: multiset<T>, w1: multiset<T>, w0: multiset<T>,
                           ra: multiset<T>, rb: multiset<T>, aa: multiset<T>, ab: multiset<T>)
    requires w + rb == w1 + ab
    requires w1 + ra == w0 + aa
    ensures w + (ra + rb) == w0 + (aa + ab)
  {
    assert w + (ra + rb) == (w + rb) + ra;
    assert (w1 + ab) + ra == (w1 + ra) + ab;
  }

  /** Replay of the working models: after recording a run of events, the working models
      together with every refuted model are the initial working models together with every
      model a RevisedModel or AdditionalModels event brought in. */
  lemma {:induction false} RecordAllReplayModels(a: Archive, es: seq<Event>)
    requires RecordAll(a, es).Ok()
    ensures multiset(RecordAll(a, es).state.workingModels) + RefutedModelsOf(es) == multiset(a.workingModels) + AddedModels(es)
    decreases |es|
  {
    if |es| > 0 {
      var e := es[0];
      RecordAllUnfold(a, es);
      var s1 := Record(a, e).state;
      var s := RecordAll(a, es).state;
      RecordStepModels(a, e);
      RecordAllReplayModels(s1, es[1..]);
      MultisetShuffle(multiset(s.workingModels), multiset(s1.workingModels), multiset(a.workingModels),
                      RefutedBy(e), RefutedModelsOf(es[1..]), AddedBy(e), AddedModels(es[1..]));
    }
  }

  /** Replay of the known results: they are the initial ones followed by the experiments of
      the Results events, in order. */
  lemma {:induction false} RecordAllReplayResults(a: Archive, es: seq<Event>)
    requires RecordAll(a, es).Ok()
    ensures RecordAll(a, es).state.knownResults == a.knownResults + ResultExperiments(es)
    decreases |es|
  {
    if |es| > 0 {
      RecordAllUnfold(a, es);
      var s1 := Record(a, es[0]).state;
      RecordStepResults(a, es[0]);
      RecordAllReplayResults(s1, es[1..]);
      AppendChain(a.knownResults, ResultExperimentOf(es[0]), ResultExperiments(es[1..]),
                   s1.knownResults, RecordAll(a, es).state.knownResults);
    }
  }

  /** Every error of a successful-looking replay is ruled out: recording an event class
      with no branch, starting from any archive, always raises. */
  lemma RecordWithoutBranchRaises(a: Archive, es: seq<Event>)
    requires exists k | 0 <= k < |es| :: !HasRecordBranch(es[k])
    ensures !RecordAll(a, es).Ok()
    decreases |es|
  {
    if HasRecordBranch(es[0]) {
      var k :| 0 <= k < |es| && !HasRecordBranch(es[k]);
      assert k > 0 && !HasRecordBranch(es[1..][k - 1]);
      var r1 := Record(a, es[0]);
      if r1.Ok() {
        RecordWithoutBranchRaises(r1.state, es[1..]);
      }
    }
  }

  /** The models an event introduces into the pool. */
  function IntroducedModels(e: Event): seq<Model> {
    match e
    case InitialModels(ms) => ms
    case RevisedModel(_, ms) => ms
    case AdditionalModels(ms) => ms
    case _ => []
  }

  predicate Introduces(e: Event, m: Model) {
    m in IntroducedModels(e)
  }

  /** Forward scan of the history for the first event that introduces `m`. */
  function FindOrigin(h: seq<Event>, m: Model): (r: Option<nat>)
    ensures r.None? <==> forall i | 0 <= i < |h| :: !Introduces(h[i], m)
    ensures r.Some? ==> r.value < |h| && Introduces(h[r.value], m)
    ensures r.Some? ==> forall i | 0 <= i < r.value :: !Introduces(h[i], m)
  {
    if |h| == 0 then None
    else if Introduces(h[0], m) then Some(0)
    else
      match FindOrigin(h[1..], m)
      case None => None
      case Some(i) => Some(i + 1)
  }

  /** `get_model_origin_event` as intended: the first InitialModels, RevisedModel or
      AdditionalModels event of the development history whose payload contains the model;
      a ValueError when there is none. */
  function GetModelOriginEvent(a: Archive, m: Model): (r: Result<Event, ArchiveError>)
    ensures r.Success? <==> exists i | 0 <= i < |a.developmentHistory| :: Introduces(a.developmentHistory[i], m)
    ensures r.Failure? ==> r.error == NoOriginEvent(m)
    ensures r.Success? ==> Introduces(r.value, m)
    ensures r.Success? ==> exists i | 0 <= i < |a.developmentHistory| ::
              a.developmentHistory[i] == r.value && forall j | 0 <= j < i :: !Introduces(a.developmentHistory[j], m)
  {
    match FindOrigin(a.developmentHistory, m)
    case None => Failure(NoOriginEvent(m))
    case Some(i) => Success(a.developmentHistory[i])
  }

  /** `get_model_origin_event` as written: the loop reads `self.archive`, an attribute
      the Archive never has, so every call raises AttributeError. */
  function GetModelOriginEventAsWritten(a: Archive, m: Model): (r: Result<Event, ArchiveError>)
    ensures r.Failure?
  {
    Failure(MissingAttribute("archive"))
  }

  /** The as-written lookup fails on the very history the intended one answers:
      an archive whose only event introduces the model. */
  lemma OriginLookupAsWrittenFails(m: Model)
    ensures var a := NewArchive().(developmentHistory := [AdditionalModels([m])]);
            && GetModelOriginEvent(a, m) == Success(AdditionalModels([m]))
            && GetModelOriginEventAsWritten(a, m).Failure?
  {
    var a := NewArchive().(developmentHistory := [AdditionalModels([m])]);
    assert Introduces(a.developmentHistory[0], m);
  }

  /** `get_events_after_event`: the events strictly after the first occurrence of `e`;
      a ValueError when `e` is not in the history. */
  function GetEventsAfterEvent(a: Archive, e: Event): (r: Result<seq<Event>, ArchiveError>)
    ensures r.Success? <==> e in a.developmentHistory
    ensures r.Failure? ==> r.error == EventNotInHistory
    // the history splits into a part without `e`, then `e`, then the result
    ensures r.Success? ==>
      var h := a.developmentHistory;
      var n := |h| - |r.value| - 1;
      && 0 <= n < |h|
      && h == h[..n] + [e] + r.value
      && e !in h[..n]
  {
    var h := a.developmentHistory;
    match IndexOf(h, e)
    case None => Failure(EventNotInHistory)
    case Some(i) =>
      assert h == h[..i] + [e] + h[i + 1..];
      Success(h[i + 1..])
  }

  /** All results of the Results events among `es`, experiment by experiment. */
  function ResultsIn(es: seq<Event>): seq<ExpResult> {
    if |es| == 0 then []
    else (if es[0].Results? then es[0].experiment.results else []) + ResultsIn(es[1..])
  }

  lemma {:induction false} ResultsInMembership(es: seq<Event>, x: ExpResult)
    ensures x in ResultsIn(es) <==> exists j | 0 <= j < |es| :: es[j].Results? && x in es[j].experiment.results
  {
    if |es| > 0 {
      ResultsInMembership(es[1..], x);
      if exists j | 0 <= j < |es| :: es[j].Results? && x in es[j].experiment.results {
        var j :| 0 <= j < |es| && es[j].Results? && x in es[j].experiment.results;
        if j > 0 {
          assert es[1..][j - 1] == es[j];
        }
      }
      if x in ResultsIn(es[1..]) {
        var j :| 0 <= j < |es[1..]| && es[1..][j].Results? && x in es[1..][j].experiment.results;
        assert es[j + 1] == es[1..][j];
      }
    }
  }

  lemma {:induction false} ResultsInAppend(a: seq<Event>, b: seq<Event>)
    ensures ResultsIn(a + b) == ResultsIn(a) + ResultsIn(b)
  {
    if |a| == 0 {
      assert a + b == b;
    } else {
      assert (a + b)[1..] == a[1..] + b;
      ResultsInAppend(a[1..], b);
    }
  }

  /** The origin event is the first occurrence of its own value in the history: an earlier
      equal event would introduce the model too. */
  lemma OriginIsFirstOccurrence(h: seq<Event>, m: Model)
    requires FindOrigin(h, m).Some?
    ensures IndexOf(h, h[FindOrigin(h, m).value]) == Some(FindOrigin(h, m).value)
  {
    var i := FindOrigin(h, m).value;
    assert forall k | 0 <= k < i :: h[k] != h[i] by {
      forall k | 0 <= k < i ensures h[k] != h[i] {
        assert !Introduces(h[k], m);
      }
    }
    IndexOfFirstOccurrence(h, i);
  }

  /** `get_results_after_model`: the results of every Results event recorded after the
      model's origin event; a ValueError when the model has no origin event. */
  function GetResultsAfterModel(a: Archive, m: Model): (r: Result<seq<ExpResult>, ArchiveError>)
    ensures r.Success? <==> FindOrigin(a.developmentHistory, m).Some?
    ensures r.Failure? ==> r.error == NoOriginEvent(m)
    ensures r.Success? ==> r.value == ResultsIn(a.developmentHistory[FindOrigin(a.developmentHistory, m).value + 1..])
  {
    var h := a.developmentHistory;
    match FindOrigin(h, m)
    case None => Failure(NoOriginEvent(m))
    case Some(i) =>
      OriginIsFirstOccurrence(h, m);
      match GetEventsAfterEvent(a, h[i])
      case Failure(err) => Failure(err)
      case Success(after) => Success(ResultsIn(after))
  }

  /** Membership in the results of a suffix of the history, by position in the whole history. */
  lemma ResultsInSuffixMembership(h: seq<Event>, o: nat, x: ExpResult)
    requires o < |h|
    ensures x in ResultsIn(h[o + 1..]) <==> exists j | o < j < |h| :: h[j].Results? && x in h[j].experiment.results
  {
    var after := h[o + 1..];
    ResultsInMembership(after, x);
    if exists j | o < j < |h| :: h[j].Results? && x in h[j].experiment.results {
      var j :| o < j < |h| && h[j].Results? && x in h[j].experiment.results;
      assert after[j - o - 1] == h[j];
    }
    if x in ResultsIn(after) {
      var j :| 0 <= j < |after| && after[j].Results? && x in after[j].experiment.results;
      assert after[j] == h[j + o + 1];
    }
  }

  /** A result is reported after a model exactly when some Results event after the
      model's origin produced it. */
  lemma ResultsAfterModelMembership(a: Archive, m: Model, x: ExpResult)
    requires FindOrigin(a.developmentHistory, m).Some?
    ensures var h := a.developmentHistory;
            var o := FindOrigin(h, m).value;
            x in GetResultsAfterModel(a, m).value <==>
              exists j | o < j < |h| :: h[j].Results? && x in h[j].experiment.results
  {
    var o := FindOrigin(a.developmentHistory, m).value;
    ResultsAfterModelAt(a, m, o);
    ResultsInSuffixMembership(a.developmentHistory, o, x);
  }

  /** Appending an event does not move the origin of a model that already has one. */
  lemma FindOriginAppend(h: seq<Event>, e: Event, m: Model)
    requires FindOrigin(h, m).Some?
    ensures FindOrigin(h + [e], m) == FindOrigin(h, m)
  {
    var o := FindOrigin(h, m).value;
    var h' := h + [e];
    assert forall k | 0 <= k <= o :: h'[k] == h[k];
    FindOriginAt(h', m, o);
  }

  /** The origin is the first event that introduces the model. */
  lemma FindOriginAt(h: seq<Event>, m: Model, o: nat)
    requires o < |h| && Introduces(h[o], m)
    requires forall k | 0 <= k < o :: !Introduces(h[k], m)
    ensures FindOrigin(h, m) == Some(o)
  {
  }

  /** Recording one more event after a model's origin extends the results reported after
      that model by the event's own results if it is a Results event, and by nothing otherwise. */
  lemma ResultsAfterModelGrows(a: Archive, e: Event, m: Model)
    requires FindOrigin(a.developmentHistory, m).Some?
    ensures var a' := Record(a, e).state;
            GetResultsAfterModel(a', m) ==
              Success(GetResultsAfterModel(a, m).value + (if e.Results? then e.experiment.results else []))
  {
    ResultsAfterModelOfLongerHistory(a, Record(a, e).state, e, m);
  }

  /** The same growth stated for any archive whose history has one more event. */
  lemma ResultsAfterModelOfLongerHistory(a: Archive, a': Archive, e: Event, m: Model)
    requires FindOrigin(a.developmentHistory, m).Some?
    requires a'.developmentHistory == a.developmentHistory + [e]
    ensures GetResultsAfterModel(a', m) ==
              Success(GetResultsAfterModel(a, m).value + (if e.Results? then e.experiment.results else []))
  {
    var h := a.developmentHistory;
    var o := FindOrigin(h, m).value;
    FindOriginAppend(h, e, m);
    ResultsAfterModelAt(a, m, o);
    ResultsAfterModelAt(a', m, o);
    ResultsAfterPositionGrows(h, e, o);
  }

  /** The results after a model whose origin sits at position `o`. */
  lemma ResultsAfterModelAt(a: Archive, m: Model, o: nat)
    requires FindOrigin(a.developmentHistory, m) == Some(o)
    ensures GetResultsAfterModel(a, m) == Success(ResultsIn(a.developmentHistory[o + 1..]))
  {
  }

  /** The results after position `o` grow by the results of an appended event. */
  lemma ResultsAfterPositionGrows(h: seq<Event>, e: Event, o: nat)
    requires o < |h|
    ensures ResultsIn((h + [e])[o + 1..]) == ResultsIn(h[o + 1..]) + (if e.Results? then e.experiment.results else [])
  {
    assert (h + [e])[o + 1..] == h[o + 1..] + [e];
    ResultsInAppend(h[o + 1..], [e]);
    assert [e][1..] == [];
  }
}

=== FILE: cost_model.dfy ===
/** The experiment cost tables (exp_cost_model.py): one table per kind of design element,
    mapping each element to its cost or to None while the cost is unset.

    Python dicts keep their keys in insertion order; only the order of `design_available`
    matters (complex costs are derived in that order, and a complex's cost can feed a later
    one), so that table carries its key order alongside. The keys are compared by value. */
module Costs {
  import opened Wrappers
  import opened Lists
  import opened Text
  import opened Domain

  type CostTable<K> = map<K, Option<int>>

  /** The seven experiment classes that key the `types` table. */
  datatype ExperimentClass =
    | DetectionEntityClass
    | AdamTwoFactorExperimentClass
    | ReconstructionActivityClass
    | ReconstructionEnzReactionClass
    | ReconstructionTransporterRequiredClass
    | LocalisationEntityClass
    | DetectionActivityClass

  const AllExperimentClasses: set<ExperimentClass> := {
    DetectionEntityClass, AdamTwoFactorExperimentClass, ReconstructionActivityClass,
    ReconstructionEnzReactionClass, ReconstructionTransporterRequiredClass,
    LocalisationEntityClass, DetectionActivityClass}

  datatype CostModel = CostModel(
    types: CostTable<ExperimentClass>,
    designCompartment: CostTable<string>,
    designDeletable: CostTable<Entity>,
    designAvailable: CostTable<Entity>,
    availableOrder: seq<Entity>,  // the keys of designAvailable in insertion order
    designActivityRec: CostTable<Activity>,
    designActivityDet: CostTable<Activity>,
    designEntityLoc: CostTable<Entity>,
    designEntityDet: CostTable<Entity>,
    interventionAdd: CostTable<Intervention>,
    interventionRemove: CostTable<Intervention>)

  /** `availableOrder` lists the keys of `designAvailable`, each once. */
  predicate WellOrdered(cm: CostModel) {
    Distinct(cm.availableOrder) && Elements(cm.availableOrder) == cm.designAvailable.Keys
  }

  datatype CostError =
    | MissingAttribute   // AttributeError: a setup condition without an entity
    | KeyNotFound        // KeyError: a component, substrate or product missing from a table
    | NoneInSum          // TypeError: `sum` over a list holding None

  /** The localisation compartment key of number `n`, "c_" followed by two digits. */
  function CompartmentKey(n: nat): (k: string)
    requires n < 100
    ensures |k| == 4 && k[..2] == "c_" && k[2..] == Pad2(n)
  {
    "c_" + Pad2(n)
  }

  /** The keys "c_02" up to the key of `last`. */
  function CompartmentKeysUpTo(last: nat): (ks: set<string>)
    requires last < 100
    ensures forall n: nat | n < 100 :: CompartmentKey(n) in ks <==> 2 <= n <= last
    decreases last
  {
    if last < 2 then {}
    else
      var ks := CompartmentKeysUpTo(last - 1) + {CompartmentKey(last)};
      forall n: nat | n < 100 ensures CompartmentKey(n) in ks <==> 2 <= n <= last {
        if CompartmentKey(n) == CompartmentKey(last) {
          assert Pad2(n) == CompartmentKey(n)[2..] == Pad2(last);
          Pad2Injective(n, last);
        }
      }
      ks
  }

  /** Each further number adds a key that was not there yet, so there are `last - 1` keys. */
  lemma {:induction false} CompartmentKeysCount(last: nat)
    requires 1 <= last < 100
    ensures |CompartmentKeysUpTo(last)| == last - 1
    decreases last
  {
    if last >= 2 {
      CompartmentKeysCount(last - 1);
      assert CompartmentKey(last) !in CompartmentKeysUpTo(last - 1);
    }
  }

  /** The keys `generate_all_possible` gives the compartment table: c_02 to c_34. */
  const DesignCompartmentKeys: set<string> := CompartmentKeysUpTo(34)

  /** A table over `keys` with every entry unset. */
  function Unset<K>(keys: set<K>): (t: CostTable<K>)
    ensures t.Keys == keys && forall k | k in t :: t[k].None?
  {
    map k | k in keys :: None
  }

  /** The initial Add costs: adding an import activity costs 0, adding a metabolite to the
      medium is unset. */
  function InitialAddCosts(entities: seq<Entity>, importActivities: seq<Activity>): (t: CostTable<Intervention>)
    ensures forall i | i in t :: t[i] == if i.target.TargetActivity? then Some(0) else None
  {
    (map a | a in importActivities :: Add(TargetActivity(a)) := Some(0))
      + (map e | e in entities && e.kind.Metabolite? :: Add(TargetCondition(PresentEntity(e, Medium()))) := None)
  }

  /** `generate_all_possible`: the tables of a new cost model. */
  function GenerateAllPossible(entities: seq<Entity>, compartments: seq<Compartment>, activities: seq<Activity>,
                               setupConds: seq<Condition>, importActivities: seq<Activity>): (r: Result<CostModel, CostError>)
    // reading `.entity` of a setup condition that is not a PresentEntity raises
    ensures r.Success? <==> forall c | c in setupConds :: c.PresentEntity?
    ensures r.Failure? ==> r.error == MissingAttribute
    ensures r.Success? ==> WellOrdered(r.value)
    ensures r.Success? ==> r.value.types.Keys == AllExperimentClasses && r.value.designCompartment.Keys == DesignCompartmentKeys
    // every entry is unset, except the Add of an import activity, which costs 0
    ensures r.Success? ==> AllUnsetExceptImports(r.value)
    ensures r.Success? ==> forall i | i in r.value.interventionAdd ::
      r.value.interventionAdd[i] == if i.target.TargetActivity? then Some(0) else None
  {
    if exists c | c in setupConds :: !c.PresentEntity? then Failure(MissingAttribute)
    else
      var available := Dedup(NonGenes(entities));
      Success(CostModel(
        Unset(AllExperimentClasses),
        Unset(DesignCompartmentKeys),
        Unset(set c | c in setupConds && c.entity.kind.Gene? :: c.entity),
        Unset(Elements(available)),
        available,
        Unset(set a | a in activities && a !in importActivities && !a.kind.Growth?),
        Unset(set a | a in activities && a !in importActivities && a.kind.Growth?),
        Unset(set e | e in entities && !e.kind.Gene? && !e.kind.Metabolite?),
        Unset(set e | e in entities && !e.kind.Gene?),
        InitialAddCosts(entities, importActivities),
        Unset(set c | c in setupConds && (c.entity.kind.Gene? || IsMedium(c.compartment)) :: Remove(TargetCondition(c)))))
  }

  /** A new cost model has seven experiment classes and the 33 compartments c_02 to c_34. */
  lemma GeneratedTableSizes()
    ensures |AllExperimentClasses| == 7
    ensures |DesignCompartmentKeys| == 33
    ensures "c_02" in DesignCompartmentKeys && "c_34" in DesignCompartmentKeys && "c_01" !in DesignCompartmentKeys
  {
    ExperimentClassCount();
    CompartmentKeysCount(34);
    CompartmentKeyLiterals();
  }

  lemma CompartmentKeyLiterals()
    ensures CompartmentKey(2) == "c_02" && CompartmentKey(34) == "c_34" && CompartmentKey(1) == "c_01"
  {
  }

  lemma ExperimentClassCount()
    ensures |AllExperimentClasses| == 7
  {
    var s1 := {DetectionEntityClass};
    var s2 := s1 + {AdamTwoFactorExperimentClass};
    var s3 := s2 + {ReconstructionActivityClass};
    var s4 := s3 + {ReconstructionEnzReactionClass};
    var s5 := s4 + {ReconstructionTransporterRequiredClass};
    var s6 := s5 + {LocalisationEntityClass};
    var s7 := s6 + {DetectionActivityClass};
    assert |s1| == 1;
    assert |s2| == 2;
    assert |s3| == 3;
    assert |s4| == 4;
    assert |s5| == 5;
    assert |s6| == 6;
    assert |s7| == 7;
    assert s7 == AllExperimentClasses;
  }

  /** Every compartment key is the key of some number in range. */
  lemma {:induction false} CompartmentKeysShape(last: nat, k: string)
    requires last < 100 && k in CompartmentKeysUpTo(last)
    ensures exists n: nat | 2 <= n <= last :: k == CompartmentKey(n)
    decreases last
  {
    if k != CompartmentKey(last) {
      CompartmentKeysShape(last - 1, k);
    }
  }

  /** How `generate_all_possible` classifies the entities: genes are only ever deletable;
      every other entity is available and detectable; all but metabolites are localisable. */
  lemma GeneratedEntityTables(entities: seq<Entity>, compartments: seq<Compartment>, activities: seq<Activity>,
                              setupConds: seq<Condition>, importActivities: seq<Activity>, e: Entity)
    requires GenerateAllPossible(entities, compartments, activities, setupConds, importActivities).Success?
    ensures var cm := GenerateAllPossible(entities, compartments, activities, setupConds, importActivities).value;
            && (e in cm.designAvailable <==> e in entities && !e.kind.Gene?)
            && (e in cm.designEntityDet <==> e in entities && !e.kind.Gene?)
            && (e in cm.designEntityLoc <==> e in entities && !e.kind.Gene? && !e.kind.Metabolite?)
            && (e in cm.designDeletable <==> e.kind.Gene? && exists c | c in setupConds :: c.entity == e)
  {
    NonGenesMembership(entities);
  }

  /** How `generate_all_possible` classifies the activities: import activities are never
      designed for; growth is detected; every other activity is reconstructed. */
  lemma GeneratedActivityTables(entities: seq<Entity>, compartments: seq<Compartment>, activities: seq<Activity>,
                                setupConds: seq<Condition>, importActivities: seq<Activity>, a: Activity)
    requires GenerateAllPossible(entities, compartments, activities, setupConds, importActivities).Success?
    ensures var cm := GenerateAllPossible(entities, compartments, activities, setupConds, importActivities).value;
            && (a in cm.designActivityDet <==> a in activities && a !in importActivities && a.kind.Growth?)
            && (a in cm.designActivityRec <==> a in activities && a !in importActivities && !a.kind.Growth?)
            && !(a in cm.designActivityDet && a in cm.designActivityRec)
  {
  }

  /** The interventions `generate_all_possible` prices: adding an import activity (at 0) or a
      metabolite to the medium, and removing a setup condition on a gene or in the medium. */
  lemma GeneratedInterventionTables(entities: seq<Entity>, compartments: seq<Compartment>, activities: seq<Activity>,
                                    setupConds: seq<Condition>, importActivities: seq<Activity>, i: Intervention)
    requires GenerateAllPossible(entities, compartments, activities, setupConds, importActivities).Success?
    ensures var cm := GenerateAllPossible(entities, compartments, activities, setupConds, importActivities).value;
            && (i in cm.interventionAdd <==>
                  (i.Add? && i.target.TargetActivity? && i.target.activity in importActivities)
                  || (exists e | e in entities && e.kind.Metabolite? :: i == Add(TargetCondition(PresentEntity(e, Medium())))))
            && (i in cm.interventionRemove <==>
                  exists c | c in setupConds :: i == Remove(TargetCondition(c)) && (c.entity.kind.Gene? || IsMedium(c.compartment)))
  {
  }

  /** The entities that are not genes, in order. */
  function NonGenes(es: seq<Entity>): seq<Entity> {
    if |es| == 0 then [] else (if es[0].kind.Gene? then [] else [es[0]]) + NonGenes(es[1..])
  }

  lemma {:induction false} NonGenesMembership(es: seq<Entity>)
    ensures forall e :: e in NonGenes(es) <==> e in es && !e.kind.Gene?
  {
    if |es| > 0 {
      NonGenesMembership(es[1..]);
      assert forall e :: e in es <==> e == es[0] || e in es[1..];
    }
  }

  /** Every entry of a new cost model is unset, except the Adds of import activities. */
  predicate AllUnsetExceptImports(cm: CostModel) {
    && (forall k | k in cm.types :: cm.types[k].None?)
    && (forall k | k in cm.designCompartment :: cm.designCompartment[k].None?)
    && (forall k | k in cm.designDeletable :: cm.designDeletable[k].None?)
    && (forall k | k in cm.designAvailable :: cm.designAvailable[k].None?)
    && (forall k | k in cm.designActivityRec :: cm.designActivityRec[k].None?)
    && (forall k | k in cm.designActivityDet :: cm.designActivityDet[k].None?)
    && (forall k | k in cm.designEntityLoc :: cm.designEntityLoc[k].None?)
    && (forall k | k in cm.designEntityDet :: cm.designEntityDet[k].None?)
    && (forall k | k in cm.interventionRemove :: cm.interventionRemove[k].None?)
  }

  /** `r` is `t` with every entry set to 1. */
  predicate AllSetToOne<K>(t: CostTable<K>, r: CostTable<K>) {
    r.Keys == t.Keys && forall k | k in r :: r[k] == Some(1)
  }

  /** `r` is `t` with every entry set to 1 except the complexes', which are kept. */
  predicate NonComplexSetToOne(t: CostTable<Entity>, r: CostTable<Entity>) {
    r.Keys == t.Keys && forall k | k in r :: r[k] == if k.kind.Complex? then t[k] else Some(1)
  }

  /** `r` is `t` with every entry set to 1 except those that cost 0, which are kept. */
  predicate NonZeroSetToOne<K>(t: CostTable<K>, r: CostTable<K>) {
    r.Keys == t.Keys && forall k | k in r :: r[k] == if t[k] == Some(0) then Some(0) else Some(1)
  }

  function AllToOne<K>(t: CostTable<K>): (r: CostTable<K>)
    ensures AllSetToOne(t, r)
  {
    map k | k in t :: Some(1)
  }

  function NonComplexToOne(t: CostTable<Entity>): (r: CostTable<Entity>)
    ensures NonComplexSetToOne(t, r)
  {
    map k | k in t :: if k.kind.Complex? then t[k] else Some(1)
  }

  function NonZeroToOne(t: CostTable<Intervention>): (r: CostTable<Intervention>)
    ensures NonZeroSetToOne(t, r)
  {
    map k | k in t :: if t[k] == Some(0) then Some(0) else Some(1)
  }

  /** `set_all_basic_costs_to_1`: every table entry becomes 1, except complexes in the
      availability, localisation and detection tables (their costs are derived) and Adds
      that cost 0; the reconstruction table is not touched. No key is added or dropped. */
  function SetAllBasicCostsTo1(cm: CostModel): (r: CostModel)
    ensures AllSetToOne(cm.types, r.types)
    ensures AllSetToOne(cm.designCompartment, r.designCompartment)
    ensures AllSetToOne(cm.designDeletable, r.designDeletable)
    ensures AllSetToOne(cm.designActivityDet, r.designActivityDet)
    ensures AllSetToOne(cm.interventionRemove, r.interventionRemove)
    ensures NonComplexSetToOne(cm.designAvailable, r.designAvailable)
    ensures NonComplexSetToOne(cm.designEntityLoc, r.designEntityLoc)
    ensures NonComplexSetToOne(cm.designEntityDet, r.designEntityDet)
    ensures NonZeroSetToOne(cm.interventionAdd, r.interventionAdd)
    ensures r.availableOrder == cm.availableOrder && r.designActivityRec == cm.designActivityRec
    ensures WellOrdered(cm) ==> WellOrdered(r)
  {
    CostModel(
      AllToOne(cm.types),
      AllToOne(cm.designCompartment),
      AllToOne(cm.designDeletable),
      NonComplexToOne(cm.designAvailable),
      cm.availableOrder,
      cm.designActivityRec,
      AllToOne(cm.designActivityDet),
      NonComplexToOne(cm.designEntityLoc),
      NonComplexToOne(cm.designEntityDet),
      NonZeroToOne(cm.interventionAdd),
      AllToOne(cm.interventionRemove))
  }

  /** Setting the basic costs twice is setting them once. */
  lemma SetAllBasicCostsTo1Idempotent(cm: CostModel)
    ensures SetAllBasicCostsTo1(SetAllBasicCostsTo1(cm)) == SetAllBasicCostsTo1(cm)
  {
    var r := SetAllBasicCostsTo1(cm);
    assert NonZeroToOne(r.interventionAdd) == r.interventionAdd;
    assert NonComplexToOne(r.designAvailable) == r.designAvailable;
    assert NonComplexToOne(r.designEntityLoc) == r.designEntityLoc;
    assert NonComplexToOne(r.designEntityDet) == r.designEntityDet;
  }

  /** `r` is `t` without its unset entries: exactly the set keys stay, with their values. */
  predicate Pruned<K>(t: CostTable<K>, r: CostTable<K>) {
    && (forall k | k in t :: k in r <==> t[k].Some?)
    && (forall k | k in r :: k in t && r[k] == t[k])
  }

  function DropUnset<K>(t: CostTable<K>): (r: CostTable<K>)
    ensures Pruned(t, r)
  {
    map k | k in t && t[k].Some? :: t[k]
  }

  /** The elements of `ks` whose entry in `t` is set, in order. */
  function KeepSet<K>(ks: seq<K>, t: CostTable<K>): (r: seq<K>)
    ensures Elements(r) == set k | k in ks && k in t && t[k].Some?
  {
    if |ks| == 0 then []
    else
      var rest := KeepSet(ks[1..], t);
      assert Elements(ks) == {ks[0]} + Elements(ks[1..]);
      if ks[0] in t && t[ks[0]].Some? then
        assert Elements([ks[0]] + rest) == {ks[0]} + Elements(rest);
        [ks[0]] + rest
      else rest
  }

  lemma {:induction false} KeepSetDistinct<K>(ks: seq<K>, t: CostTable<K>)
    requires Distinct(ks)
    ensures Distinct(KeepSet(ks, t))
  {
    if |ks| > 0 {
      var tail := ks[1..];
      assert Distinct(tail) by {
        forall i, j | 0 <= i < j < |tail| ensures tail[i] != tail[j] {
          assert tail[i] == ks[i + 1] && tail[j] == ks[j + 1];
        }
      }
      KeepSetDistinct(tail, t);
      var rest := KeepSet(tail, t);
      if ks[0] in t && t[ks[0]].Some? {
        assert ks[0] !in tail by {
          forall j | 0 <= j < |tail| ensures tail[j] != ks[0] {
            assert tail[j] == ks[j + 1];
          }
        }
        assert ks[0] !in Elements(rest);
        var r := [ks[0]] + rest;
        forall i, j | 0 <= i < j < |r| ensures r[i] != r[j] {
          if i == 0 {
            assert r[j] == rest[j - 1] && r[j] in Elements(rest);
          } else {
            assert r[i] == rest[i - 1] && r[j] == rest[j - 1];
          }
        }
      }
    }
  }

  /** `remove_None_valued_elements`: every unset entry is deleted from every table. */
  function RemoveNoneValuedElements(cm: CostModel): (r: CostModel)
    // in every table exactly the unset keys go, and the remaining entries keep their values
    ensures Pruned(cm.types, r.types)
    ensures Pruned(cm.designCompartment, r.designCompartment)
    ensures Pruned(cm.designDeletable, r.designDeletable)
    ensures Pruned(cm.designAvailable, r.designAvailable)
    ensures Pruned(cm.designActivityRec, r.designActivityRec)
    ensures Pruned(cm.designActivityDet, r.designActivityDet)
    ensures Pruned(cm.designEntityLoc, r.designEntityLoc)
    ensures Pruned(cm.designEntityDet, r.designEntityDet)
    ensures Pruned(cm.interventionAdd, r.interventionAdd)
    ensures Pruned(cm.interventionRemove, r.interventionRemove)
    // the key order of the availability table loses exactly the dropped keys
    ensures Elements(r.availableOrder) == set k | k in cm.availableOrder && k in cm.designAvailable && cm.designAvailable[k].Some?
    ensures WellOrdered(cm) ==> WellOrdered(r)
    ensures NoUnsetEntries(r)
  {
    assert WellOrdered(cm) ==> Distinct(KeepSet(cm.availableOrder, cm.designAvailable)) by {
      if WellOrdered(cm) {
        KeepSetDistinct(cm.availableOrder, cm.designAvailable);
      }
    }
    CostModel(
      DropUnset(cm.types),
      DropUnset(cm.designCompartment),
      DropUnset(cm.designDeletable),
      DropUnset(cm.designAvailable),
      KeepSet(cm.availableOrder, cm.designAvailable),
      DropUnset(cm.designActivityRec),
      DropUnset(cm.designActivityDet),
      DropUnset(cm.designEntityLoc),
      DropUnset(cm.designEntityDet),
      DropUnset(cm.interventionAdd),
      DropUnset(cm.interventionRemove))
  }

  /** No table has an unset entry. */
  predicate NoUnsetEntries(cm: CostModel) {
    && (forall k | k in cm.types :: cm.types[k].Some?)
    && (forall k | k in cm.designCompartment :: cm.designCompartment[k].Some?)
    && (forall k | k in cm.designDeletable :: cm.designDeletable[k].Some?)
    && (forall k | k in cm.designAvailable :: cm.designAvailable[k].Some?)
    && (forall k | k in cm.designActivityRec :: cm.designActivityRec[k].Some?)
    && (forall k | k in cm.designActivityDet :: cm.designActivityDet[k].Some?)
    && (forall k | k in cm.designEntityLoc :: cm.designEntityLoc[k].Some?)
    && (forall k | k in cm.designEntityDet :: cm.designEntityDet[k].Some?)
    && (forall k | k in cm.interventionAdd :: cm.interventionAdd[k].Some?)
    && (forall k | k in cm.interventionRemove :: cm.interventionRemove[k].Some?)
  }

  /** Removing the unset entries a second time changes nothing. */
  lemma RemoveNoneIdempotent(cm: CostModel)
    ensures RemoveNoneValuedElements(RemoveNoneValuedElements(cm)) == RemoveNoneValuedElements(cm)
  {
    KeepSetIdempotent(cm.availableOrder, cm.designAvailable);
    DropUnsetIdempotent(cm.types);
    DropUnsetIdempotent(cm.designCompartment);
    DropUnsetIdempotent(cm.designDeletable);
    DropUnsetIdempotent(cm.designAvailable);
    DropUnsetIdempotent(cm.designActivityRec);
    DropUnsetIdempotent(cm.designActivityDet);
    DropUnsetIdempotent(cm.designEntityLoc);
    DropUnsetIdempotent(cm.designEntityDet);
    DropUnsetIdempotent(cm.interventionAdd);
    DropUnsetIdempotent(cm.interventionRemove);
  }

  lemma DropUnsetIdempotent<K>(t: CostTable<K>)
    ensures DropUnset(DropUnset(t)) == DropUnset(t)
  {
  }

  /** Filtering the filtered keys by the filtered table keeps them all. */
  lemma KeepSetIdempotent<K>(ks: seq<K>, t: CostTable<K>)
    ensures KeepSet(KeepSet(ks, t), DropUnset(t)) == KeepSet(ks, t)
  {
    var kept := KeepSet(ks, t);
    assert forall k | k in kept :: k in Elements(kept);
    KeepSetAllSet(kept, DropUnset(t));
  }

  lemma {:induction false} KeepSetAllSet<K>(ks: seq<K>, t: CostTable<K>)
    requires forall k | k in ks :: k in t && t[k].Some?
    ensures KeepSet(ks, t) == ks
  {
    if |ks| > 0 {
      assert forall k | k in ks[1..] :: k in ks;
      KeepSetAllSet(ks[1..], t);
      assert ks == [ks[0]] + ks[1..];
    }
  }

  /** On a cost model whose only set entries are the zero-cost Adds (a fresh one), removing
      the unset entries empties every table but those Adds. */
  lemma RemoveNoneOnFreshModel(cm: CostModel)
    requires AllUnsetExceptImports(cm)
    ensures var r := RemoveNoneValuedElements(cm);
            && r.types == map[] && r.designCompartment == map[] && r.designDeletable == map[]
            && r.designAvailable == map[] && r.availableOrder == [] && r.designActivityRec == map[]
            && r.designActivityDet == map[] && r.designEntityLoc == map[] && r.designEntityDet == map[]
            && r.interventionRemove == map[]
            && r.interventionAdd == DropUnset(cm.interventionAdd)
  {
    var r := RemoveNoneValuedElements(cm);
    NoElementsIsEmpty(r.availableOrder);
  }

  // ---------------------------------------------------------------------------------------
  // Derived costs (`calculate_derived_costs`)

  /** Every key of `ks` is in `t`. */
  predicate Keyed<K>(t: CostTable<K>, ks: seq<K>) {
    forall k | k in ks :: k in t
  }

  /** Every key of `ks` is in `t` with its cost set. */
  predicate AllSet<K>(t: CostTable<K>, ks: seq<K>) {
    forall k | k in ks :: k in t && t[k].Some?
  }

  /** The total cost of `ks` in `t`, each occurrence counted. */
  function SumCosts<K>(t: CostTable<K>, ks: seq<K>): int
    requires AllSet(t, ks)
  {
    if |ks| == 0 then 0
    else
      assert forall k | k in ks[1..] :: k in ks;
      t[ks[0]].value + SumCosts(t, ks[1..])
  }

  /** The list `[t[k] for k in ks]`; a KeyError when a key is missing. */
  function LookupAll<K>(t: CostTable<K>, ks: seq<K>): (r: Result<seq<Option<int>>, CostError>)
    ensures r.Success? <==> Keyed(t, ks)
    ensures r.Success? ==> |r.value| == |ks| && forall i | 0 <= i < |ks| :: r.value[i] == t[ks[i]]
    ensures r.Failure? ==> r.error == KeyNotFound
  {
    if Keyed(t, ks) then Success(seq(|ks|, i requires 0 <= i < |ks| => t[ks[i]]))
    else Failure(KeyNotFound)
  }

  /** Python's `sum` over a list of costs: a TypeError as soon as it meets None. */
  function Sum(cs: seq<Option<int>>): (r: Result<int, CostError>)
    ensures r.Success? <==> None !in cs
    ensures r.Failure? ==> r.error == NoneInSum
  {
    if |cs| == 0 then Success(0)
    else if cs[0].None? then Failure(NoneInSum)
    else
      assert forall c :: c in cs <==> c == cs[0] || c in cs[1..];
      match Sum(cs[1..])
      case Failure(e) => Failure(e)
      case Success(v) => Success(cs[0].value + v)
  }

  /** Summing the looked-up costs is the total cost, and it fails exactly when one is unset. */
  lemma {:induction false} LookupSum<K>(t: CostTable<K>, ks: seq<K>)
    requires Keyed(t, ks)
    ensures None !in LookupAll(t, ks).value <==> AllSet(t, ks)
    ensures AllSet(t, ks) ==> Sum(LookupAll(t, ks).value) == Success(SumCosts(t, ks))
  {
    var cs := LookupAll(t, ks).value;
    assert None in cs <==> exists i | 0 <= i < |ks| :: t[ks[i]].None?;
    if |ks| > 0 {
      assert forall k | k in ks[1..] :: k in ks;
      LookupSum(t, ks[1..]);
      assert cs == [cs[0]] + LookupAll(t, ks[1..]).value;
      assert cs[1..] == LookupAll(t, ks[1..]).value;
    }
  }

  /** A list of costs that are all 1 sums to its length. */
  lemma {:induction false} SumCostsOfOnes<K>(t: CostTable<K>, ks: seq<K>)
    requires forall k | k in ks :: k in t && t[k] == Some(1)
    ensures AllSet(t, ks) && SumCosts(t, ks) == |ks|
  {
    if |ks| > 0 {
      assert forall k | k in ks[1..] :: k in ks;
      SumCostsOfOnes(t, ks[1..]);
    }
  }

  /** The activities among `acts` that produce `ent` (`check_if_is_product`), in order. */
  function FormationReactions(acts: seq<Activity>, ent: Entity): (r: seq<Activity>)
    ensures forall a :: a in r <==> a in acts && ent in Products(a)
  {
    if |acts| == 0 then []
    else
      assert forall a :: a in acts <==> a == acts[0] || a in acts[1..];
      (if ent in Products(acts[0]) then [acts[0]] else []) + FormationReactions(acts[1..], ent)
  }

  /** One round of the complex loop: a complex with exactly one formation reaction gets,
      in each of the availability, detection and localisation tables where all its
      components' costs are set, the sum of the components' AVAILABILITY costs. Reading
      a component missing from a table is a KeyError; writing the availability sum into
      detection or localisation while some availability cost is unset is a TypeError. */
  function ComplexStep(cm: CostModel, ent: Entity, acts: seq<Activity>): (r: Result<CostModel, CostError>)
    // a non-complex, or a complex without exactly one formation reaction, changes nothing
    ensures !ent.kind.Complex? || |FormationReactions(acts, ent)| != 1 ==> r == Success(cm)
    ensures r.Success? ==> r.value == cm.(designAvailable := r.value.designAvailable,
                                          designEntityDet := r.value.designEntityDet,
                                          designEntityLoc := r.value.designEntityLoc)
    ensures ent.kind.Complex? && |FormationReactions(acts, ent)| == 1 ==>
      var comps := Substrates(FormationReactions(acts, ent)[0]);
      var av, det, loc := cm.designAvailable, cm.designEntityDet, cm.designEntityLoc;
      // the failures, in the order the source meets them
      && (!Keyed(av, comps) ==> r == Failure(KeyNotFound))
      && (Keyed(av, comps) && !Keyed(det, comps) ==> r == Failure(KeyNotFound))
      && (Keyed(av, comps) && Keyed(det, comps) && !AllSet(av, comps) && AllSet(det, comps) ==> r == Failure(NoneInSum))
      && (Keyed(av, comps) && Keyed(det, comps) && !(!AllSet(av, comps) && AllSet(det, comps)) ==>
            (!Keyed(loc, comps) ==> r == Failure(KeyNotFound))
            && (Keyed(loc, comps) && !AllSet(av, comps) && AllSet(loc, comps) ==> r == Failure(NoneInSum)))
      // otherwise the three tables are updated where their components' costs are all set
      && (r.Success? ==>
            && r.value.designAvailable == (if AllSet(av, comps) then av[ent := Some(SumCosts(av, comps))] else av)
            && r.value.designEntityDet == (if AllSet(det, comps) then det[ent := Some(SumCosts(av, comps))] else det)
            && r.value.designEntityLoc == (if AllSet(loc, comps) then loc[ent := Some(SumCosts(av, comps))] else loc))
  {
    if !ent.kind.Complex? then Success(cm)
    else
      var forms := FormationReactions(acts, ent);
      if |forms| != 1 then Success(cm)
      else
        var comps := Substrates(forms[0]);
        match LookupAll(cm.designAvailable, comps)
        case Failure(e) => Failure(e)
        case Success(costsAvailable) =>
          LookupSum(cm.designAvailable, comps);
          var sumAvailable := Sum(costsAvailable);
          var av := if None !in costsAvailable then cm.designAvailable[ent := Some(sumAvailable.value)]
                    else cm.designAvailable;
          match LookupAll(cm.designEntityDet, comps)
          case Failure(e) => Failure(e)
          case Success(costsDet) =>
            LookupSum(cm.designEntityDet, comps);
            if None !in costsDet && sumAvailable.Failure? then Failure(NoneInSum)
            else
              var det := if None !in costsDet then cm.designEntityDet[ent := Some(sumAvailable.value)]
                         else cm.designEntityDet;
              match LookupAll(cm.designEntityLoc, comps)
              case Failure(e) => Failure(e)
              case Success(costsLoc) =>
                LookupSum(cm.designEntityLoc, comps);
                if None !in costsLoc && sumAvailable.Failure? then Failure(NoneInSum)
                else
                  var loc := if None !in costsLoc then cm.designEntityLoc[ent := Some(sumAvailable.value)]
                             else cm.designEntityLoc;
                  Success(cm.(designAvailable := av, designEntityDet := det, designEntityLoc := loc))
  }

  /** With every component costing 1 in all three tables, the complex costs as many as it
      has components, in all three. */
  lemma ComplexOfUnitComponents(cm: CostModel, ent: Entity, acts: seq<Activity>)
    requires ent.kind.Complex? && |FormationReactions(acts, ent)| == 1
    requires var comps := Substrates(FormationReactions(acts, ent)[0]);
             forall c | c in comps :: && c in cm.designAvailable && cm.designAvailable[c] == Some(1)
                                      && c in cm.designEntityDet && cm.designEntityDet[c] == Some(1)
                                      && c in cm.designEntityLoc && cm.designEntityLoc[c] == Some(1)
    ensures var comps := Substrates(FormationReactions(acts, ent)[0]);
            var r := ComplexStep(cm, ent, acts);
            && r.Success?
            && r.value.designAvailable[ent] == Some(|comps|)
            && r.value.designEntityDet[ent] == Some(|comps|)
            && r.value.designEntityLoc[ent] == Some(|comps|)
  {
    var comps := Substrates(FormationReactions(acts, ent)[0]);
    SumCostsOfOnes(cm.designAvailable, comps);
    SumCostsOfOnes(cm.designEntityDet, comps);
    SumCostsOfOnes(cm.designEntityLoc, comps);
  }

  /** `u` keeps every non-complex entry of `t`, and every key of `t`. */
  predicate AgreeOffComplexes(t: CostTable<Entity>, u: CostTable<Entity>) {
    && t.Keys <= u.Keys
    && forall k | k in u && !k.kind.Complex? :: k in t && u[k] == t[k]
  }

  /** `b` differs from `a` only in the complexes' availability, detection and localisation
      costs, and has the same availability keys. */
  predicate KeepsBasicCosts(a: CostModel, b: CostModel) {
    && b == a.(designAvailable := b.designAvailable, designEntityDet := b.designEntityDet,
               designEntityLoc := b.designEntityLoc)
    && b.designAvailable.Keys == a.designAvailable.Keys
    && AgreeOffComplexes(a.designAvailable, b.designAvailable)
    && AgreeOffComplexes(a.designEntityDet, b.designEntityDet)
    && AgreeOffComplexes(a.designEntityLoc, b.designEntityLoc)
  }

  /** The complex loop over `order` (the source iterates `design_available` in insertion
      order); it stops at the first error. Only the availability, detection and
      localisation tables change; a loop over entities with availability entries changes
      only the complexes' costs, and a loop that meets no complex changes nothing. */
  function ComplexLoop(cm: CostModel, order: seq<Entity>, acts: seq<Activity>): (r: Result<CostModel, CostError>)
    ensures r.Success? ==> r.value == cm.(designAvailable := r.value.designAvailable,
                                          designEntityDet := r.value.designEntityDet,
                                          designEntityLoc := r.value.designEntityLoc)
    ensures (forall e | e in order :: e in cm.designAvailable) && r.Success? ==> KeepsBasicCosts(cm, r.value)
    ensures (forall e | e in order :: !e.kind.Complex?) ==> r == Success(cm)
    // a loop over one entity is one `ComplexStep`; `ComplexLoopAppend` gives the rest
    ensures |order| == 1 ==> r == ComplexStep(cm, order[0], acts)
    decreases |order|
  {
    if |order| == 0 then Success(cm)
    else
      match ComplexStep(cm, order[0], acts)
      case Failure(e) => Failure(e)
      case Success(cm1) =>
        var r := ComplexLoop(cm1, order[1..], acts);
        assert forall e | e in order[1..] :: e in order;
        assert (forall e | e in order :: e in cm.designAvailable) && r.Success? ==> KeepsBasicCosts(cm, r.value) by {
          if (forall e | e in order :: e in cm.designAvailable) && r.Success? {
            ComplexStepKeepsBasicCosts(cm, order[0], acts);
            KeepsBasicCostsTransitive(cm, cm1, r.value);
          }
        }
        r
  }

  /** The loop over two lists in a row is the loop over their concatenation; an error in
      the first list stops it. */
  lemma {:induction false} ComplexLoopAppend(cm: CostModel, a: seq<Entity>, b: seq<Entity>, acts: seq<Activity>)
    ensures ComplexLoop(cm, a + b, acts) ==
              match ComplexLoop(cm, a, acts)
              case Failure(e) => Failure(e)
              case Success(c) => ComplexLoop(c, b, acts)
    decreases |a|
  {
    if |a| == 0 {
      assert a + b == b;
    } else {
      assert (a + b)[0] == a[0];
      assert (a + b)[1..] == a[1..] + b;
      match ComplexStep(cm, a[0], acts)
      case Failure(_) =>
      case Success(cm1) => ComplexLoopAppend(cm1, a[1..], b, acts);
    }
  }

  /** `x` has the same entry, or the same absence of one, in `t` and `u`. */
  predicate SameEntry<K>(t: CostTable<K>, u: CostTable<K>, x: K) {
    (x in t <==> x in u) && (x in t ==> t[x] == u[x])
  }

  /** `x`'s availability, detection and localisation entries are the same in `a` and `b`. */
  predicate Untouched(a: CostModel, b: CostModel, x: Entity) {
    && SameEntry(a.designAvailable, b.designAvailable, x)
    && SameEntry(a.designEntityDet, b.designEntityDet, x)
    && SameEntry(a.designEntityLoc, b.designEntityLoc, x)
  }

  /** The loop writes only the entries of the entities it visits. */
  lemma {:induction false} ComplexLoopUntouched(cm: CostModel, order: seq<Entity>, acts: seq<Activity>, x: Entity)
    requires x !in order
    ensures ComplexLoop(cm, order, acts).Success? ==> Untouched(cm, ComplexLoop(cm, order, acts).value, x)
    decreases |order|
  {
    if |order| > 0 && ComplexLoop(cm, order, acts).Success? {
      var cm1 := ComplexStep(cm, order[0], acts).value;
      ComplexStepUntouched(cm, order[0], acts, x);
      assert x !in order[1..] by {
        assert forall e | e in order[1..] :: e in order;
      }
      ComplexLoopUntouched(cm1, order[1..], acts, x);
    }
  }

  /** One step writes only the entries of the entity it visits. */
  lemma ComplexStepUntouched(cm: CostModel, ent: Entity, acts: seq<Activity>, x: Entity)
    requires x != ent
    ensures ComplexStep(cm, ent, acts).Success? ==> Untouched(cm, ComplexStep(cm, ent, acts).value, x)
  {
    var r := ComplexStep(cm, ent, acts);
    if r.Success? && ent.kind.Complex? && |FormationReactions(acts, ent)| == 1 {
      var comps := Substrates(FormationReactions(acts, ent)[0]);
      var v := if AllSet(cm.designAvailable, comps) then Some(SumCosts(cm.designAvailable, comps)) else None;
      SameEntryElsewhere(cm.designAvailable, r.value.designAvailable, ent, v, x);
      SameEntryElsewhere(cm.designEntityDet, r.value.designEntityDet, ent, v, x);
      SameEntryElsewhere(cm.designEntityLoc, r.value.designEntityLoc, ent, v, x);
    }
  }

  /** Leaving a table alone, or setting the entry of `k`, keeps the entry of every other key. */
  lemma SameEntryElsewhere<K>(t: CostTable<K>, u: CostTable<K>, k: K, v: Option<int>, x: K)
    requires u == t || u == t[k := v]
    requires x != k
    ensures SameEntry(t, u, x)
  {
  }

  /** Over tables that agree off the complexes, a list of non-complexes is set in both or
      in neither, and sums to the same total. */
  lemma {:induction false} SumCostsAgree(t: CostTable<Entity>, u: CostTable<Entity>, ks: seq<Entity>)
    requires AgreeOffComplexes(t, u)
    requires forall k | k in ks :: !k.kind.Complex?
    ensures AllSet(t, ks) <==> AllSet(u, ks)
    ensures AllSet(t, ks) ==> SumCosts(t, ks) == SumCosts(u, ks)
  {
    if |ks| > 0 {
      assert forall k | k in ks[1..] :: k in ks;
      SumCostsAgree(t, u, ks[1..]);
    }
  }

  /** The entries `ComplexStep` gives the complex `e` with components `comps`, priced over
      the costs of `cm`: in each table where the components' costs are all set (and the
      availability costs are too), the sum of their availability costs; in a table where
      they are not, the entry `cm` had. */
  predicate PricedFrom(cm: CostModel, e: Entity, comps: seq<Entity>, r: CostModel) {
    var av, det, loc := cm.designAvailable, cm.designEntityDet, cm.designEntityLoc;
    && (AllSet(av, comps) ==> e in r.designAvailable && r.designAvailable[e] == Some(SumCosts(av, comps)))
    && (!AllSet(av, comps) ==> SameEntry(av, r.designAvailable, e))
    && (AllSet(av, comps) && AllSet(det, comps) ==>
          e in r.designEntityDet && r.designEntityDet[e] == Some(SumCosts(av, comps)))
    && (!AllSet(det, comps) ==> SameEntry(det, r.designEntityDet, e))
    && (AllSet(av, comps) && AllSet(loc, comps) ==>
          e in r.designEntityLoc && r.designEntityLoc[e] == Some(SumCosts(av, comps)))
    && (!AllSet(loc, comps) ==> SameEntry(loc, r.designEntityLoc, e))
  }

  /** A step on a model that kept the basic costs and `e`'s own entries prices `e` as a
      step on the original model would, when its components are not complexes. */
  lemma ComplexStepPricesComplex(cm: CostModel, c1: CostModel, e: Entity, acts: seq<Activity>)
    requires KeepsBasicCosts(cm, c1) && Untouched(cm, c1, e)
    requires e.kind.Complex? && |FormationReactions(acts, e)| == 1
    requires forall c | c in Substrates(FormationReactions(acts, e)[0]) :: !c.kind.Complex?
    requires ComplexStep(c1, e, acts).Success?
    ensures PricedFrom(cm, e, Substrates(FormationReactions(acts, e)[0]), ComplexStep(c1, e, acts).value)
  {
    var comps := Substrates(FormationReactions(acts, e)[0]);
    SumCostsAgree(cm.designAvailable, c1.designAvailable, comps);
    SumCostsAgree(cm.designEntityDet, c1.designEntityDet, comps);
    SumCostsAgree(cm.designEntityLoc, c1.designEntityLoc, comps);
  }

  /** The loop through `e`: the loop over the entities before it, the step on it, and
      the loop over the entities after it. */
  lemma ComplexLoopSplitAt(cm: CostModel, pre: seq<Entity>, e: Entity, post: seq<Entity>, acts: seq<Activity>)
    requires ComplexLoop(cm, pre + [e] + post, acts).Success?
    ensures var c1 := ComplexLoop(cm, pre, acts);
            && c1.Success?
            && ComplexStep(c1.value, e, acts).Success?
            && ComplexLoop(cm, pre + [e] + post, acts) == ComplexLoop(ComplexStep(c1.value, e, acts).value, post, acts)
  {
    assert pre + [e] + post == pre + ([e] + post);
    ComplexLoopAppend(cm, pre, [e] + post, acts);
    assert ([e] + post)[0] == e && ([e] + post)[1..] == post;
  }

  /** A later change that leaves `e`'s entries alone keeps its pricing. */
  lemma PricedFromUntouched(cm: CostModel, e: Entity, comps: seq<Entity>, c: CostModel, r: CostModel)
    requires PricedFrom(cm, e, comps, c) && Untouched(c, r, e)
    ensures PricedFrom(cm, e, comps, r)
  {
  }

  /** The step on `e` and the loop over entities other than `e` after it, started from a
      model that kept the basic costs and `e`'s own entries, price `e` from the original
      model. */
  lemma StepThenLoopPricesComplex(cm: CostModel, c1: CostModel, e: Entity, post: seq<Entity>, acts: seq<Activity>)
    requires KeepsBasicCosts(cm, c1) && Untouched(cm, c1, e) && e !in post
    requires e.kind.Complex? && |FormationReactions(acts, e)| == 1
    requires forall c | c in Substrates(FormationReactions(acts, e)[0]) :: !c.kind.Complex?
    requires ComplexStep(c1, e, acts).Success?
    requires ComplexLoop(ComplexStep(c1, e, acts).value, post, acts).Success?
    ensures PricedFrom(cm, e, Substrates(FormationReactions(acts, e)[0]),
                       ComplexLoop(ComplexStep(c1, e, acts).value, post, acts).value)
  {
    var c2 := ComplexStep(c1, e, acts).value;
    ComplexStepPricesComplex(cm, c1, e, acts);
    ComplexLoopUntouched(c2, post, acts, e);
    PricedFromUntouched(cm, e, Substrates(FormationReactions(acts, e)[0]), c2, ComplexLoop(c2, post, acts).value);
  }

  /** What the loop gives a complex `e` it visits once, whose single formation reaction
      has only non-complex components: `PricedFrom` over the costs before the loop. With
      every component's availability costing 1, the complex's availability is the number
      of components. */
  lemma ComplexLoopPricesComplex(cm: CostModel, pre: seq<Entity>, e: Entity, post: seq<Entity>, acts: seq<Activity>)
    requires e !in pre && e !in post
    requires forall x | x in pre :: x in cm.designAvailable
    requires e.kind.Complex? && |FormationReactions(acts, e)| == 1
    requires forall c | c in Substrates(FormationReactions(acts, e)[0]) :: !c.kind.Complex?
    requires ComplexLoop(cm, pre + [e] + post, acts).Success?
    ensures var r := ComplexLoop(cm, pre + [e] + post, acts).value;
            var comps := Substrates(FormationReactions(acts, e)[0]);
            && PricedFrom(cm, e, comps, r)
            && ((forall c | c in comps :: c in cm.designAvailable && cm.designAvailable[c] == Some(1)) ==>
                  e in r.designAvailable && r.designAvailable[e] == Some(|comps|))
  {
    var comps := Substrates(FormationReactions(acts, e)[0]);
    ComplexLoopSplitAt(cm, pre, e, post, acts);
    var c1 := ComplexLoop(cm, pre, acts).value;
    ComplexLoopUntouched(cm, pre, acts, e);
    StepThenLoopPricesComplex(cm, c1, e, post, acts);
    if forall c | c in comps :: c in cm.designAvailable && cm.designAvailable[c] == Some(1) {
      SumCostsOfOnes(cm.designAvailable, comps);
    }
  }

  /** One step of the complex loop, on an entity with an availability entry, changes only
      that complex's entries. */
  lemma ComplexStepKeepsBasicCosts(cm: CostModel, ent: Entity, acts: seq<Activity>)
    requires ent in cm.designAvailable
    ensures ComplexStep(cm, ent, acts).Success? ==> KeepsBasicCosts(cm, ComplexStep(cm, ent, acts).value)
  {
    var r := ComplexStep(cm, ent, acts);
    if r.Success? && ent.kind.Complex? && |FormationReactions(acts, ent)| == 1 {
      var comps := Substrates(FormationReactions(acts, ent)[0]);
      var v := if AllSet(cm.designAvailable, comps) then Some(SumCosts(cm.designAvailable, comps)) else None;
      AgreeOffComplexesStep(cm.designAvailable, r.value.designAvailable, ent, v);
      AgreeOffComplexesStep(cm.designEntityDet, r.value.designEntityDet, ent, v);
      AgreeOffComplexesStep(cm.designEntityLoc, r.value.designEntityLoc, ent, v);
    }
  }

  /** Leaving a table alone, or setting a complex's entry, keeps every other entry. */
  lemma AgreeOffComplexesStep(t: CostTable<Entity>, u: CostTable<Entity>, ent: Entity, v: Option<int>)
    requires ent.kind.Complex?
    requires u == t || u == t[ent := v]
    ensures AgreeOffComplexes(t, u)
  {
  }

  lemma AgreeOffComplexesTransitive(t: CostTable<Entity>, u: CostTable<Entity>, v: CostTable<Entity>)
    requires AgreeOffComplexes(t, u) && AgreeOffComplexes(u, v)
    ensures AgreeOffComplexes(t, v)
  {
  }

  lemma KeepsBasicCostsTransitive(a: CostModel, b: CostModel, c: CostModel)
    requires KeepsBasicCosts(a, b) && KeepsBasicCosts(b, c)
    ensures KeepsBasicCosts(a, c)
  {
    AgreeOffComplexesTransitive(a.designAvailable, b.designAvailable, c.designAvailable);
    AgreeOffComplexesTransitive(a.designEntityDet, b.designEntityDet, c.designEntityDet);
    AgreeOffComplexesTransitive(a.designEntityLoc, b.designEntityLoc, c.designEntityLoc);
  }

  /** The new reconstruction cost of one activity: growth and expression keep theirs; any
      other activity costs its substrates' availability plus its products' detection, when
      those are all set, and otherwise keeps its cost. A substrate missing from the
      availability table or a product missing from the detection table is a KeyError. */
  function RecCost(cm: CostModel, act: Activity): (r: Result<Option<int>, CostError>)
    requires act in cm.designActivityRec
    ensures act.kind.Growth? || act.kind.Expression? ==> r == Success(cm.designActivityRec[act])
    ensures act.kind.Reaction? ==>
      var subs, prods := Substrates(act), Products(act);
      && (r.Success? <==> Keyed(cm.designAvailable, subs) && Keyed(cm.designEntityDet, prods))
      && (r.Failure? ==> r.error == KeyNotFound)
      && (r.Success? ==>
            r.value == (if AllSet(cm.designAvailable, subs) && AllSet(cm.designEntityDet, prods)
                        then Some(SumCosts(cm.designAvailable, subs) + SumCosts(cm.designEntityDet, prods))
                        else cm.designActivityRec[act]))
  {
    if act.kind.Growth? || act.kind.Expression? then Success(cm.designActivityRec[act])
    else
      match LookupAll(cm.designAvailable, Substrates(act))
      case Failure(e) => Failure(e)
      case Success(substratesAvailableCosts) =>
        match LookupAll(cm.designEntityDet, Products(act))
        case Failure(e) => Failure(e)
        case Success(productsDetectionCosts) =>
          LookupSum(cm.designAvailable, Substrates(act));
          LookupSum(cm.designEntityDet, Products(act));
          if None in substratesAvailableCosts then Success(cm.designActivityRec[act])
          else if None in productsDetectionCosts then Success(cm.designActivityRec[act])
          else Success(Some(Sum(substratesAvailableCosts).value + Sum(productsDetectionCosts).value))
  }

  /** With every substrate and product costing 1, a reaction costs as many as it has
      substrates and products. */
  lemma ReactionOfUnitEntities(cm: CostModel, act: Activity)
    requires act in cm.designActivityRec && act.kind.Reaction?
    requires forall e | e in Substrates(act) :: e in cm.designAvailable && cm.designAvailable[e] == Some(1)
    requires forall e | e in Products(act) :: e in cm.designEntityDet && cm.designEntityDet[e] == Some(1)
    ensures RecCost(cm, act) == Success(Some(|Substrates(act)| + |Products(act)|))
  {
    SumCostsOfOnes(cm.designAvailable, Substrates(act));
    SumCostsOfOnes(cm.designEntityDet, Products(act));
  }

  /** The activity loop. Each activity's new cost reads only the availability and
      detection tables, which the loop does not write, so the order of iteration does not
      matter and the whole table is recomputed at once; the loop fails exactly when one
      activity does. */
  function RecCosts(cm: CostModel): (r: Result<CostModel, CostError>)
    ensures r.Failure? <==> exists act | act in cm.designActivityRec :: RecCost(cm, act).Failure?
    ensures r.Failure? ==> r.error == KeyNotFound
    ensures r.Success? ==>
      && r.value == cm.(designActivityRec := r.value.designActivityRec)
      && r.value.designActivityRec.Keys == cm.designActivityRec.Keys
      && forall act | act in cm.designActivityRec :: r.value.designActivityRec[act] == RecCost(cm, act).value
  {
    if exists act | act in cm.designActivityRec :: RecCost(cm, act).Failure? then Failure(KeyNotFound)
    else Success(cm.(designActivityRec := map act | act in cm.designActivityRec :: RecCost(cm, act).value))
  }

  /** Recomputing the activity costs a second time changes nothing. */
  lemma RecCostsIdempotent(cm: CostModel)
    requires RecCosts(cm).Success?
    ensures RecCosts(RecCosts(cm).value) == RecCosts(cm)
  {
    var cm1 := RecCosts(cm).value;
    forall act | act in cm1.designActivityRec
      ensures RecCost(cm1, act) == Success(cm1.designActivityRec[act])
    {
      RecCostStable(cm, cm1, act);
    }
    var m := map act | act in cm1.designActivityRec :: RecCost(cm1, act).value;
    assert m == cm1.designActivityRec;
  }

  /** One activity's cost, once recomputed, is recomputed to itself. */
  lemma RecCostStable(cm: CostModel, cm1: CostModel, act: Activity)
    requires act in cm.designActivityRec && RecCost(cm, act).Success?
    requires cm1 == cm.(designActivityRec := cm1.designActivityRec)
    requires act in cm1.designActivityRec && cm1.designActivityRec[act] == RecCost(cm, act).value
    ensures RecCost(cm1, act) == Success(cm1.designActivityRec[act])
  {
  }

  /** `calculate_derived_costs`: the complex loop, then the activity loop. It fails iff
      one of the two loops does; otherwise every activity gets the cost `RecCost` gives it
      over the complexes' new costs. On a well-ordered model it keeps the experiment types,
      compartments, deletable genes, growth detections, interventions, the availability
      keys and their order, every non-complex cost and the set of activities, so the model
      stays well-ordered. */
  function CalculateDerivedCosts(cm: CostModel, acts: seq<Activity>): (r: Result<CostModel, CostError>)
    ensures var c := ComplexLoop(cm, cm.availableOrder, acts);
            r.Success? <==> c.Success? && RecCosts(c.value).Success?
    ensures r.Success? ==>
      var c := ComplexLoop(cm, cm.availableOrder, acts).value;
      && r.value.designActivityRec.Keys == cm.designActivityRec.Keys
      && forall act | act in cm.designActivityRec ::
           act in c.designActivityRec && r.value.designActivityRec[act] == RecCost(c, act).value
    ensures WellOrdered(cm) && r.Success? ==>
      var r := r.value;
      && r.types == cm.types && r.designCompartment == cm.designCompartment
      && r.designDeletable == cm.designDeletable && r.designActivityDet == cm.designActivityDet
      && r.interventionAdd == cm.interventionAdd && r.interventionRemove == cm.interventionRemove
      && r.availableOrder == cm.availableOrder
      && AgreeOffComplexes(cm.designAvailable, r.designAvailable)
      && AgreeOffComplexes(cm.designEntityDet, r.designEntityDet)
      && AgreeOffComplexes(cm.designEntityLoc, r.designEntityLoc)
      && WellOrdered(r)
  {
    assert WellOrdered(cm) ==> forall e | e in cm.availableOrder :: e in cm.designAvailable by {
      assert forall e | e in cm.availableOrder :: e in Elements(cm.availableOrder);
    }
    match ComplexLoop(cm, cm.availableOrder, acts)
    case Failure(e) => Failure(e)
    case Success(c) => RecCosts(c)
  }

  /** On a well-ordered model, `calculate_derived_costs` prices every complex with an
      availability entry, a single formation reaction and non-complex components as
      `PricedFrom` says: the sum of the components' availability costs in each table where
      their costs are set. With components costing 1, the complex costs their number. */
  lemma CalculateDerivedCostsPricesComplex(cm: CostModel, acts: seq<Activity>, e: Entity)
    requires WellOrdered(cm) && e in cm.designAvailable
    requires e.kind.Complex? && |FormationReactions(acts, e)| == 1
    requires forall c | c in Substrates(FormationReactions(acts, e)[0]) :: !c.kind.Complex?
    requires CalculateDerivedCosts(cm, acts).Success?
    ensures var r := CalculateDerivedCosts(cm, acts).value;
            var comps := Substrates(FormationReactions(acts, e)[0]);
            && PricedFrom(cm, e, comps, r)
            && ((forall c | c in comps :: c in cm.designAvailable && cm.designAvailable[c] == Some(1)) ==>
                  r.designAvailable[e] == Some(|comps|))
  {
    var order := cm.availableOrder;
    assert e in Elements(order);
    var pre, post := SplitAround(order, e);
    assert forall x | x in pre :: x in cm.designAvailable by {
      assert forall x | x in order :: x in Elements(order);
    }
    ComplexLoopPricesComplex(cm, pre, e, post, acts);
    var c := ComplexLoop(cm, order, acts).value;
    PricedFromUntouched(cm, e, Substrates(FormationReactions(acts, e)[0]), c, CalculateDerivedCosts(cm, acts).value);
  }
}

=== FILE: domain.dfy ===
/** The record types of the domain: entities, compartments, conditions, activities,
    interventions and models (mnm_repr.py), and experiment types, descriptions,
    results and experiments (exp_repr.py). They carry no behaviour of their own.

    Python compares these objects by identity; here they are values compared
    structurally. Every Python class hierarchy that the modelled code dispatches on
    with `isinstance` has an `Unrecognised…` variant standing for any other class,
    so that the code's TypeError branches can be modelled. */
module Domain {
  import opened Wrappers

  /** A compartment; each compartment class of the source has a fixed ID ("c_01" for Medium). */
  datatype Compartment = Compartment(id: string)

  const MediumId: string := "c_01"

  function Medium(): Compartment {
    Compartment(MediumId)
  }

  predicate IsMedium(c: Compartment) {
    c.id == MediumId
  }

  datatype EntityKind = Gene | Metabolite | Protein | Complex | UnrecognisedEntity(typeName: string)

  /** A property of an entity names the activity it catalyses or transports for;
      only that activity's ID is ever read, so only the ID is kept. */
  datatype Property =
    | Catalyses(activityId: string)
    | Transports(activityId: string)
    | UnrecognisedProperty(typeName: string)

  datatype Entity = Entity(kind: EntityKind, id: string, name: Option<string>, version: Option<string>, properties: seq<Property>)

  /** The conditions an activity requires or produces. */
  datatype Condition =
    | PresentEntity(entity: Entity, compartment: Compartment)
    | PresentCatalyst(compartment: Compartment)
    | PresentTransporter(compartment: Compartment)
    | UnrecognisedCondition(typeName: string)

  /** Growth and Expression are the only activity classes the modelled code tells apart;
      Reaction stands for every other activity class (reactions and transports). */
  datatype ActivityKind = Growth | Expression | Reaction

  datatype Activity = Activity(
    kind: ActivityKind,
    id: string,
    name: Option<string>,
    requiredConditions: seq<Condition>,
    changes: seq<Condition>,
    addCost: Option<int>,
    removeCost: Option<int>)

  /** The entities of the PresentEntity conditions among `cs`, in order. */
  function EntitiesOf(cs: seq<Condition>): (es: seq<Entity>)
    ensures forall e :: e in es <==> exists c :: c in cs && c.PresentEntity? && c.entity == e
  {
    if |cs| == 0 then []
    else
      var rest := EntitiesOf(cs[1..]);
      assert forall c :: c in cs <==> c == cs[0] || c in cs[1..];
      if cs[0].PresentEntity? then [cs[0].entity] + rest else rest
  }

  /** `return_substrates()`: the entities an activity requires. */
  function Substrates(a: Activity): seq<Entity> {
    EntitiesOf(a.requiredConditions)
  }

  /** `return_products()`: the entities an activity produces. */
  function Products(a: Activity): seq<Entity> {
    EntitiesOf(a.changes)
  }

  /** What an intervention adds or removes: a condition, an activity, or anything else. */
  datatype Target =
    | TargetCondition(condition: Condition)
    | TargetActivity(activity: Activity)
    | UnrecognisedTarget(typeName: string)

  /** `Add` and `Remove`; any other class (the base `Intervention` or a subclass) is Unrecognised. */
  datatype Intervention =
    | Add(target: Target)
    | Remove(target: Target)
    | UnrecognisedIntervention(typeName: string, target: Target)

  datatype ExperimentKind =
    | DetectionEntity(entityId: string)
    | LocalisationEntity(entityId: string, compartmentId: string)
    | DetectionActivity(activityId: string)
    | AdamTwoFactorExperiment(geneId: string, metaboliteId: string)
    | ReconstructionActivity(activityId: string)
    | ReconstructionEnzReaction(reactionId: string, enzymeId: string)
    | ReconstructionTransporterRequired(transportActivityId: string, transporterId: string)
    | UnrecognisedExperiment(typeName: string)

  datatype ExperimentType = ExperimentType(kind: ExperimentKind, cost: Option<int>, ignoringPenalty: Option<int>)

  /** An experiment description; `interventions` is a frozenset in the source, kept here in its iteration order. */
  datatype ExperimentDescription = ExperimentDescription(experimentType: ExperimentType, interventions: seq<Intervention>, status: string)

  /** The source's class Result (renamed to keep `Result` for success-or-exception):
      its ID (None until one is assigned), the description that produced it, and its outcome. */
  datatype ExpResult = ExpResult(id: Option<string>, description: ExperimentDescription, outcome: bool)

  /** An experiment; `results` is a frozenset in the source, kept here in its iteration order. */
  datatype Experiment = Experiment(id: string, results: seq<ExpResult>)

  /** A candidate model. Termination conditions hold conditions and, after an `Add`
      of an activity, activities too. The mutable `quality` attribute is kept outside
      the model value (see Quality.QualityTable). */
  datatype Model = Model(
    id: string,
    setupConds: seq<Condition>,
    intermediateActivities: seq<Activity>,
    terminationConds: seq<Target>,
    status: string,
    ignoredResults: set<ExpResult>,
    resultsCovered: set<ExpResult>)
}

=== FILE: exporter.dfy ===
/** The solver-input serialiser (exporter.py): each `export_*` function turns domain
    values into a list of facts, one string per fact, each a newline, the fact and a
    closing full stop. Values the code does not recognise are a TypeError; reading an
    attribute that a condition or target does not have is an AttributeError.

    The constant rule text (`models_rules` and the rules after it) is not modelled. */
module Exporter {
  import opened Wrappers
  import opened Lists
  import opened Text
  import opened Domain

  datatype ExportError =
    | UnrecognisedType  // TypeError
    | MissingAttribute  // AttributeError

  /** One fact line: a newline, the fact, a full stop. */
  predicate IsFact(s: string) {
    |s| >= 2 && s[0] == '\n' && s[|s| - 1] == '.'
  }

  /** The line carrying `body`. */
  function Line(body: string): (s: string)
    ensures IsFact(s)
  {
    "\n" + body + "."
  }

  /** The body of a line can be read back from it. */
  lemma LineBody(body: string)
    ensures |Line(body)| == |body| + 2 && Line(body)[1..|body| + 1] == body
  {
    assert Line(body) == "\n" + body + ".";
  }

  /** A fact whose text opens with `head` (the fact's predicate and its opening bracket). */
  predicate HasHead(s: string, head: string) {
    IsFact(s) && |head| + 1 <= |s| && s[1..|head| + 1] == head
  }

  lemma LineHead(head: string, rest: string)
    ensures HasHead(Line(head + rest), head)
  {
    LineBody(head + rest);
    assert (head + rest)[..|head|] == head;
  }

  /** Concatenating two exports, the first failure winning. */
  function Then(r1: Result<seq<string>, ExportError>, r2: Result<seq<string>, ExportError>): Result<seq<string>, ExportError> {
    if r1.Failure? then r1
    else if r2.Failure? then r2
    else Success(r1.value + r2.value)
  }

  lemma ThenAssociative(x: Result<seq<string>, ExportError>, y: Result<seq<string>, ExportError>, z: Result<seq<string>, ExportError>)
    ensures Then(x, Then(y, z)) == Then(Then(x, y), z)
  {
    if x.Success? && y.Success? && z.Success? {
      assert x.value + (y.value + z.value) == (x.value + y.value) + z.value;
    }
  }

  lemma ThenLeftUnit(x: Result<seq<string>, ExportError>)
    ensures Then(Success([]), x) == x
  {
    if x.Success? {
      assert [] + x.value == x.value;
    }
  }

  /** One line per element, in order, stopping at the first element whose line raises. */
  function ExportEach<T>(xs: seq<T>, f: T -> Result<string, ExportError>): (r: Result<seq<string>, ExportError>)
    ensures r.Success? <==> forall i | 0 <= i < |xs| :: f(xs[i]).Success?
    ensures r.Failure? ==> exists i | 0 <= i < |xs| :: f(xs[i]) == Failure(r.error)
    ensures r.Success? ==> |r.value| == |xs| && forall i | 0 <= i < |xs| :: r.value[i] == f(xs[i]).value
    decreases |xs|
  {
    if |xs| == 0 then Success([])
    else
      match f(xs[0])
      case Failure(e) => Failure(e)
      case Success(line) =>
        var rest := ExportEach(xs[1..], f);
        assert forall i | 1 <= i < |xs| :: xs[1..][i - 1] == xs[i];
        match rest
        case Failure(e) => Failure(e)
        case Success(lines) => Success([line] + lines)
  }

  /** Exporting two lists element by element is exporting each, in order. */
  lemma {:induction false} ExportEachAppend<T>(a: seq<T>, b: seq<T>, f: T -> Result<string, ExportError>)
    ensures ExportEach(a + b, f) == Then(ExportEach(a, f), ExportEach(b, f))
    decreases |a|
  {
    if |a| == 0 {
      assert a + b == b;
      if ExportEach(b, f).Success? {
        assert [] + ExportEach(b, f).value == ExportEach(b, f).value;
      }
    } else {
      assert (a + b)[0] == a[0];
      assert (a + b)[1..] == a[1..] + b;
      ExportEachAppend(a[1..], b, f);
      var ra, rb := ExportEach(a[1..], f), ExportEach(b, f);
      if f(a[0]).Success? && ra.Success? && rb.Success? {
        assert [f(a[0]).value] + (ra.value + rb.value) == ([f(a[0]).value] + ra.value) + rb.value;
      }
    }
  }

  /** How a version is printed by `%s`. */
  function Version(e: Entity): string {
    ShowOption(e.version)
  }

  // ---------------------------------------------------------------------------------------
  // Entities

  /** The fact name of an entity class; None for a class the code does not recognise. */
  function KindTag(k: EntityKind): (r: Option<string>)
    ensures r.None? <==> k.UnrecognisedEntity?
  {
    match k
    case Gene => Some("gene")
    case Metabolite => Some("metabolite")
    case Protein => Some("protein")
    case Complex => Some("complex")
    case UnrecognisedEntity(_) => None
  }

  /** An entity the code can export: a known class with known properties. */
  predicate KnownEntity(e: Entity) {
    !e.kind.UnrecognisedEntity? && forall p | p in e.properties :: !p.UnrecognisedProperty?
  }

  /** The fact of one property of `e`: the entity, its version, and the activity it
      catalyses or transports for. */
  function PropertyFact(e: Entity, p: Property): (r: Result<string, ExportError>)
    ensures r.Success? <==> !p.UnrecognisedProperty?
    ensures r.Failure? ==> r.error == UnrecognisedType
    ensures r.Success? ==> IsFact(r.value)
  {
    match p
    case Catalyses(a) => Success(Line("catalyses(" + e.id + "," + Version(e) + "," + a + ")"))
    case Transports(a) => Success(Line("transports(" + e.id + "," + Version(e) + "," + a + ")"))
    case UnrecognisedProperty(_) => Failure(UnrecognisedType)
  }

  /** The property facts of `e`, one per property, in order. */
  function PropertyFacts(e: Entity): (r: Result<seq<string>, ExportError>)
    ensures r.Success? <==> forall p | p in e.properties :: !p.UnrecognisedProperty?
    ensures r.Failure? ==> r.error == UnrecognisedType
    ensures r.Success? ==> |r.value| == |e.properties|
    ensures r.Success? ==> forall j | 0 <= j < |e.properties| :: r.value[j] == PropertyFact(e, e.properties[j]).value
    ensures r.Success? ==> forall s | s in r.value :: IsFact(s)
  {
    var props := ExportEach(e.properties, p => PropertyFact(e, p));
    assert (forall p | p in e.properties :: !p.UnrecognisedProperty?) <==>
           (forall i | 0 <= i < |e.properties| :: PropertyFact(e, e.properties[i]).Success?);
    assert props.Success? ==> forall s | s in props.value :: IsFact(s) by {
      if props.Success? {
        forall s | s in props.value ensures IsFact(s) {
          var i :| 0 <= i < |props.value| && props.value[i] == s;
          assert s == PropertyFact(e, e.properties[i]).value;
        }
      }
    }
    props
  }

  /** The facts of one entity: its class fact, then one fact per property, in order. */
  function EntityFacts(e: Entity): (r: Result<seq<string>, ExportError>)
    ensures r.Success? <==> KnownEntity(e)
    ensures r.Failure? ==> r.error == UnrecognisedType
    ensures r.Success? ==> |r.value| == 1 + |e.properties|
    ensures r.Success? ==> r.value[0] == Line(KindTag(e.kind).value + "(" + e.id + "," + Version(e) + ")")
    ensures r.Success? ==> forall j | 0 <= j < |e.properties| :: r.value[1 + j] == PropertyFact(e, e.properties[j]).value
    ensures r.Success? ==> forall s | s in r.value :: IsFact(s)
  {
    match KindTag(e.kind)
    case None => Failure(UnrecognisedType)
    case Some(tag) =>
      match PropertyFacts(e)
      case Failure(err) => Failure(err)
      case Success(lines) =>
        var head := Line(tag + "(" + e.id + "," + Version(e) + ")");
        FactsCons(head, lines);
        Success([head] + lines)
  }

  lemma FactsCons(head: string, lines: seq<string>)
    requires IsFact(head) && forall s | s in lines :: IsFact(s)
    ensures forall s | s in [head] + lines :: IsFact(s)
    ensures ([head] + lines)[0] == head && forall j | 0 <= j < |lines| :: ([head] + lines)[1 + j] == lines[j]
  {
  }

  /** The number of facts the entities give: one each, plus one per property. */
  function EntityFactCount(es: seq<Entity>): nat {
    if |es| == 0 then 0 else 1 + |es[0].properties| + EntityFactCount(es[1..])
  }

  /** `export_entities`: the entities' facts in input order; a TypeError for an unknown
      entity or property class. */
  function ExportEntities(es: seq<Entity>): (r: Result<seq<string>, ExportError>)
    ensures r.Success? <==> forall e | e in es :: KnownEntity(e)
    ensures r.Failure? ==> r.error == UnrecognisedType
    ensures r.Success? ==> |r.value| == EntityFactCount(es)
    ensures r.Success? ==> forall s | s in r.value :: IsFact(s)
  {
    if |es| == 0 then Success([])
    else
      assert forall e | e in es[1..] :: e in es;
      assert forall e | e in es :: e == es[0] || e in es[1..];
      match EntityFacts(es[0])
      case Failure(err) => Failure(err)
      case Success(h) =>
        match ExportEntities(es[1..])
        case Failure(err) => Failure(err)
        case Success(t) => Success(h + t)
  }

  /** Exporting two lists of entities is exporting each, in order. */
  lemma {:induction false} ExportEntitiesAppend(a: seq<Entity>, b: seq<Entity>)
    ensures ExportEntities(a + b) == Then(ExportEntities(a), ExportEntities(b))
  {
    if |a| == 0 {
      assert a + b == b;
      ThenLeftUnit(ExportEntities(b));
    } else {
      assert (a + b)[0] == a[0];
      assert (a + b)[1..] == a[1..] + b;
      ExportEntitiesAppend(a[1..], b);
      ThenAssociative(EntityFacts(a[0]), ExportEntities(a[1..]), ExportEntities(b));
    }
  }

  // ---------------------------------------------------------------------------------------
  // Compartments

  /** `export_compartments`: a single fact listing the compartment IDs separated by ';'. */
  function ExportCompartments(cs: seq<Compartment>): (r: seq<string>)
    ensures |r| == 1 && IsFact(r[0])
  {
    [Line("compartment(" + Join(CompartmentIds(cs), ';') + ")")]
  }

  function CompartmentIds(cs: seq<Compartment>): seq<string> {
    MapSeq(cs, (c: Compartment) => c.id)
  }

  /** The compartment fact lists the IDs in order: splitting its argument at ';' gives them
      back, provided there is at least one and none contains ';'. */
  lemma CompartmentsRoundTrip(cs: seq<Compartment>)
    requires |cs| >= 1
    requires forall i | 0 <= i < |cs| :: ';' !in cs[i].id
    ensures var line := ExportCompartments(cs)[0];
            var prefix := "\ncompartment(";
            && |line| >= |prefix| + 2
            && line[..|prefix|] == prefix
            && Split(line[|prefix|..|line| - 2], ';') == CompartmentIds(cs)
  {
    var ids := CompartmentIds(cs);
    var j := Join(ids, ';');
    var line := ExportCompartments(cs)[0];
    assert line == "\ncompartment(" + j + ").";
    assert line[|"\ncompartment("|..|line| - 2] == j;
    SplitJoin(ids, ';');
  }

  // ---------------------------------------------------------------------------------------
  // Activities

  /** A requirement the code can export: a substrate, a catalyst or a transporter. */
  predicate KnownRequirement(c: Condition) {
    c.PresentEntity? || c.PresentCatalyst? || c.PresentTransporter?
  }

  /** The facts of one requirement of activity `aid`: one for a substrate, two for a
      catalyst or a transporter (that one is required, and in which compartment). */
  function RequirementFacts(aid: string, c: Condition): (r: Result<seq<string>, ExportError>)
    ensures r.Success? <==> KnownRequirement(c)
    ensures r.Failure? ==> r.error == UnrecognisedType
    ensures r.Success? ==> |r.value| == (if c.PresentEntity? then 1 else 2)
    ensures r.Success? ==> forall s | s in r.value :: IsFact(s)
  {
    match c
    case PresentEntity(e, comp) =>
      Success([Line("substrate(" + e.id + "," + Version(e) + "," + comp.id + "," + aid + ")")])
    case PresentCatalyst(comp) =>
      Success([Line("enz_required(" + aid + ")"), Line("enz_compartment(" + comp.id + "," + aid + ")")])
    case PresentTransporter(comp) =>
      Success([Line("transp_required(" + aid + ")"), Line("transp_compartment(" + comp.id + "," + aid + ")")])
    case UnrecognisedCondition(_) => Failure(UnrecognisedType)
  }

  /** The number of facts a list of requirements gives. */
  function RequirementsFactCount(cs: seq<Condition>): nat {
    if |cs| == 0 then 0 else (if cs[0].PresentEntity? then 1 else 2) + RequirementsFactCount(cs[1..])
  }

  /** The requirement facts of activity `aid`, requirement by requirement. */
  function AllRequirementFacts(aid: string, cs: seq<Condition>): (r: Result<seq<string>, ExportError>)
    ensures r.Success? <==> forall c | c in cs :: KnownRequirement(c)
    ensures r.Failure? ==> r.error == UnrecognisedType
    ensures r.Success? ==> |r.value| == RequirementsFactCount(cs)
    ensures r.Success? ==> forall s | s in r.value :: IsFact(s)
  {
    if |cs| == 0 then Success([])
    else
      assert forall c | c in cs[1..] :: c in cs;
      assert forall c | c in cs :: c == cs[0] || c in cs[1..];
      match RequirementFacts(aid, cs[0])
      case Failure(err) => Failure(err)
      case Success(h) =>
        match AllRequirementFacts(aid, cs[1..])
        case Failure(err) => Failure(err)
        case Success(t) => Success(h + t)
  }

  /** The product fact of one change of activity `aid`; a change that is not a present
      entity has no entity to read. */
  function ProductFact(aid: string, c: Condition): (r: Result<string, ExportError>)
    ensures r.Success? <==> c.PresentEntity?
    ensures r.Failure? ==> r.error == MissingAttribute
    ensures r.Success? ==> HasHead(r.value, "product(")
  {
    if c.PresentEntity? then
      LineHead("product(", c.entity.id + "," + Version(c.entity) + "," + c.compartment.id + "," + aid + ")");
      Success(Line("product(" + c.entity.id + "," + Version(c.entity) + "," + c.compartment.id + "," + aid + ")"))
    else Failure(MissingAttribute)
  }

  /** An activity the code can export. */
  predicate ExportableActivity(a: Activity) {
    && (forall c | c in a.requiredConditions :: KnownRequirement(c))
    && (forall c | c in a.changes :: c.PresentEntity?)
  }

  /** The product facts of activity `aid`, one per change, in order. */
  function ProductFacts(aid: string, cs: seq<Condition>): (r: Result<seq<string>, ExportError>)
    ensures r.Success? <==> forall c | c in cs :: c.PresentEntity?
    ensures r.Failure? ==> r.error == MissingAttribute
    ensures r.Success? ==> |r.value| == |cs|
    ensures r.Success? ==> forall j | 0 <= j < |cs| :: ProductFact(aid, cs[j]) == Success(r.value[j])
    ensures r.Success? ==> forall s | s in r.value :: IsFact(s)
  {
    assert (forall c | c in cs :: c.PresentEntity?) <==> (forall i | 0 <= i < |cs| :: ProductFact(aid, cs[i]).Success?);
    var r := ExportEach(cs, c => ProductFact(aid, c));
    assert r.Success? ==> forall s | s in r.value :: IsFact(s) by {
      if r.Success? {
        forall s | s in r.value ensures IsFact(s) {
          var i :| 0 <= i < |r.value| && r.value[i] == s;
          assert ProductFact(aid, cs[i]) == Success(s);
        }
      }
    }
    r
  }

  /** `export_activity`: the requirement facts, then one product fact per change, in order. */
  function ExportActivity(a: Activity): (r: Result<seq<string>, ExportError>)
    ensures r.Success? <==> ExportableActivity(a)
    // the requirements are read first, so an unknown requirement is the error reported
    ensures r.Failure? ==>
      r.error == (if forall c | c in a.requiredConditions :: KnownRequirement(c) then MissingAttribute else UnrecognisedType)
    ensures r.Success? ==> |r.value| == RequirementsFactCount(a.requiredConditions) + |a.changes|
    ensures r.Success? ==> r.value[RequirementsFactCount(a.requiredConditions)..] == ProductFacts(a.id, a.changes).value
    ensures r.Success? ==> forall s | s in r.value :: IsFact(s)
  {
    var reqs := AllRequirementFacts(a.id, a.requiredConditions);
    var prods := ProductFacts(a.id, a.changes);
    assert reqs.Success? && prods.Success? ==> (reqs.value + prods.value)[|reqs.value|..] == prods.value;
    Then(reqs, prods)
  }

  function ActivityFactCount(acts: seq<Activity>): nat {
    if |acts| == 0 then 0
    else RequirementsFactCount(acts[0].requiredConditions) + |acts[0].changes| + ActivityFactCount(acts[1..])
  }

  /** `export_activities`: the activities' facts in input order. */
  function ExportActivities(acts: seq<Activity>): (r: Result<seq<string>, ExportError>)
    ensures r.Success? <==> forall a | a in acts :: ExportableActivity(a)
    ensures r.Success? ==> |r.value| == ActivityFactCount(acts)
    ensures r.Success? ==> forall s | s in r.value :: IsFact(s)
  {
    if |acts| == 0 then Success([])
    else
      assert forall a | a in acts[1..] :: a in acts;
      assert forall a | a in acts :: a == acts[0] || a in acts[1..];
      match ExportActivity(acts[0])
      case Failure(err) => Failure(err)
      case Success(h) =>
        match ExportActivities(acts[1..])
        case Failure(err) => Failure(err)
        case Success(t) => Success(h + t)
  }

  /** Exporting two lists of activities is exporting each, in order. */
  lemma {:induction false} ExportActivitiesAppend(a: seq<Activity>, b: seq<Activity>)
    ensures ExportActivities(a + b) == Then(ExportActivities(a), ExportActivities(b))
  {
    if |a| == 0 {
      assert a + b == b;
      ThenLeftUnit(ExportActivities(b));
    } else {
      assert (a + b)[0] == a[0];
      assert (a + b)[1..] == a[1..] + b;
      ExportActivitiesAppend(a[1..], b);
      ThenAssociative(ExportActivity(a[0]), ExportActivities(a[1..]), ExportActivities(b));
    }
  }

  // ---------------------------------------------------------------------------------------
  // Results

  /** The experiment part of a result fact; None for an unknown experiment class. */
  function ExperimentTerm(k: ExperimentKind): (r: Option<string>)
    ensures r.None? <==> k.UnrecognisedExperiment?
  {
    match k
    case ReconstructionTransporterRequired(act, trp) => Some("experiment(transp_reconstruction_exp, " + act + ", " + trp + ")")
    case ReconstructionEnzReaction(act, enz) => Some("experiment(enz_reconstruction_exp, " + act + ", " + enz + ")")
    case ReconstructionActivity(act) => Some("experiment(basic_reconstruction_exp, " + act + ")")
    case AdamTwoFactorExperiment(gene, met) => Some("experiment(adam_two_factor_exp, " + gene + ", " + met + ")")
    case DetectionActivity(act) => Some("experiment(detection_activity_exp, " + act + ")")
    case LocalisationEntity(ent, comp) => Some("experiment(localisation_entity_exp, " + ent + ", " + comp + ")")
    case DetectionEntity(ent) => Some("experiment(detection_entity_exp, " + ent + ")")
    case UnrecognisedExperiment(_) => None
  }

  /** The fact of one result: its ID, its experiment term and its outcome; a TypeError for
      an unknown experiment class. */
  function ResultFact(res: ExpResult): (r: Result<string, ExportError>)
    ensures r.Success? <==> !res.description.experimentType.kind.UnrecognisedExperiment?
    ensures r.Failure? ==> r.error == UnrecognisedType
    ensures r.Success? ==> IsFact(r.value)
  {
    match ExperimentTerm(res.description.experimentType.kind)
    case None => Failure(UnrecognisedType)
    case Some(term) => Success(Line("result(" + ShowOption(res.id) + ", " + term + ", " + ShowBool(res.outcome) + ")"))
  }

  /** `export_results`: one fact per result, in order. */
  function ExportResults(results: seq<ExpResult>): (r: Result<seq<string>, ExportError>)
    ensures r.Success? <==> forall res | res in results :: !res.description.experimentType.kind.UnrecognisedExperiment?
    ensures r.Failure? ==> r.error == UnrecognisedType
    ensures r.Success? ==> |r.value| == |results|
    ensures r.Success? ==> forall i | 0 <= i < |results| :: ResultFact(results[i]) == Success(r.value[i])
  {
    assert (forall res | res in results :: !res.description.experimentType.kind.UnrecognisedExperiment?) <==>
           (forall i | 0 <= i < |results| :: ResultFact(results[i]).Success?);
    ExportEach(results, ResultFact)
  }

  /** Exporting two lists of results is exporting each, in order. */
  lemma ExportResultsAppend(a: seq<ExpResult>, b: seq<ExpResult>)
    ensures ExportResults(a + b) == Then(ExportResults(a), ExportResults(b))
  {
    ExportEachAppend(a, b, ResultFact);
  }

  // ---------------------------------------------------------------------------------------
  // Models

  /** The fact that a setup condition belongs to model `mid`; a condition that is not a
      present entity has no entity to read. */
  function SetupFact(mid: string, c: Condition): (r: Result<string, ExportError>)
    ensures r.Success? <==> c.PresentEntity?
    ensures r.Failure? ==> r.error == MissingAttribute
    ensures r.Success? ==> HasHead(r.value, "added_to_model(setup_present(")
  {
    if c.PresentEntity? then
      LineHead("added_to_model(setup_present(", c.entity.id + "," + Version(c.entity) + "," + c.compartment.id + "),"
                   + mid + ")");
      Success(Line("added_to_model(setup_present(" + c.entity.id + "," + Version(c.entity) + "," + c.compartment.id + "),"
                   + mid + ")"))
    else Failure(MissingAttribute)
  }

  /** The fact that an intermediate activity belongs to model `mid`. */
  function MemberFact(mid: string, a: Activity): (r: string)
    ensures HasHead(r, "added_to_model(")
  {
    LineHead("added_to_model(", a.id + "," + mid + ")");
    Line("added_to_model(" + a.id + "," + mid + ")")
  }

  /** `export_model_specification`: one fact per setup condition, then one per
      intermediate activity, in order. */
  function ExportModelSpecification(m: Model): (r: Result<seq<string>, ExportError>)
    ensures r.Success? <==> forall c | c in m.setupConds :: c.PresentEntity?
    ensures r.Failure? ==> r.error == MissingAttribute
    ensures r.Success? ==> |r.value| == |m.setupConds| + |m.intermediateActivities|
  {
    assert (forall c | c in m.setupConds :: c.PresentEntity?) <==>
           (forall i | 0 <= i < |m.setupConds| :: SetupFact(m.id, m.setupConds[i]).Success?);
    Then(ExportEach(m.setupConds, c => SetupFact(m.id, c)),
         ExportEach(m.intermediateActivities, a => Success(MemberFact(m.id, a))))
  }

  /** The facts of a model specification: one per setup condition, then one per
      intermediate activity, in order. */
  lemma ModelSpecificationFacts(m: Model)
    requires ExportModelSpecification(m).Success?
    ensures var r := ExportModelSpecification(m).value;
            && (forall i | 0 <= i < |m.setupConds| :: SetupFact(m.id, m.setupConds[i]) == Success(r[i]))
            && (forall j | 0 <= j < |m.intermediateActivities| ::
                  MemberFact(m.id, m.intermediateActivities[j]) == r[|m.setupConds| + j])
  {
    var setup := ExportEach(m.setupConds, c => SetupFact(m.id, c));
    var members := ExportEach(m.intermediateActivities, a => Success(MemberFact(m.id, a)));
    ConcatIndices(setup.value, members.value);
  }

  lemma ConcatIndices<T>(x: seq<T>, y: seq<T>)
    ensures forall i | 0 <= i < |x| :: (x + y)[i] == x[i]
    ensures forall j | 0 <= j < |y| :: (x + y)[|x| + j] == y[j]
  {
  }

  function SpecificationFactCount(ms: seq<Model>): nat {
    if |ms| == 0 then 0
    else |ms[0].setupConds| + |ms[0].intermediateActivities| + SpecificationFactCount(ms[1..])
  }

  function ModelIds(ms: seq<Model>): seq<string> {
    MapSeq(ms, (m: Model) => m.id)
  }

  /** Every model has only present entities as setup conditions. */
  predicate SetupsExportable(ms: seq<Model>) {
    forall i | 0 <= i < |ms| :: forall c | c in ms[i].setupConds :: c.PresentEntity?
  }

  function SpecificationFacts(ms: seq<Model>): (r: Result<seq<string>, ExportError>)
    ensures r.Success? <==> SetupsExportable(ms)
    ensures r.Success? ==> |r.value| == SpecificationFactCount(ms)
  {
    if |ms| == 0 then Success([])
    else
      assert SetupsExportable(ms) <==>
        (forall c | c in ms[0].setupConds :: c.PresentEntity?) && SetupsExportable(ms[1..]) by {
        assert forall i | 1 <= i < |ms| :: ms[1..][i - 1] == ms[i];
      }
      match ExportModelSpecification(ms[0])
      case Failure(err) => Failure(err)
      case Success(h) =>
        match SpecificationFacts(ms[1..])
        case Failure(err) => Failure(err)
        case Success(t) => Success(h + t)
  }

  /** `export_models`: a fact listing the models' IDs separated by ';', then every model's
      specification; the models are the keys of the models-to-results dictionary, in order. */
  function ExportModels(ms: seq<Model>): (r: Result<seq<string>, ExportError>)
    ensures r.Success? <==> SetupsExportable(ms)
    ensures r.Success? ==> |r.value| == 1 + SpecificationFactCount(ms)
    ensures r.Success? ==> r.value[0] == Line("model(" + Join(ModelIds(ms), ';') + ")")
    ensures r.Success? ==> r.value[1..] == SpecificationFacts(ms).value
  {
    var r := Then(Success([Line("model(" + Join(ModelIds(ms), ';') + ")")]), SpecificationFacts(ms));
    assert r.Success? ==> r.value[1..] == SpecificationFacts(ms).value by {
      if r.Success? { assert r.value == [r.value[0]] + SpecificationFacts(ms).value; }
    }
    r
  }

  /** The model fact lists the model IDs in order: splitting its argument at ';' gives them
      back, provided there is at least one model and no ID contains ';'. */
  lemma ModelsRoundTrip(ms: seq<Model>)
    requires SetupsExportable(ms) && |ms| >= 1
    requires forall i | 0 <= i < |ms| :: ';' !in ms[i].id
    ensures var line := ExportModels(ms).value[0];
            var prefix := "\nmodel(";
            && |line| >= |prefix| + 2
            && line[..|prefix|] == prefix
            && Split(line[|prefix|..|line| - 2], ';') == ModelIds(ms)
  {
    var ids := ModelIds(ms);
    var j := Join(ids, ';');
    var line := ExportModels(ms).value[0];
    assert line == "\nmodel(" + j + ").";
    assert line[|"\nmodel("|..|line| - 2] == j;
    SplitJoin(ids, ';');
  }

  /** The specifications of two lists of models are those of each list, in order; the
      first failure wins. */
  lemma {:induction false} SpecificationFactsAppend(a: seq<Model>, b: seq<Model>)
    ensures SpecificationFacts(a + b) == Then(SpecificationFacts(a), SpecificationFacts(b))
  {
    if |a| == 0 {
      assert a + b == b;
      ThenLeftUnit(SpecificationFacts(b));
    } else {
      assert (a + b)[0] == a[0];
      assert (a + b)[1..] == a[1..] + b;
      SpecificationFactsAppend(a[1..], b);
      ThenAssociative(ExportModelSpecification(a[0]), SpecificationFacts(a[1..]), SpecificationFacts(b));
    }
  }

  /** Exporting a single model is its `model` fact followed by its own specification. */
  lemma ExportOneModel(m: Model)
    ensures ExportModels([m]) == Then(Success([Line("model(" + m.id + ")")]), ExportModelSpecification(m))
  {
    assert ModelIds([m]) == [m.id];
    assert [m][1..] == [];
    var spec := ExportModelSpecification(m);
    if spec.Success? {
      assert spec.value + [] == spec.value;
    }
  }

  // ---------------------------------------------------------------------------------------
  // Termination conditions

  /** A termination condition the code can export: a present entity. An activity added
      by an intervention has no entity to read. */
  predicate PresentTermination(t: Target) {
    t.TargetCondition? && t.condition.PresentEntity?
  }

  /** The arguments of a termination fact: entity, version, compartment, model. */
  function TerminationArgs(mid: string, t: Target): string
    requires PresentTermination(t)
  {
    var e := t.condition.entity;
    e.id + ", " + Version(e) + ", " + t.condition.compartment.id + ", " + mid + ")"
  }

  /** The termination fact opened by `head`. */
  function TerminationFact(head: string, mid: string, t: Target): (r: Result<string, ExportError>)
    ensures r.Success? <==> PresentTermination(t)
    ensures r.Failure? ==> r.error == MissingAttribute
    ensures r.Success? ==> r.value == Line(head + TerminationArgs(mid, t)) && HasHead(r.value, head)
  {
    if PresentTermination(t) then
      LineHead(head, TerminationArgs(mid, t));
      Success(Line(head + TerminationArgs(mid, t)))
    else Failure(MissingAttribute)
  }

  /** `export_termination_conds_revision`: one example per termination condition. */
  function ExportTerminationCondsRevision(base: Model): (r: Result<seq<string>, ExportError>)
    ensures r.Success? <==> forall t | t in base.terminationConds :: PresentTermination(t)
    ensures r.Failure? ==> r.error == MissingAttribute
    ensures r.Success? ==> |r.value| == |base.terminationConds|
    ensures r.Success? ==> forall s | s in r.value :: HasHead(s, "#example synthesizable(")
  {
    ExportTermination("#example synthesizable(", base)
  }

  /** `export_termination_conds_consistency`: one constraint per termination condition. */
  function ExportTerminationCondsConsistency(base: Model): (r: Result<seq<string>, ExportError>)
    ensures r.Success? <==> forall t | t in base.terminationConds :: PresentTermination(t)
    ensures r.Failure? ==> r.error == MissingAttribute
    ensures r.Success? ==> |r.value| == |base.terminationConds|
    ensures r.Success? ==> forall s | s in r.value :: HasHead(s, ":- not synthesizable(")
  {
    ExportTermination(":- not synthesizable(", base)
  }

  function ExportTermination(head: string, base: Model): (r: Result<seq<string>, ExportError>)
    ensures r.Success? <==> forall t | t in base.terminationConds :: PresentTermination(t)
    ensures r.Failure? ==> r.error == MissingAttribute
    ensures r.Success? ==> |r.value| == |base.terminationConds|
    ensures r.Success? ==> forall i | 0 <= i < |base.terminationConds| ::
      TerminationFact(head, base.id, base.terminationConds[i]) == Success(r.value[i])
    ensures r.Success? ==> forall s | s in r.value :: HasHead(s, head)
  {
    assert (forall t | t in base.terminationConds :: PresentTermination(t)) <==>
           (forall i | 0 <= i < |base.terminationConds| :: TerminationFact(head, base.id, base.terminationConds[i]).Success?);
    var r := ExportEach(base.terminationConds, t => TerminationFact(head, base.id, t));
    assert r.Success? ==> forall s | s in r.value :: HasHead(s, head) by {
      if r.Success? {
        forall s | s in r.value ensures HasHead(s, head) {
          var i :| 0 <= i < |r.value| && r.value[i] == s;
          assert TerminationFact(head, base.id, base.terminationConds[i]) == Success(s);
        }
      }
    }
    r
  }

  /** The revision and consistency exports fail together, and their lines pair up: the
      same entity, version, compartment and model in the same position. */
  lemma TerminationExportsAgree(base: Model)
    ensures ExportTerminationCondsRevision(base).Success? <==> ExportTerminationCondsConsistency(base).Success?
    ensures ExportTerminationCondsRevision(base).Success? ==>
      forall i | 0 <= i < |base.terminationConds| ::
        && ExportTerminationCondsRevision(base).value[i]
             == Line("#example synthesizable(" + TerminationArgs(base.id, base.terminationConds[i]))
        && ExportTerminationCondsConsistency(base).value[i]
             == Line(":- not synthesizable(" + TerminationArgs(base.id, base.terminationConds[i]))
  {
  }

  // ---------------------------------------------------------------------------------------
  // Relevancy

  /** A model and the results relevant to it: one entry of the models-to-results dictionary,
      whose entries are kept in insertion order. */
  type ModelResults = (Model, seq<ExpResult>)

  /** The fact that result `res` is relevant to model `mid`. */
  function RelevantFact(mid: string, res: ExpResult): (s: string)
    ensures IsFact(s)
  {
    Line("relevant(" + ShowOption(res.id) + ", " + mid + ")")
  }

  /** The constraint opened by `head` about model `mid` and result `res`. */
  function ConstraintFact(head: string, mid: string, res: ExpResult): (s: string)
    ensures IsFact(s)
  {
    Line(head + mid + ", " + ShowOption(res.id) + ")")
  }

  /** The two facts of each result of model `mid`: that it is relevant to the model, then
      the constraint opened by `head`. */
  function PairFacts(head: string, mid: string, rs: seq<ExpResult>): (r: seq<string>)
    ensures |r| == 2 * |rs|
    ensures forall j | 0 <= j < |rs| :: r[j + j] == RelevantFact(mid, rs[j]) && r[j + j + 1] == ConstraintFact(head, mid, rs[j])
  {
    if |rs| == 0 then []
    else
      var rest := PairFacts(head, mid, rs[1..]);
      var r := [RelevantFact(mid, rs[0]), ConstraintFact(head, mid, rs[0])] + rest;
      assert forall j | 1 <= j < |rs| :: r[j + j] == rest[(j - 1) + (j - 1)] && rs[1..][j - 1] == rs[j];
      r
  }

  /** The pair facts are those of the results of `rs`, and no others. */
  lemma {:induction false} PairFactsMembership(head: string, mid: string, rs: seq<ExpResult>, s: string)
    ensures s in PairFacts(head, mid, rs) <==>
      exists x | x in rs :: s == RelevantFact(mid, x) || s == ConstraintFact(head, mid, x)
  {
    if |rs| > 0 {
      PairFactsMembership(head, mid, rs[1..], s);
      assert forall x :: x in rs <==> x == rs[0] || x in rs[1..];
    }
  }

  function PairCount(mr: seq<ModelResults>): nat {
    if |mr| == 0 then 0 else |mr[0].1| + PairCount(mr[1..])
  }

  /** `export_relevancy_results_revision`: two facts per (model, result) pair, the second an
      example that the model is not inconsistent with the result. */
  function ExportRelevancyResultsRevision(mr: seq<ModelResults>): (r: seq<string>)
    ensures |r| == 2 * PairCount(mr)
  {
    if |mr| == 0 then []
    else PairFacts("#example not inconsistent(", mr[0].0.id, mr[0].1) + ExportRelevancyResultsRevision(mr[1..])
  }

  /** The results of `rs` that `ignored` does not hold, in order. */
  function Kept(rs: seq<ExpResult>, ignored: set<ExpResult>): (k: seq<ExpResult>)
    ensures forall x :: x in k <==> x in rs && x !in ignored
    ensures |k| <= |rs|
    ensures (forall x | x in rs :: x !in ignored) ==> k == rs
  {
    if |rs| == 0 then []
    else
      assert forall x :: x in rs <==> x == rs[0] || x in rs[1..];
      var rest := Kept(rs[1..], ignored);
      if rs[0] in ignored then rest
      else
        assert (forall x | x in rs :: x !in ignored) ==> rest == rs[1..];
        assert rs == [rs[0]] + rs[1..];
        [rs[0]] + rest
  }

  function KeptPairCount(mr: seq<ModelResults>, ignored: set<ExpResult>): nat {
    if |mr| == 0 then 0 else |Kept(mr[0].1, ignored)| + KeptPairCount(mr[1..], ignored)
  }

  /** `export_relevancy_results_consistency`: two facts per (model, result) pair, the second a
      constraint that the model is not inconsistent with the result, skipping every result
      the base model ignores. */
  function ExportRelevancyResultsConsistency(mr: seq<ModelResults>, base: Model): (r: seq<string>)
    ensures |r| == 2 * KeptPairCount(mr, base.ignoredResults)
  {
    if |mr| == 0 then []
    else PairFacts(":- inconsistent(", mr[0].0.id, Kept(mr[0].1, base.ignoredResults))
         + ExportRelevancyResultsConsistency(mr[1..], base)
  }

  /** The revision export states, for every result relevant to every model, that it is
      relevant and that the model must not be inconsistent with it, and nothing else. */
  lemma {:induction false} RelevancyRevisionMembership(mr: seq<ModelResults>, s: string)
    ensures s in ExportRelevancyResultsRevision(mr) <==> exists i, x | 0 <= i < |mr| && x in mr[i].1 ::
      s == RelevantFact(mr[i].0.id, x) || s == ConstraintFact("#example not inconsistent(", mr[i].0.id, x)
  {
    if |mr| > 0 {
      PairFactsMembership("#example not inconsistent(", mr[0].0.id, mr[0].1, s);
      RelevancyRevisionMembership(mr[1..], s);
      assert forall i | 1 <= i < |mr| :: mr[1..][i - 1] == mr[i];
    }
  }

  /** The consistency export states the same pairs as the revision export, except those of
      the results the base model ignores. */
  lemma {:induction false} RelevancyConsistencyMembership(mr: seq<ModelResults>, base: Model, s: string)
    ensures s in ExportRelevancyResultsConsistency(mr, base) <==>
      exists i, x | 0 <= i < |mr| && x in mr[i].1 && x !in base.ignoredResults ::
        s == RelevantFact(mr[i].0.id, x) || s == ConstraintFact(":- inconsistent(", mr[i].0.id, x)
  {
    if |mr| > 0 {
      PairFactsMembership(":- inconsistent(", mr[0].0.id, Kept(mr[0].1, base.ignoredResults), s);
      RelevancyConsistencyMembership(mr[1..], base, s);
      assert forall i | 1 <= i < |mr| :: mr[1..][i - 1] == mr[i];
    }
  }

  /** The revision export of two lists of (model, results) entries is that of each, in order. */
  lemma {:induction false} ExportRelevancyResultsRevisionAppend(a: seq<ModelResults>, b: seq<ModelResults>)
    ensures ExportRelevancyResultsRevision(a + b) == ExportRelevancyResultsRevision(a) + ExportRelevancyResultsRevision(b)
  {
    if |a| == 0 {
      assert a + b == b;
    } else {
      var h := PairFacts("#example not inconsistent(", a[0].0.id, a[0].1);
      assert (a + b)[0] == a[0] && (a + b)[1..] == a[1..] + b;
      ExportRelevancyResultsRevisionAppend(a[1..], b);
      ConsAppendStep(ExportRelevancyResultsRevision(a + b), ExportRelevancyResultsRevision(a),
                     ExportRelevancyResultsRevision(b), h, ExportRelevancyResultsRevision(a[1..] + b),
                     ExportRelevancyResultsRevision(a[1..]));
    }
  }

  /** The consistency export of two lists of (model, results) entries is that of each, in order. */
  lemma {:induction false} ExportRelevancyResultsConsistencyAppend(a: seq<ModelResults>, b: seq<ModelResults>, base: Model)
    ensures ExportRelevancyResultsConsistency(a + b, base)
            == ExportRelevancyResultsConsistency(a, base) + ExportRelevancyResultsConsistency(b, base)
  {
    if |a| == 0 {
      assert a + b == b;
    } else {
      var head := PairFacts(":- inconsistent(", a[0].0.id, Kept(a[0].1, base.ignoredResults));
      assert (a + b)[0] == a[0] && (a + b)[1..] == a[1..] + b;
      ExportRelevancyResultsConsistencyAppend(a[1..], b, base);
      ConsAppendStep(ExportRelevancyResultsConsistency(a + b, base), ExportRelevancyResultsConsistency(a, base),
                     ExportRelevancyResultsConsistency(b, base), head, ExportRelevancyResultsConsistency(a[1..] + b, base),
                     ExportRelevancyResultsConsistency(a[1..], base));
    }
  }

  /** Ignoring results only removes facts: the consistency export never has more than the
      revision export, and has exactly as many when no relevant result is ignored. */
  lemma {:induction false} RelevancyConsistencyAtMostRevision(mr: seq<ModelResults>, base: Model)
    ensures |ExportRelevancyResultsConsistency(mr, base)| <= |ExportRelevancyResultsRevision(mr)|
    ensures (forall i, x | 0 <= i < |mr| && x in mr[i].1 :: x !in base.ignoredResults) ==>
      |ExportRelevancyResultsConsistency(mr, base)| == |ExportRelevancyResultsRevision(mr)|
  {
    if |mr| > 0 {
      assert forall i | 1 <= i < |mr| :: mr[1..][i - 1] == mr[i];
      RelevancyConsistencyAtMostRevision(mr[1..], base);
    }
  }

  // ---------------------------------------------------------------------------------------
  // Forcing a new model, and the add / remove / ignore choices

  function ExternalFactCount(ms: seq<Model>): nat {
    if |ms| == 0 then 0 else 2 + |ms[0].intermediateActivities| + ExternalFactCount(ms[1..])
  }

  /** The fact that activity `aid` belongs to the external model `mid`. */
  function InModelFact(aid: string, mid: string): (s: string)
    ensures HasHead(s, "in_model(")
  {
    LineHead("in_model(", aid + "," + mid + ")");
    Line("in_model(" + aid + "," + mid + ")")
  }

  /** The first character of a fact's head is the fact's second character. */
  lemma HeadFirst(s: string, h: string)
    requires |h| >= 1
    ensures HasHead(s, h) ==> s[1] == h[0]
  {
    if HasHead(s, h) {
      assert s[1..|h| + 1][0] == s[1];
    }
  }

  /** Two heads that differ in their first character never open the same fact. */
  lemma HeadsDiffer(s: string, h1: string, h2: string)
    requires |h1| >= 1 && |h2| >= 1 && h1[0] != h2[0]
    requires HasHead(s, h1)
    ensures !HasHead(s, h2)
  {
    HeadFirst(s, h1);
    HeadFirst(s, h2);
  }

  /** The `in_model` facts of the activities `acts` of model `mid`, in order. */
  function InModelFacts(acts: seq<Activity>, mid: string): (r: seq<string>)
    ensures |r| == |acts|
    ensures forall s | s in r :: HasHead(s, "in_model(") && exists a | a in acts :: s == InModelFact(a.id, mid)
    ensures forall a | a in acts :: InModelFact(a.id, mid) in r
  {
    if |acts| == 0 then []
    else
      assert forall a | a in acts :: a == acts[0] || a in acts[1..];
      [InModelFact(acts[0].id, mid)] + InModelFacts(acts[1..], mid)
  }

  /** The facts of one external model: its declaration, one `in_model` fact per activity, and
      the example that the base model differs from it. */
  function ExternalModelFacts(baseId: string, m: Model): (r: seq<string>)
    ensures |r| == 2 + |m.intermediateActivities|
    ensures HasHead(r[0], "external_model(") && HasHead(r[|r| - 1], "#example different(")
  {
    LineHead("external_model(", m.id + ")");
    LineHead("#example different(", baseId + ", " + m.id + ")");
    [Line("external_model(" + m.id + ")")] + InModelFacts(m.intermediateActivities, m.id)
      + [Line("#example different(" + baseId + ", " + m.id + ")")]
  }

  /** The `in_model` facts of an external model are exactly those of its activities. */
  lemma ExternalModelInModelFacts(baseId: string, m: Model, s: string)
    ensures s in ExternalModelFacts(baseId, m) && HasHead(s, "in_model(") <==>
      exists a | a in m.intermediateActivities :: s == InModelFact(a.id, m.id)
  {
    var r := ExternalModelFacts(baseId, m);
    var members := InModelFacts(m.intermediateActivities, m.id);
    HeadsDiffer(r[0], "external_model(", "in_model(");
    HeadsDiffer(r[|r| - 1], "#example different(", "in_model(");
    assert r == [r[0]] + members + [r[|r| - 1]];
  }

  /** `export_force_new_model`: the facts of every external model, in order. */
  function ExportForceNewModel(base: Model, externals: seq<Model>): (r: seq<string>)
    ensures |r| == ExternalFactCount(externals)
  {
    if |externals| == 0 then []
    else ExternalModelFacts(base.id, externals[0]) + ExportForceNewModel(base, externals[1..])
  }

  /** A fact is forced exactly when it is a fact of one of the external models. */
  lemma {:induction false} ForceNewModelMembership(base: Model, externals: seq<Model>, s: string)
    ensures s in ExportForceNewModel(base, externals) <==>
      exists i | 0 <= i < |externals| :: s in ExternalModelFacts(base.id, externals[i])
  {
    if |externals| > 0 {
      ForceNewModelMembership(base, externals[1..], s);
      assert forall i | 1 <= i < |externals| :: externals[1..][i - 1] == externals[i];
    }
  }

  /** Forcing a new model over two lists of external models is forcing it over each, in order. */
  lemma {:induction false} ExportForceNewModelAppend(base: Model, a: seq<Model>, b: seq<Model>)
    ensures ExportForceNewModel(base, a + b) == ExportForceNewModel(base, a) + ExportForceNewModel(base, b)
  {
    if |a| == 0 {
      assert a + b == b;
    } else {
      assert (a + b)[0] == a[0] && (a + b)[1..] == a[1..] + b;
      ExportForceNewModelAppend(base, a[1..], b);
      ConsAppendStep(ExportForceNewModel(base, a + b), ExportForceNewModel(base, a), ExportForceNewModel(base, b),
                     ExternalModelFacts(base.id, a[0]), ExportForceNewModel(base, a[1..] + b),
                     ExportForceNewModel(base, a[1..]));
    }
  }

  /** The `in_model` facts the solver is given are exactly the activities of the external
      models, each paired with its own model. */
  lemma ForceNewModelInModelFacts(base: Model, externals: seq<Model>, s: string)
    ensures s in ExportForceNewModel(base, externals) && HasHead(s, "in_model(") <==>
      exists i, a | 0 <= i < |externals| && a in externals[i].intermediateActivities :: s == InModelFact(a.id, externals[i].id)
  {
    ForceNewModelMembership(base, externals, s);
    if s in ExportForceNewModel(base, externals) && HasHead(s, "in_model(") {
      var i :| 0 <= i < |externals| && s in ExternalModelFacts(base.id, externals[i]);
      ExternalModelInModelFacts(base.id, externals[i], s);
    }
    if exists i, a | 0 <= i < |externals| && a in externals[i].intermediateActivities :: s == InModelFact(a.id, externals[i].id) {
      var i, a :| 0 <= i < |externals| && a in externals[i].intermediateActivities && s == InModelFact(a.id, externals[i].id);
      ExternalModelInModelFacts(base.id, externals[i], s);
    }
  }

  /** One weighted choice offered to the solver: `verb(id)`, weighted by a cost, at a
      priority level. */
  datatype Choice = Choice(verb: string, id: string, cost: Option<int>, level: string)

  /** The line `#modeh verb(id) =cost @level.` of a choice. The pieces are nested from the
      right, in the order `ReadChoice` takes them apart. */
  function ChoiceLine(c: Choice): string {
    Line("#modeh " + (c.verb + ("(" + (c.id + (")" + (" =" + (ShowCost(c.cost) + (" " + ("@" + c.level)))))))))
  }

  /** Reads a choice line back: the verb up to '(', the ID up to ')', the cost between "="
      and " @", and the level up to the closing full stop. */
  function ReadChoice(line: string): Option<Choice> {
    if !IsFact(line) then None
    else
      var s1 := After("#modeh ", line[1..|line| - 1]);
      if s1.None? then None else
      var p2 := Cut(s1.value, '(');
      if p2.None? then None else
      var p3 := Cut(p2.value.1, ')');
      if p3.None? then None else
      var s4 := After(" =", p3.value.1);
      if s4.None? then None else
      var p5 := Cut(s4.value, ' ');
      if p5.None? then None else
      var s6 := After("@", p5.value.1);
      if s6.None? then None else
      var cost := ReadCost(p5.value.0);
      if cost.None? then None else
      Some(Choice(p2.value.0, p3.value.0, cost.value, s6.value))
  }

  /** A choice line reads back as its choice, provided the verb has no '(' and the ID no ')'. */
  lemma ChoiceRoundTrip(c: Choice)
    requires '(' !in c.verb && ')' !in c.id
    ensures ReadChoice(ChoiceLine(c)) == Some(c)
  {
    var cost := ShowCost(c.cost);
    ReadShowCost(c.cost);
    var x5 := " " + ("@" + c.level);
    var x4 := cost + x5;
    var x3 := " =" + x4;
    var x2 := c.id + (")" + x3);
    var x1 := c.verb + ("(" + x2);
    var body := "#modeh " + x1;
    var line := ChoiceLine(c);
    LineBody(body);
    assert line[1..|line| - 1] == body;
    AfterPrefix("#modeh ", x1);
    CutPiece(c.verb, '(', x2);
    CutPiece(c.id, ')', x3);
    AfterPrefix(" =", x4);
    CutPiece(cost, ' ', "@" + c.level);
    AfterPrefix("@", c.level);
  }

  /** The choice of adding activity `a`, weighted by its add cost at level 1. */
  function AddChoice(a: Activity): Choice {
    Choice("add", a.id, a.addCost, "1")
  }

  function AddLine(a: Activity): string {
    ChoiceLine(AddChoice(a))
  }

  /** The choice of removing activity `a`, weighted by its remove cost at level 1. */
  function RemoveChoice(a: Activity): Choice {
    Choice("remove", a.id, a.removeCost, "1")
  }

  function RemoveLine(a: Activity): string {
    ChoiceLine(RemoveChoice(a))
  }

  /** The choice of ignoring result `res`, weighted by its experiment type's ignoring
      penalty at level 2. */
  function IgnoreChoice(res: ExpResult): Choice {
    Choice("ignore", ShowOption(res.id), res.description.experimentType.ignoringPenalty, "2")
  }

  function IgnoreLine(res: ExpResult): string {
    ChoiceLine(IgnoreChoice(res))
  }

  /** `export_add_activities`: one choice per activity; each line reads back as the
      activity's ID and add cost. */
  function ExportAddActivities(acts: seq<Activity>): (r: seq<string>)
    ensures |r| == |acts|
    ensures forall i | 0 <= i < |acts| && ')' !in acts[i].id ::
      ReadChoice(r[i]) == Some(Choice("add", acts[i].id, acts[i].addCost, "1"))
  {
    var r := MapSeq(acts, AddLine);
    assert forall i | 0 <= i < |acts| && ')' !in acts[i].id :: ReadChoice(r[i]) == Some(AddChoice(acts[i])) by {
      forall i | 0 <= i < |acts| && ')' !in acts[i].id ensures ReadChoice(r[i]) == Some(AddChoice(acts[i])) {
        ChoiceRoundTrip(AddChoice(acts[i]));
      }
    }
    r
  }

  /** `export_remove_activities`: one choice per activity; each line reads back as the
      activity's ID and remove cost. */
  function ExportRemoveActivities(acts: seq<Activity>): (r: seq<string>)
    ensures |r| == |acts|
    ensures forall i | 0 <= i < |acts| && ')' !in acts[i].id ::
      ReadChoice(r[i]) == Some(Choice("remove", acts[i].id, acts[i].removeCost, "1"))
  {
    var r := MapSeq(acts, RemoveLine);
    assert forall i | 0 <= i < |acts| && ')' !in acts[i].id :: ReadChoice(r[i]) == Some(RemoveChoice(acts[i])) by {
      forall i | 0 <= i < |acts| && ')' !in acts[i].id ensures ReadChoice(r[i]) == Some(RemoveChoice(acts[i])) {
        ChoiceRoundTrip(RemoveChoice(acts[i]));
      }
    }
    r
  }

  /** `export_ignore_results`: one choice per result; each line reads back as the result's
      ID and its experiment type's ignoring penalty. */
  function ExportIgnoreResults(results: seq<ExpResult>): (r: seq<string>)
    ensures |r| == |results|
    ensures forall i | 0 <= i < |results| && ')' !in ShowOption(results[i].id) ::
      ReadChoice(r[i]) == Some(Choice("ignore", ShowOption(results[i].id), results[i].description.experimentType.ignoringPenalty, "2"))
  {
    var r := MapSeq(results, IgnoreLine);
    assert forall i | 0 <= i < |results| && ')' !in ShowOption(results[i].id) :: ReadChoice(r[i]) == Some(IgnoreChoice(results[i])) by {
      forall i | 0 <= i < |results| && ')' !in ShowOption(results[i].id) ensures ReadChoice(r[i]) == Some(IgnoreChoice(results[i])) {
        ChoiceRoundTrip(IgnoreChoice(results[i]));
      }
    }
    r
  }

  /** Exporting the add choices of a concatenation is exporting each part, in order. */
  lemma ExportAddActivitiesAppend(a: seq<Activity>, b: seq<Activity>)
    ensures ExportAddActivities(a + b) == ExportAddActivities(a) + ExportAddActivities(b)
  {
    MapSeqAppend(a, b, AddLine);
  }

  /** Exporting the remove choices of a concatenation is exporting each part, in order. */
  lemma ExportRemoveActivitiesAppend(a: seq<Activity>, b: seq<Activity>)
    ensures ExportRemoveActivities(a + b) == ExportRemoveActivities(a) + ExportRemoveActivities(b)
  {
    MapSeqAppend(a, b, RemoveLine);
  }

  /** Exporting the ignore choices of a concatenation is exporting each part, in order. */
  lemma ExportIgnoreResultsAppend(a: seq<ExpResult>, b: seq<ExpResult>)
    ensures ExportIgnoreResults(a + b) == ExportIgnoreResults(a) + ExportIgnoreResults(b)
  {
    MapSeqAppend(a, b, IgnoreLine);
  }
}

=== FILE: interventions.dfy ===
/** Construction of a model and the application of interventions to it (mnm_repr.py, class Model). */
module Interventions {
  import opened Wrappers
  import opened Lists
  import opened Domain

  /** `Model.__init__`: the given lists, status 'Active' unless another is given,
      and no ignored or covered results yet. */
  function NewModel(id: string, setupConds: seq<Condition>, intermediateActivities: seq<Activity>,
                    terminationConds: seq<Target>, status: string := "Active"): (m: Model)
    ensures m.id == id && m.status == status
    ensures m.setupConds == setupConds && m.intermediateActivities == intermediateActivities
    ensures m.terminationConds == terminationConds
    ensures m.ignoredResults == {} && m.resultsCovered == {}
  {
    Model(id, setupConds, intermediateActivities, terminationConds, status, {}, {})
  }

  datatype InterventionError =
    | NotConditionOrActivity       // TypeError: the payload is neither a Condition nor an Activity
    | UnrecognisedInterventionType // TypeError: the intervention's exact type is neither Add nor Remove
    | NotPresent                   // ValueError from list.remove: nothing to remove

  /** `Model.apply_intervention`. */
  function ApplyIntervention(m: Model, i: Intervention): (r: Result<Model, InterventionError>)
    // only the list named by the payload's kind can change, and the intermediate activities never do
    ensures r.Success? ==> r.value.intermediateActivities == m.intermediateActivities
    ensures r.Success? ==> r.value.id == m.id && r.value.status == m.status
    ensures r.Success? ==> r.value.ignoredResults == m.ignoredResults && r.value.resultsCovered == m.resultsCovered
    // Add of a condition appends it to the setup conditions
    ensures i.Add? && i.target.TargetCondition? ==>
      r.Success? && r.value.setupConds == m.setupConds + [i.target.condition] && r.value.terminationConds == m.terminationConds
    // Add of an activity appends it to the termination conditions
    ensures i.Add? && i.target.TargetActivity? ==>
      r.Success? && r.value.terminationConds == m.terminationConds + [i.target] && r.value.setupConds == m.setupConds
    // Remove of a condition takes out its first occurrence from the setup conditions, keeping
    // the order of the rest, and fails when there is none
    ensures i.Remove? && i.target.TargetCondition? ==>
      && (r.Success? <==> i.target.condition in m.setupConds)
      && (r.Success? ==> RemovedFirst(m.setupConds, i.target.condition, r.value.setupConds))
      && (r.Success? ==> multiset(r.value.setupConds) == multiset(m.setupConds) - multiset{i.target.condition}
                         && r.value.terminationConds == m.terminationConds)
      && (r.Failure? ==> r.error == NotPresent)
    // Remove of an activity takes out its first occurrence from the termination conditions,
    // keeping the order of the rest, and fails when there is none
    ensures i.Remove? && i.target.TargetActivity? ==>
      && (r.Success? <==> i.target in m.terminationConds)
      && (r.Success? ==> RemovedFirst(m.terminationConds, i.target, r.value.terminationConds))
      && (r.Success? ==> multiset(r.value.terminationConds) == multiset(m.terminationConds) - multiset{i.target}
                         && r.value.setupConds == m.setupConds)
      && (r.Failure? ==> r.error == NotPresent)
    // a payload of any other type, or an intervention of any other type, is a TypeError
    ensures (i.Add? || i.Remove?) && i.target.UnrecognisedTarget? ==> r == Failure(NotConditionOrActivity)
    ensures i.UnrecognisedIntervention? ==> r == Failure(UnrecognisedInterventionType)
  {
    match i
    case Add(TargetCondition(c)) => Success(m.(setupConds := m.setupConds + [c]))
    case Add(TargetActivity(a)) => Success(m.(terminationConds := m.terminationConds + [i.target]))
    case Add(UnrecognisedTarget(_)) => Failure(NotConditionOrActivity)
    case Remove(TargetCondition(c)) =>
      (match RemoveFirst(m.setupConds, c)
       case None => Failure(NotPresent)
       case Some(rest) => Success(m.(setupConds := rest)))
    case Remove(TargetActivity(a)) =>
      (match RemoveFirst(m.terminationConds, i.target)
       case None => Failure(NotPresent)
       case Some(rest) => Success(m.(terminationConds := rest)))
    case Remove(UnrecognisedTarget(_)) => Failure(NotConditionOrActivity)
    case UnrecognisedIntervention(_, _) => Failure(UnrecognisedInterventionType)
  }

  /** One intervention applied to a model that the caller keeps: the new model, or the
      old one together with the exception. */
  function StepEffect(m: Model, i: Intervention): Effect<Model, InterventionError> {
    match ApplyIntervention(m, i)
    case Failure(e) => Effect(m, Some(e))
    case Success(m1) => Effect(m1, None)
  }

  /** `Model.apply_interventions`: applies the interventions left to right, mutating the
      model in place; an exception stops the loop and leaves the earlier ones applied. */
  function ApplyInterventions(m: Model, ivs: seq<Intervention>): (r: Effect<Model, InterventionError>)
    ensures |ivs| == 0 ==> r == Effect(m, None)
    // a single intervention is `apply_intervention`, its exception leaving the model as it was
    ensures |ivs| == 1 ==> r == StepEffect(m, ivs[0])
    ensures r.state.intermediateActivities == m.intermediateActivities
    decreases |ivs|
  {
    if |ivs| == 0 then Effect(m, None)
    else
      match ApplyIntervention(m, ivs[0])
      case Failure(e) => Effect(m, Some(e))
      case Success(m') => ApplyInterventions(m', ivs[1..])
  }

  /** Applying two batches in a row is applying their concatenation: the first batch's
      exception stops everything, otherwise the second batch starts where the first ended. */
  lemma {:induction false} ApplyInterventionsAppend(m: Model, a: seq<Intervention>, b: seq<Intervention>)
    ensures var ra := ApplyInterventions(m, a);
            ApplyInterventions(m, a + b) ==
              if ra.raised.Some? then ra else ApplyInterventions(ra.state, b)
    decreases |a|
  {
    if |a| == 0 {
      assert a + b == b;
    } else {
      assert (a + b)[0] == a[0];
      assert (a + b)[1..] == a[1..] + b;
      match ApplyIntervention(m, a[0])
      case Failure(_) =>
      case Success(m') => ApplyInterventionsAppend(m', a[1..], b);
    }
  }

  /** `apply_interventions` is the left-to-right fold of `apply_intervention`: one more
      intervention at the end is applied to the result of the others, unless they raised. */
  lemma ApplyInterventionsSnoc(m: Model, ivs: seq<Intervention>, i: Intervention)
    ensures var r := ApplyInterventions(m, ivs);
            ApplyInterventions(m, ivs + [i]) == if r.raised.Some? then r else StepEffect(r.state, i)
  {
    ApplyInterventionsAppend(m, ivs, [i]);
  }

  /** Removing what was just added undoes the Add: the lists hold the same elements as before,
      and exactly the same lists when the item was not there already. */
  lemma AddThenRemove(m: Model, t: Target)
    requires t.TargetCondition? || t.TargetActivity?
    ensures ApplyIntervention(m, Add(t)).Success?
    ensures var m1 := ApplyIntervention(m, Add(t)).value;
            var r := ApplyIntervention(m1, Remove(t));
            && r.Success?
            && multiset(r.value.setupConds) == multiset(m.setupConds)
            && multiset(r.value.terminationConds) == multiset(m.terminationConds)
    ensures t.TargetCondition? && t.condition !in m.setupConds ==>
              ApplyIntervention(ApplyIntervention(m, Add(t)).value, Remove(t)) == Success(m)
    ensures t.TargetActivity? && t !in m.terminationConds ==>
              ApplyIntervention(ApplyIntervention(m, Add(t)).value, Remove(t)) == Success(m)
  {
    var m1 := ApplyIntervention(m, Add(t)).value;
    if t.TargetCondition? {
      assert t.condition in m1.setupConds;
      if t.condition !in m.setupConds {
        RemoveFirstOfAppended(m.setupConds, t.condition);
      }
    } else {
      assert t in m1.terminationConds;
      if t !in m.terminationConds {
        RemoveFirstOfAppended(m.terminationConds, t);
      }
    }
  }
}

=== FILE: lists.dfy ===
/** Python list operations the modelled code relies on: `list.index`, `list.remove`,
    `len(set(xs))`, and the `extend` of several lists into one. */
module Lists {
  import opened Wrappers

  /** The elements of a list, as Python's `set(xs)` collects them. */
  function Elements<T>(s: seq<T>): set<T> {
    set x | x in s
  }

  /** Only the empty list has no elements. */
  lemma NoElementsIsEmpty<T>(s: seq<T>)
    ensures Elements(s) == {} <==> s == []
  {
    if s != [] {
      assert s[0] in Elements(s);
    }
  }

  /** No element occurs twice. */
  predicate Distinct<T(==)>(s: seq<T>) {
    forall i, j | 0 <= i < j < |s| :: s[i] != s[j]
  }

  /** Position of the first occurrence of `x`, as `list.index` finds it; None where it raises. */
  function IndexOf<T(==)>(s: seq<T>, x: T): (r: Option<nat>)
    ensures r.None? <==> x !in s
    ensures r.Some? ==> r.value < |s| && s[r.value] == x && x !in s[..r.value]
  {
    if |s| == 0 then None
    else if s[0] == x then Some(0)
    else
      match IndexOf(s[1..], x)
      case None => None
      case Some(i) =>
        assert s[1..][..i] == s[1..i + 1];
        assert s[..i + 1] == [s[0]] + s[1..i + 1];
        Some(i + 1)
  }

  lemma MultisetCons<T>(s: seq<T>)
    requires |s| > 0
    ensures multiset(s) == multiset{s[0]} + multiset(s[1..])
  {
    assert s == [s[0]] + s[1..];
  }

  lemma MultisetAbsent<T>(wm: multiset<T>, x: T, tail: multiset<T>)
    requires x !in wm
    ensures !(multiset{x} + tail <= wm)
  {
    assert x in multiset{x} + tail;
  }

  /** Taking one `x` out and then `tail` is taking out `x` and `tail` together. */
  lemma MultisetRemoveStep<T>(wm: multiset<T>, x: T, rest: multiset<T>, tail: multiset<T>)
    requires x in wm && rest == wm - multiset{x}
    ensures tail <= rest <==> multiset{x} + tail <= wm
    ensures tail <= rest ==> rest - tail == wm - (multiset{x} + tail)
  {
  }

  /** An element that differs from everything before it is found at its own position. */
  lemma IndexOfFirstOccurrence<T>(s: seq<T>, i: nat)
    requires i < |s| && forall k | 0 <= k < i :: s[k] != s[i]
    ensures IndexOf(s, s[i]) == Some(i)
  {
  }

  /** Appending to a list that already holds `x` does not move its first occurrence. */
  lemma {:induction false} IndexOfAppend<T>(a: seq<T>, b: seq<T>, x: T)
    requires x in a
    ensures IndexOf(a + b, x) == IndexOf(a, x)
  {
    if a[0] != x {
      assert (a + b)[1..] == a[1..] + b;
      IndexOfAppend(a[1..], b, x);
    }
  }

  /** `r` is `s` with its first occurrence of `x` taken out and the rest in their order. */
  predicate RemovedFirst<T(==)>(s: seq<T>, x: T, r: seq<T>) {
    exists k | 0 <= k < |s| && s[k] == x && x !in s[..k] :: r == s[..k] + s[k + 1..]
  }

  /** Only one list is `s` without its first `x`. */
  lemma RemovedFirstUnique<T>(s: seq<T>, x: T, r1: seq<T>, r2: seq<T>)
    requires RemovedFirst(s, x, r1) && RemovedFirst(s, x, r2)
    ensures r1 == r2
  {
    var k1 :| 0 <= k1 < |s| && s[k1] == x && x !in s[..k1] && r1 == s[..k1] + s[k1 + 1..];
    var k2 :| 0 <= k2 < |s| && s[k2] == x && x !in s[..k2] && r2 == s[..k2] + s[k2 + 1..];
    assert forall j | 0 <= j < k1 :: s[..k1][j] == s[j];
    assert forall j | 0 <= j < k2 :: s[..k2][j] == s[j];
  }

  /** `r` is `s` after taking out, one after another, the first occurrence of each of `xs`. */
  predicate RemovedFirstEach<T(==)>(s: seq<T>, xs: seq<T>, r: seq<T>)
    decreases |xs|
  {
    if |xs| == 0 then r == s
    else exists k | 0 <= k < |s| && s[k] == xs[0] && xs[0] !in s[..k] ::
           RemovedFirstEach(s[..k] + s[k + 1..], xs[1..], r)
  }

  /** One removal followed by a chain of removals is a longer chain. */
  lemma RemovedFirstEachStep<T>(s: seq<T>, x: T, mid: seq<T>, xs: seq<T>, r: seq<T>)
    requires RemovedFirst(s, x, mid) && RemovedFirstEach(mid, xs, r)
    ensures RemovedFirstEach(s, [x] + xs, r)
  {
    var k :| 0 <= k < |s| && s[k] == x && x !in s[..k] && mid == s[..k] + s[k + 1..];
    assert ([x] + xs)[0] == x && ([x] + xs)[1..] == xs;
  }

  /** The chain of first-occurrence removals has a single outcome. */
  lemma {:induction false} RemovedFirstEachUnique<T>(s: seq<T>, xs: seq<T>, r1: seq<T>, r2: seq<T>)
    requires RemovedFirstEach(s, xs, r1) && RemovedFirstEach(s, xs, r2)
    ensures r1 == r2
    decreases |xs|
  {
    if |xs| > 0 {
      var x := xs[0];
      var k1 :| 0 <= k1 < |s| && s[k1] == x && x !in s[..k1] && RemovedFirstEach(s[..k1] + s[k1 + 1..], xs[1..], r1);
      var k2 :| 0 <= k2 < |s| && s[k2] == x && x !in s[..k2] && RemovedFirstEach(s[..k2] + s[k2 + 1..], xs[1..], r2);
      RemovedFirstUnique(s, x, s[..k1] + s[k1 + 1..], s[..k2] + s[k2 + 1..]);
      RemovedFirstEachUnique(s[..k1] + s[k1 + 1..], xs[1..], r1, r2);
    }
  }

  /** A list without repeats, cut around one of its elements. */
  lemma SplitAround<T>(s: seq<T>, x: T) returns (pre: seq<T>, post: seq<T>)
    requires Distinct(s) && x in s
    ensures s == pre + [x] + post && x !in pre && x !in post
    ensures forall y | y in pre :: y in s
  {
    var k := IndexOf(s, x).value;
    pre, post := s[..k], s[k + 1..];
    assert s == pre + [x] + post;
    assert forall j | 0 <= j < |post| :: post[j] == s[k + 1 + j];
  }

  /** `list.remove(x)`: drops the first occurrence of `x`, keeping the order of the rest;
      None where it raises ValueError. */
  function RemoveFirst<T(==)>(s: seq<T>, x: T): (r: Option<seq<T>>)
    ensures r.None? <==> x !in s
    ensures r.Some? ==> RemovedFirst(s, x, r.value)
    ensures r.Some? ==> multiset(r.value) == multiset(s) - multiset{x}
    ensures r.Some? ==> |r.value| == |s| - 1
  {
    match IndexOf(s, x)
    case None => None
    case Some(i) =>
      assert s == s[..i] + [x] + s[i + 1..];
      Some(s[..i] + s[i + 1..])
  }

  /** Removing the first occurrence keeps everything before it and shifts everything after it. */
  lemma RemoveFirstShape<T>(s: seq<T>, x: T)
    requires x in s
    ensures var i := IndexOf(s, x).value;
            RemoveFirst(s, x) == Some(s[..i] + s[i + 1..])
  {
  }

  /** Removing an element that was just appended at the end, when it did not occur before, restores the list. */
  lemma RemoveFirstOfAppended<T>(s: seq<T>, x: T)
    requires x !in s
    ensures RemoveFirst(s + [x], x) == Some(s)
  {
    var i := IndexOf(s + [x], x).value;
    assert i == |s|;
    assert (s + [x])[..i] == s;
    assert (s + [x])[i + 1..] == [];
    assert s + [] == s;
  }

  /** `len(xs) == len(set(xs))` exactly when no element of `xs` is repeated. */
  lemma {:induction false} DistinctIffSetSize<T>(s: seq<T>)
    ensures |Elements(s)| == |s| <==> Distinct(s)
    ensures |Elements(s)| <= |s|
  {
    if |s| == 0 {
      assert Elements(s) == {};
    } else {
      var t := s[1..];
      DistinctIffSetSize(t);
      assert Elements(s) == {s[0]} + Elements(t);
      if s[0] in t {
        assert Elements(s) == Elements(t);
        var k :| 0 <= k < |t| && t[k] == s[0];
        assert s[0] == s[k + 1];
        assert !Distinct(s);
      } else {
        assert |Elements(s)| == |Elements(t)| + 1;
        if Distinct(t) {
          forall i, j | 0 <= i < j < |s|
            ensures s[i] != s[j]
          {
            if i == 0 {
              assert s[j] == t[j - 1];
            } else {
              assert s[i] == t[i - 1] && s[j] == t[j - 1];
            }
          }
        } else {
          var i, j :| 0 <= i < j < |t| && t[i] == t[j];
          assert s[i + 1] == s[j + 1];
        }
      }
    }
  }

  /** Concatenation of a list of lists, as a loop of `extend` calls builds it. */
  function Flatten<T>(ss: seq<seq<T>>): seq<T> {
    if |ss| == 0 then [] else ss[0] + Flatten(ss[1..])
  }

  /** An element is in the concatenation exactly when it is in one of the pieces. */
  lemma {:induction false} FlattenMembership<T>(ss: seq<seq<T>>, x: T)
    ensures x in Flatten(ss) <==> exists k :: 0 <= k < |ss| && x in ss[k]
  {
    if |ss| > 0 {
      FlattenMembership(ss[1..], x);
      if x in Flatten(ss[1..]) {
        var k :| 0 <= k < |ss[1..]| && x in ss[1..][k];
        assert x in ss[k + 1];
      }
      if exists k :: 0 <= k < |ss| && x in ss[k] {
        var k :| 0 <= k < |ss| && x in ss[k];
        if k > 0 {
          assert x in ss[1..][k - 1];
        }
      }
    }
  }

  /** Flattening distributes over concatenation of the outer list. */
  lemma {:induction false} FlattenAppend<T>(a: seq<seq<T>>, b: seq<seq<T>>)
    ensures Flatten(a + b) == Flatten(a) + Flatten(b)
  {
    if |a| == 0 {
      assert a + b == b;
    } else {
      assert (a + b)[1..] == a[1..] + b;
      FlattenAppend(a[1..], b);
    }
  }

  /** The distinct elements of a list in order of first occurrence, as the keys of a
      dict filled from the list are ordered. */
  function Dedup<T(==)>(s: seq<T>): (r: seq<T>)
    ensures Distinct(r)
    ensures Elements(r) == Elements(s)
    decreases |s|
  {
    if |s| == 0 then []
    else
      var init := s[..|s| - 1];
      var last := s[|s| - 1];
      assert Elements(s) == Elements(init) + {last} by {
        assert s == init + [last];
      }
      var r := Dedup(init);
      if last in r then r
      else
        assert Elements(r + [last]) == Elements(r) + {last};
        r + [last]
  }

  /** A subset is no larger than the set holding it. */
  lemma SubsetCardinality<T>(s: set<T>, t: set<T>)
    requires s <= t
    ensures |s| <= |t|
  {
    assert t == s + (t - s);
  }

  /** `f` applied to every element of `xs`, in order, as a list comprehension builds it. */
  function MapSeq<T, U>(xs: seq<T>, f: T -> U): (ys: seq<U>)
    ensures |ys| == |xs| && forall i | 0 <= i < |xs| :: ys[i] == f(xs[i])
  {
    seq(|xs|, i requires 0 <= i < |xs| => f(xs[i]))
  }

  /** Mapping distributes over concatenation. */
  lemma MapSeqAppend<T, U>(a: seq<T>, b: seq<T>, f: T -> U)
    ensures MapSeq(a + b, f) == MapSeq(a, f) + MapSeq(b, f)
  {
    var l, r := MapSeq(a + b, f), MapSeq(a, f) + MapSeq(b, f);
    forall i | 0 <= i < |l| ensures l[i] == r[i] {
      if i < |a| { assert (a + b)[i] == a[i]; } else { assert (a + b)[i] == b[i - |a|]; }
    }
  }

  /** The inductive step of "f(a + b) == f(a) + f(b)" for an `f` that emits a block `h` for the
      head of its list and then recurses on the tail. */
  lemma ConsAppendStep<T>(fab: seq<T>, fa: seq<T>, fb: seq<T>, h: seq<T>, fa1b: seq<T>, fa1: seq<T>)
    requires fab == h + fa1b && fa == h + fa1 && fa1b == fa1 + fb
    ensures fab == fa + fb
  {
  }

  /** Appending `x` and then `rest` is appending `x + rest`. */
  lemma AppendChain<T>(k0: seq<T>, x: seq<T>, rest: seq<T>, k1: seq<T>, k2: seq<T>)
    requires k1 == k0 + x && k2 == k1 + rest
    ensures k2 == k0 + (x + rest)
  {
  }
}

=== FILE: oracle.dfy ===
/** The in-vitro oracle (oracle.py): it decides the outcome of a reconstruction experiment
    by looking the experiment's IDs up among the reference activities and the properties
    of the reference entities. */
module Oracles {
  import opened Wrappers
  import opened Lists
  import opened Domain

  /** The reference entities and activities. The reference model and the lists of all
      entities, compartments and activities are read only by the in-vivo path. */
  datatype Oracle = Oracle(entities: seq<Entity>, activities: seq<Activity>)

  datatype OracleError =
    | DuplicateEntityIds   // ValueError from the constructor
    | NoMatchingEntity     // IndexError: `[...][0]` of an empty list
    | UnrecognisedExperimentType // TypeError

  function EntityIds(es: seq<Entity>): seq<string> {
    MapSeq(es, (e: Entity) => e.id)
  }

  function ActivityIds(acts: seq<Activity>): seq<string> {
    MapSeq(acts, (a: Activity) => a.id)
  }

  /** `Oracle.__init__`: rejects reference entities whose IDs repeat, comparing the length
      of the ID list with the size of its set. */
  function NewOracle(entities: seq<Entity>, activities: seq<Activity>): (r: Result<Oracle, OracleError>)
    ensures r.Success? <==> Distinct(EntityIds(entities))
    ensures r.Success? ==> r.value == Oracle(entities, activities)
    ensures r.Failure? ==> r.error == DuplicateEntityIds
  {
    var ids := EntityIds(entities);
    DistinctIffSetSize(ids);
    if |ids| != |Elements(ids)| then Failure(DuplicateEntityIds)
    else Success(Oracle(entities, activities))
  }

  /** The first reference entity with the given ID; None where the source's `[0]` raises. */
  function FirstWithId(es: seq<Entity>, id: string): (r: Option<Entity>)
    ensures r.None? <==> forall i | 0 <= i < |es| :: es[i].id != id
    ensures r.Some? ==> exists i | 0 <= i < |es| :: es[i] == r.value && r.value.id == id
                          && forall j | 0 <= j < i :: es[j].id != id
  {
    if |es| == 0 then None
    else if es[0].id == id then Some(es[0])
    else
      var r := FirstWithId(es[1..], id);
      assert r.Some? ==> exists i | 1 <= i < |es| :: es[i] == r.value && r.value.id == id
                           && forall j | 0 <= j < i :: es[j].id != id by {
        if r.Some? {
          var i :| 0 <= i < |es[1..]| && es[1..][i] == r.value && r.value.id == id
                   && forall j | 0 <= j < i :: es[1..][j].id != id;
          assert es[i + 1] == r.value;
          assert forall j | 1 <= j < i + 1 :: es[j].id == es[1..][j - 1].id;
        }
      }
      r
  }

  /** The IDs of the activities an entity catalyses, and those it transports. */
  function CatalysedIds(props: seq<Property>): (ids: seq<string>)
    ensures forall id :: id in ids <==> Catalyses(id) in props
  {
    if |props| == 0 then []
    else
      assert forall p :: p in props <==> p == props[0] || p in props[1..];
      (if props[0].Catalyses? then [props[0].activityId] else []) + CatalysedIds(props[1..])
  }

  function TransportedIds(props: seq<Property>): (ids: seq<string>)
    ensures forall id :: id in ids <==> Transports(id) in props
  {
    if |props| == 0 then []
    else
      assert forall p :: p in props <==> p == props[0] || p in props[1..];
      (if props[0].Transports? then [props[0].activityId] else []) + TransportedIds(props[1..])
  }

  /** `execute_in_vitro_exps`: the outcome of a reconstruction experiment; the result has
      no ID and carries the description it was asked about. */
  function ExecuteInVitroExps(o: Oracle, expD: ExperimentDescription): (r: Result<ExpResult, OracleError>)
    ensures r.Success? ==> r.value.id.None? && r.value.description == expD
    // an activity reconstruction succeeds exactly when the activity is a reference activity
    ensures expD.experimentType.kind.ReconstructionActivity? ==>
      && r.Success?
      && (r.value.outcome <==> exists a | a in o.activities :: a.id == expD.experimentType.kind.activityId)
    // an enzyme experiment needs a reference entity with the enzyme ID; it succeeds exactly when the
    // reaction is a reference activity and that entity catalyses it
    ensures expD.experimentType.kind.ReconstructionEnzReaction? ==>
      var k := expD.experimentType.kind;
      && (r.Failure? <==> forall i | 0 <= i < |o.entities| :: o.entities[i].id != k.enzymeId)
      && (r.Failure? ==> r.error == NoMatchingEntity)
      && (r.Success? ==> (r.value.outcome <==>
            (exists a | a in o.activities :: a.id == k.reactionId)
            && Catalyses(k.reactionId) in FirstWithId(o.entities, k.enzymeId).value.properties))
    // a transporter experiment likewise, with the Transports property
    ensures expD.experimentType.kind.ReconstructionTransporterRequired? ==>
      var k := expD.experimentType.kind;
      && (r.Failure? <==> forall i | 0 <= i < |o.entities| :: o.entities[i].id != k.transporterId)
      && (r.Failure? ==> r.error == NoMatchingEntity)
      && (r.Success? ==> (r.value.outcome <==>
            (exists a | a in o.activities :: a.id == k.transportActivityId)
            && Transports(k.transportActivityId) in FirstWithId(o.entities, k.transporterId).value.properties))
    // every other experiment type is a TypeError
    ensures !(expD.experimentType.kind.ReconstructionActivity? || expD.experimentType.kind.ReconstructionEnzReaction?
              || expD.experimentType.kind.ReconstructionTransporterRequired?) ==>
      r == Failure(UnrecognisedExperimentType)
  {
    var actIds := ActivityIds(o.activities);
    assert forall id :: id in actIds <==> exists a | a in o.activities :: a.id == id by {
      forall id ensures id in actIds <==> exists a | a in o.activities :: a.id == id {
        if exists a | a in o.activities :: a.id == id {
          var a :| a in o.activities && a.id == id;
          var i :| 0 <= i < |o.activities| && o.activities[i] == a;
          assert actIds[i] == id;
        }
      }
    }
    match expD.experimentType.kind
    case ReconstructionActivity(aid) =>
      Success(ExpResult(None, expD, aid in actIds))
    case ReconstructionEnzReaction(rid, eid) =>
      (match FirstWithId(o.entities, eid)
       case None => Failure(NoMatchingEntity)
       case Some(ent) =>
         var catalysed := CatalysedIds(ent.properties);
         if rid !in actIds then Success(ExpResult(None, expD, false))
         else if rid !in catalysed then Success(ExpResult(None, expD, false))
         else Success(ExpResult(None, expD, true)))
    case ReconstructionTransporterRequired(aid, tid) =>
      (match FirstWithId(o.entities, tid)
       case None => Failure(NoMatchingEntity)
       case Some(ent) =>
         var transported := TransportedIds(ent.properties);
         if aid !in actIds then Success(ExpResult(None, expD, false))
         else if aid !in transported then Success(ExpResult(None, expD, false))
         else Success(ExpResult(None, expD, true)))
    case _ => Failure(UnrecognisedExperimentType)
  }

  /** With the IDs validated by the constructor, the entity an enzyme or transporter
      experiment looks at is the only reference entity with that ID, so the outcome
      depends on the reference data alone and not on the order of the entities. */
  lemma ValidatedOracleOutcome(entities: seq<Entity>, activities: seq<Activity>, expD: ExperimentDescription, ent: Entity)
    requires NewOracle(entities, activities).Success?
    requires ent in entities
    ensures var o := NewOracle(entities, activities).value;
            var k := expD.experimentType.kind;
            && (k.ReconstructionEnzReaction? && ent.id == k.enzymeId ==>
                  ExecuteInVitroExps(o, expD) ==
                    Success(ExpResult(None, expD, (exists a | a in activities :: a.id == k.reactionId)
                                                  && Catalyses(k.reactionId) in ent.properties)))
            && (k.ReconstructionTransporterRequired? && ent.id == k.transporterId ==>
                  ExecuteInVitroExps(o, expD) ==
                    Success(ExpResult(None, expD, (exists a | a in activities :: a.id == k.transportActivityId)
                                                  && Transports(k.transportActivityId) in ent.properties)))
  {
    var k := expD.experimentType.kind;
    if k.ReconstructionEnzReaction? && ent.id == k.enzymeId {
      FirstWithIdUnique(entities, ent);
    }
    if k.ReconstructionTransporterRequired? && ent.id == k.transporterId {
      FirstWithIdUnique(entities, ent);
    }
  }

  /** With distinct IDs, the entity found for an ID is the one entity carrying it. */
  lemma {:induction false} FirstWithIdUnique(entities: seq<Entity>, ent: Entity)
    requires Distinct(EntityIds(entities)) && ent in entities
    ensures FirstWithId(entities, ent.id) == Some(ent)
  {
    if entities[0] != ent {
      var ids := EntityIds(entities);
      var i := IndexOf(entities, ent).value;
      assert ids[0] != ids[i];
      assert EntityIds(entities[1..]) == ids[1..];
      assert ent in entities[1..];
      FirstWithIdUnique(entities[1..], ent);
    }
  }
}

=== FILE: overseer.dfy ===
/** The Overseer's transition table (overseer.py): ten named edges between eight states,
    the initial state `start` and the final state `stop`. The methods each edge names are
    the other modules' operations and are not part of the table itself. */
module Overseer {
  import opened Wrappers

  datatype State =
    | Start
    | ModelsTestedAndRevised
    | QualityRecalculated
    | ExperimentReady
    | HasNewResult
    | ResultRecorded
    | ProducedAdditionalModels
    | Stop

  datatype TransitionName =
    | StartDevelopment
    | GetExperiment
    | ExecuteExperiment
    | RecordResult
    | TestAndReviseModels
    | ProduceAdditionalModels
    | RecalculateModelsQuality
    | StopDevelopment

  datatype Edge = Edge(name: TransitionName, src: State, dst: State)

  /** The table in the order the source lists it. */
  const TransitionTable: seq<Edge> := [
    Edge(StartDevelopment, Start, ModelsTestedAndRevised),
    Edge(GetExperiment, QualityRecalculated, ExperimentReady),
    Edge(ExecuteExperiment, ExperimentReady, HasNewResult),
    Edge(RecordResult, HasNewResult, ResultRecorded),
    Edge(TestAndReviseModels, ResultRecorded, ModelsTestedAndRevised),
    Edge(ProduceAdditionalModels, QualityRecalculated, ProducedAdditionalModels),
    Edge(RecalculateModelsQuality, ModelsTestedAndRevised, QualityRecalculated),
    Edge(RecalculateModelsQuality, ProducedAdditionalModels, QualityRecalculated),
    Edge(StopDevelopment, ProducedAdditionalModels, Stop),
    Edge(StopDevelopment, ExperimentReady, Stop)
  ]

  const InitialState: State := Start
  const FinalState: State := Stop

  /** Membership in the table, edge by edge. */
  predicate IsListedEdge(e: Edge) {
    || e == Edge(StartDevelopment, Start, ModelsTestedAndRevised)
    || e == Edge(GetExperiment, QualityRecalculated, ExperimentReady)
    || e == Edge(ExecuteExperiment, ExperimentReady, HasNewResult)
    || e == Edge(RecordResult, HasNewResult, ResultRecorded)
    || e == Edge(TestAndReviseModels, ResultRecorded, ModelsTestedAndRevised)
    || e == Edge(ProduceAdditionalModels, QualityRecalculated, ProducedAdditionalModels)
    || e == Edge(RecalculateModelsQuality, ModelsTestedAndRevised, QualityRecalculated)
    || e == Edge(RecalculateModelsQuality, ProducedAdditionalModels, QualityRecalculated)
    || e == Edge(StopDevelopment, ProducedAdditionalModels, Stop)
    || e == Edge(StopDevelopment, ExperimentReady, Stop)
  }

  lemma InTable(e: Edge)
    ensures e in TransitionTable <==> IsListedEdge(e)
  {
    if e in TransitionTable {
      var i :| 0 <= i < |TransitionTable| && TransitionTable[i] == e;
      assert i == 0 || i == 1 || i == 2 || i == 3 || i == 4 || i == 5 || i == 6 || i == 7 || i == 8 || i == 9;
    }
    if IsListedEdge(e) {
      assert e == TransitionTable[0] || e == TransitionTable[1] || e == TransitionTable[2] || e == TransitionTable[3]
          || e == TransitionTable[4] || e == TransitionTable[5] || e == TransitionTable[6] || e == TransitionTable[7]
          || e == TransitionTable[8] || e == TransitionTable[9];
    }
  }

  /** The edges leaving `s`. */
  function OutgoingEdges(s: State): (es: set<Edge>)
    ensures forall e :: e in es <==> e in TransitionTable && e.src == s
  {
    set e | e in TransitionTable && e.src == s
  }

  /** The table as a function: the destination of the transition named `n` from `s`,
      None when the table has no such edge. */
  function Step(s: State, n: TransitionName): (r: Option<State>)
    ensures r.Some? ==> Edge(n, s, r.value) in TransitionTable
  {
    var r: Option<State> :=
      match (n, s)
      case (StartDevelopment, Start) => Some(ModelsTestedAndRevised)
      case (GetExperiment, QualityRecalculated) => Some(ExperimentReady)
      case (ExecuteExperiment, ExperimentReady) => Some(HasNewResult)
      case (RecordResult, HasNewResult) => Some(ResultRecorded)
      case (TestAndReviseModels, ResultRecorded) => Some(ModelsTestedAndRevised)
      case (ProduceAdditionalModels, QualityRecalculated) => Some(ProducedAdditionalModels)
      case (RecalculateModelsQuality, ModelsTestedAndRevised) => Some(QualityRecalculated)
      case (RecalculateModelsQuality, ProducedAdditionalModels) => Some(QualityRecalculated)
      case (StopDevelopment, ProducedAdditionalModels) => Some(Stop)
      case (StopDevelopment, ExperimentReady) => Some(Stop)
      case _ => None;
    if r.Some? then InTable(Edge(n, s, r.value)); r else r
  }

  /** Every edge of the table is the step its name takes from its source; so the table
      lists at most one destination for each (name, source) pair. */
  lemma StepCoversTable(e: Edge)
    requires e in TransitionTable
    ensures Step(e.src, e.name) == Some(e.dst)
  {
    InTable(e);
  }

  /** Each (name, source) pair determines at most one destination. */
  lemma Deterministic(n: TransitionName, s: State, d1: State, d2: State)
    requires Edge(n, s, d1) in TransitionTable && Edge(n, s, d2) in TransitionTable
    ensures d1 == d2
  {
    StepCoversTable(Edge(n, s, d1));
    StepCoversTable(Edge(n, s, d2));
  }

  /** Following a sequence of transition names from `s`; None as soon as one is not available. */
  function Run(s: State, ns: seq<TransitionName>): Option<State>
    decreases |ns|
  {
    if |ns| == 0 then Some(s)
    else
      match Step(s, ns[0])
      case None => None
      case Some(t) => Run(t, ns[1..])
  }

  /** `start_development` leads from the initial state to `models_tested_and_revised`. */
  lemma StartDevelopmentFromStart()
    ensures InitialState == Start && FinalState == Stop
    ensures Step(InitialState, StartDevelopment) == Some(ModelsTestedAndRevised)
  {
  }

  /** `quality_recalculated` has exactly two outgoing edges: get_experiment and produce_additional_models. */
  lemma QualityRecalculatedHasTwoExits()
    ensures OutgoingEdges(QualityRecalculated) == {
      Edge(GetExperiment, QualityRecalculated, ExperimentReady),
      Edge(ProduceAdditionalModels, QualityRecalculated, ProducedAdditionalModels)}
  {
    forall e ensures e in OutgoingEdges(QualityRecalculated) <==>
      e == Edge(GetExperiment, QualityRecalculated, ExperimentReady) || e == Edge(ProduceAdditionalModels, QualityRecalculated, ProducedAdditionalModels)
    {
      InTable(e);
    }
  }

  /** The final state has no outgoing edge, and an edge enters it exactly when it is a stop_development. */
  lemma StopIsTerminal()
    ensures OutgoingEdges(FinalState) == {}
    ensures forall e | e in TransitionTable :: e.name == StopDevelopment <==> e.dst == Stop
  {
    forall e ensures e !in OutgoingEdges(FinalState) {
      InTable(e);
    }
    forall e | e in TransitionTable ensures e.name == StopDevelopment <==> e.dst == Stop {
      InTable(e);
    }
  }

  /** No edge enters the initial state. */
  lemma StartIsNeverReentered()
    ensures forall e | e in TransitionTable :: e.dst != Start
  {
    forall e | e in TransitionTable ensures e.dst != Start {
      InTable(e);
    }
  }

  /** One experiment cycle returns to `quality_recalculated`. */
  lemma ExperimentCycle()
    ensures Run(QualityRecalculated, [GetExperiment, ExecuteExperiment, RecordResult, TestAndReviseModels, RecalculateModelsQuality])
            == Some(QualityRecalculated)
  {
    var p := [GetExperiment, ExecuteExperiment, RecordResult, TestAndReviseModels, RecalculateModelsQuality];
    RunCons(QualityRecalculated, p[0], p[1..]);
    RunCons(ExperimentReady, p[1], p[2..]);
    RunCons(HasNewResult, p[2], p[3..]);
    RunCons(ResultRecorded, p[3], p[4..]);
    RunCons(ModelsTestedAndRevised, p[4], p[5..]);
    assert p == [p[0]] + p[1..] && p[1..] == [p[1]] + p[2..] && p[2..] == [p[2]] + p[3..];
    assert p[3..] == [p[3]] + p[4..] && p[4..] == [p[4]] + p[5..];
  }

  /** A path through the table from `start` to `s`. */
  function PathTo(s: State): seq<TransitionName> {
    match s
    case Start => []
    case ModelsTestedAndRevised => [StartDevelopment]
    case QualityRecalculated => [StartDevelopment, RecalculateModelsQuality]
    case ExperimentReady => [StartDevelopment, RecalculateModelsQuality, GetExperiment]
    case HasNewResult => [StartDevelopment, RecalculateModelsQuality, GetExperiment, ExecuteExperiment]
    case ResultRecorded => [StartDevelopment, RecalculateModelsQuality, GetExperiment, ExecuteExperiment, RecordResult]
    case ProducedAdditionalModels => [StartDevelopment, RecalculateModelsQuality, ProduceAdditionalModels]
    case Stop => [StartDevelopment, RecalculateModelsQuality, GetExperiment, StopDevelopment]
  }

  /** Running a path that starts with one step is taking that step and running the rest. */
  lemma RunCons(s: State, n: TransitionName, ns: seq<TransitionName>)
    ensures Run(s, [n] + ns) == match Step(s, n) case None => None case Some(t) => Run(t, ns)
  {
    assert ([n] + ns)[1..] == ns;
  }

  /** Every state of the machine is reachable from the initial state. */
  lemma EveryStateReachable(s: State)
    ensures Run(InitialState, PathTo(s)) == Some(s)
  {
    // every path but the one to Start begins with StartDevelopment, and the ones past
    // ModelsTestedAndRevised continue with RecalculateModelsQuality
    var p := PathTo(s);
    if |p| >= 1 {
      RunCons(Start, p[0], p[1..]);
      assert p == [p[0]] + p[1..];
    }
    if |p| >= 2 {
      RunCons(ModelsTestedAndRevised, p[1], p[2..]);
      assert p[1..] == [p[1]] + p[2..];
    }
    if |p| >= 3 {
      RunFromQualityRecalculated(s);
    }
  }

  /** The rest of a path of three or more steps, from QualityRecalculated on. */
  lemma RunFromQualityRecalculated(s: State)
    requires |PathTo(s)| >= 3
    ensures Run(QualityRecalculated, PathTo(s)[2..]) == Some(s)
  {
    var p := PathTo(s)[2..];
    RunCons(QualityRecalculated, p[0], p[1..]);
    assert p == [p[0]] + p[1..];
    if |p| >= 2 {
      RunCons(ExperimentReady, p[1], p[2..]);
      assert p[1..] == [p[1]] + p[2..];
    }
    if |p| >= 3 {
      RunCons(HasNewResult, p[2], p[3..]);
      assert p[2..] == [p[2]] + p[3..];
    }
  }
}

=== FILE: quality.dfy ===
/** Model quality (quality_module.py): four scoring rules, the shift that makes the
    normalised qualities positive, and `check_and_update_qualities`, which records an
    UpdatedModelQuality event for every working model whose quality changes.

    A model's quality is a mutable attribute in the source. Here it lives in a
    QualityTable outside the model values, so that updating it leaves the models held
    by the archive and by its events untouched, as Python's shared references do.
    A model without an entry has quality None. */
module Quality {
  import opened Wrappers
  import opened Lists
  import opened Domain
  import opened EventArchive

  /** The four QualityModule subclasses. */
  datatype ScoringRule = NumberAllCovered | NumberAllCoveredMinusIgnored | NumberNewCovered | NumberNewCoveredMinusIgnored
  {
    /** The rules that count only results reported after the model appeared. */
    predicate CountsNewOnly() {
      this == NumberNewCovered || this == NumberNewCoveredMinusIgnored
    }

    /** The rules that subtract the ignored results and then normalise the qualities. */
    predicate SubtractsIgnored() {
      this == NumberAllCoveredMinusIgnored || this == NumberNewCoveredMinusIgnored
    }
  }

  type QualityTable = map<Model, int>

  datatype QualityError =
    | ArchiveFailure(error: ArchiveError) // raised by the archive, while scoring or recording
    | MinOfEmptySequence                  // ValueError from `min` of an empty list

  /** A result counts as new for a model when a Results event after the model's origin reported it. */
  ghost predicate ReportedAfterOrigin(a: Archive, m: Model, x: ExpResult)
    requires FindOrigin(a.developmentHistory, m).Some?
  {
    var h := a.developmentHistory;
    exists j | FindOrigin(h, m).value < j < |h| :: h[j].Results? && x in h[j].experiment.results
  }

  /** The covered results that a rule counts: all of them, or only the new ones. */
  ghost function CountedResults(rule: ScoringRule, a: Archive, m: Model): set<ExpResult>
    requires rule.CountsNewOnly() ==> FindOrigin(a.developmentHistory, m).Some?
  {
    if rule.CountsNewOnly() then set x | x in m.resultsCovered && ReportedAfterOrigin(a, m, x)
    else m.resultsCovered
  }

  /** `calculate_model_score`. The New rules take the set of results after the model's
      origin and intersect it with the covered results. */
  function Score(rule: ScoringRule, a: Archive, m: Model): (r: Result<int, ArchiveError>)
    // only the New rules can fail, and only for a model that has no origin event
    ensures r.Success? <==> (rule.CountsNewOnly() ==> FindOrigin(a.developmentHistory, m).Some?)
    ensures r.Failure? ==> r.error == NoOriginEvent(m)
    // the score counts the covered results the rule looks at, less the ignored ones for the Minus rules
    ensures r.Success? ==>
      r.value == |CountedResults(rule, a, m)| - (if rule.SubtractsIgnored() then |m.ignoredResults| else 0)
  {
    if rule.CountsNewOnly() then
      match GetResultsAfterModel(a, m)
      case Failure(e) => Failure(e)
      case Success(newResults) =>
        var newCovered := Elements(newResults) * m.resultsCovered;
        assert newCovered == CountedResults(rule, a, m) by {
          forall x ensures x in newCovered <==> x in CountedResults(rule, a, m) {
            ResultsAfterModelMembership(a, m, x);
          }
        }
        Success(|newCovered| - (if rule.SubtractsIgnored() then |m.ignoredResults| else 0))
    else
      Success(|m.resultsCovered| - (if rule.SubtractsIgnored() then |m.ignoredResults| else 0))
  }

  /** A New rule never scores a model above its All counterpart. */
  lemma NewCoveredAtMostAllCovered(a: Archive, m: Model)
    requires FindOrigin(a.developmentHistory, m).Some?
    ensures Score(NumberNewCovered, a, m).value <= Score(NumberAllCovered, a, m).value
    ensures Score(NumberNewCoveredMinusIgnored, a, m).value <= Score(NumberAllCoveredMinusIgnored, a, m).value
  {
    var counted := CountedResults(NumberNewCovered, a, m);
    assert counted <= m.resultsCovered;
    SubsetCardinality(counted, m.resultsCovered);
  }


  /** The scores of the models in order; the first model whose score fails stops the loop. */
  function Scores(rule: ScoringRule, a: Archive, ms: seq<Model>): (r: Result<seq<int>, ArchiveError>)
    ensures r.Success? <==> forall m | m in ms :: Score(rule, a, m).Success?
    ensures r.Success? ==> |r.value| == |ms| && forall i | 0 <= i < |ms| :: r.value[i] == Score(rule, a, ms[i]).value
    ensures r.Failure? ==> exists i | 0 <= i < |ms| :: Score(rule, a, ms[i]) == Failure(r.error)
    decreases |ms|
  {
    if |ms| == 0 then Success([])
    else
      match Score(rule, a, ms[0])
      case Failure(e) => Failure(e)
      case Success(s) =>
        match Scores(rule, a, ms[1..])
        case Failure(e) =>
          assert exists i | 1 <= i < |ms| :: Score(rule, a, ms[i]) == Failure(e) by {
            var i :| 0 <= i < |ms[1..]| && Score(rule, a, ms[1..][i]) == Failure(e);
            assert ms[1..][i] == ms[i + 1];
          }
          Failure(e)
        case Success(rest) =>
          assert forall m | m in ms :: m == ms[0] || m in ms[1..];
          Success([s] + rest)
  }

  /** The minimum of a non-empty list. */
  function SeqMin(s: seq<int>): (r: int)
    requires |s| > 0
    ensures r in s
    ensures forall i | 0 <= i < |s| :: r <= s[i]
    decreases |s|
  {
    if |s| == 1 then s[0]
    else
      var m := SeqMin(s[1..]);
      assert forall i | 1 <= i < |s| :: s[i] == s[1..][i - 1];
      if s[0] <= m then s[0] else m
  }

  function Abs(x: int): int {
    if x < 0 then -x else x
  }

  /** The amount added to every score to obtain the qualities: |smallest| + 1 for the
      normalising rules when the smallest score is below 1, nothing otherwise. */
  function Shift(rule: ScoringRule, scores: seq<int>): (r: Result<int, QualityError>)
    ensures r.Failure? <==> rule.SubtractsIgnored() && |scores| == 0
    ensures r.Failure? ==> r.error == MinOfEmptySequence
    ensures r.Success? ==> r.value >= 0
  {
    if !rule.SubtractsIgnored() then Success(0)
    else if |scores| == 0 then Failure(MinOfEmptySequence)
    else
      var smallest := SeqMin(scores);
      if smallest < 1 then Success(Abs(smallest) + 1) else Success(0)
  }

  /** The qualities `calculate_models_quality` aims at, model by model. */
  function Targets(rule: ScoringRule, scores: seq<int>): (r: Result<seq<int>, QualityError>)
    ensures r.Failure? <==> rule.SubtractsIgnored() && |scores| == 0
    ensures r.Success? ==> |r.value| == |scores|
    // the plain rules take the scores as they are
    ensures r.Success? && !rule.SubtractsIgnored() ==> r.value == scores
    // the normalising rules give every model a quality of at least 1 ...
    ensures r.Success? && rule.SubtractsIgnored() ==> forall i | 0 <= i < |scores| :: r.value[i] >= 1
    // ... keep the differences between the scores ...
    ensures r.Success? ==> forall i, j | 0 <= i < |scores| && 0 <= j < |scores| :: r.value[i] - r.value[j] == scores[i] - scores[j]
    // ... shift only when some score is below 1, and then the worst model gets exactly 1
    ensures r.Success? && rule.SubtractsIgnored() && (forall i | 0 <= i < |scores| :: scores[i] >= 1) ==> r.value == scores
    ensures r.Success? && rule.SubtractsIgnored() && (exists i | 0 <= i < |scores| :: scores[i] < 1) ==>
              exists i | 0 <= i < |scores| :: r.value[i] == 1
  {
    match Shift(rule, scores)
    case Failure(e) => Failure(e)
    case Success(k) =>
      var t := seq(|scores|, i requires 0 <= i < |scores| => scores[i] + k);
      if rule.SubtractsIgnored() then
        var smallest := SeqMin(scores);
        var w :| 0 <= w < |scores| && scores[w] == smallest;
        assert t[w] >= 1;
        Success(t)
      else Success(t)
  }

  /** The target of every working model, given that all scores exist. */
  function TargetTable(rule: ScoringRule, a: Archive, ms: seq<Model>, k: int): (t: map<Model, int>)
    requires forall m | m in ms :: Score(rule, a, m).Success?
    ensures forall m | m in ms :: m in t && t[m] == Score(rule, a, m).value + k
  {
    map m | m in ms :: Score(rule, a, m).value + k
  }

  /** Whether `m`'s quality already equals its target (a quality of None never does). */
  predicate UpToDate(q: QualityTable, target: map<Model, int>, m: Model)
    requires m in target
  {
    m in q && q[m] == target[m]
  }

  /** The loop of `calculate_models_quality` when every `record` call succeeds: the new
      quality table and the (model, new quality) pairs of the UpdatedModelQuality events,
      in the order they are recorded. */
  function PlanUpdates(ms: seq<Model>, target: map<Model, int>, q: QualityTable): (r: (QualityTable, seq<(Model, int)>))
    requires forall m | m in ms :: m in target
    // every visited model ends with its target quality; no other entry changes
    ensures forall m | m in ms :: m in r.0 && r.0[m] == target[m]
    ensures forall m | m !in ms :: (m in r.0 <==> m in q) && (m in q ==> r.0[m] == q[m])
    decreases |ms|
  {
    if |ms| == 0 then (q, [])
    else
      var m := ms[0];
      assert forall x | x in ms :: x == m || x in ms[1..];
      if UpToDate(q, target, m) then
        PlanUpdates(ms[1..], target, q)
      else
        var rest := PlanUpdates(ms[1..], target, q[m := target[m]]);
        (rest.0, [(m, target[m])] + rest.1)
  }

  /** Every recorded update is for a visited model whose quality differed from its
      target, and carries that target. */
  lemma {:induction false} PlanRecordsOnlyChanges(ms: seq<Model>, target: map<Model, int>, q: QualityTable)
    requires forall m | m in ms :: m in target
    ensures forall u | u in PlanUpdates(ms, target, q).1 :: u.0 in ms && u.1 == target[u.0] && !UpToDate(q, target, u.0)
    decreases |ms|
  {
    if |ms| > 0 {
      var m := ms[0];
      var tail := ms[1..];
      assert forall x | x in tail :: x in ms;
      if UpToDate(q, target, m) {
        PlanRecordsOnlyChanges(tail, target, q);
      } else {
        var q1 := q[m := target[m]];
        PlanRecordsOnlyChanges(tail, target, q1);
        var rest := PlanUpdates(tail, target, q1).1;
        assert PlanUpdates(ms, target, q).1 == [(m, target[m])] + rest;
        forall u | u in rest ensures !UpToDate(q, target, u.0) {
          assert u.0 != m;
        }
      }
    }
  }

  /** Every visited model whose quality differed from its target gets an update. */
  lemma {:induction false} PlanRecordsEveryChange(ms: seq<Model>, target: map<Model, int>, q: QualityTable)
    requires forall m | m in ms :: m in target
    ensures forall m | m in ms && !UpToDate(q, target, m) :: (m, target[m]) in PlanUpdates(ms, target, q).1
    decreases |ms|
  {
    if |ms| > 0 {
      var m := ms[0];
      var tail := ms[1..];
      assert forall x | x in ms :: x == m || x in tail;
      if UpToDate(q, target, m) {
        PlanRecordsEveryChange(tail, target, q);
      } else {
        var q1 := q[m := target[m]];
        PlanRecordsEveryChange(tail, target, q1);
        assert forall x | x in tail && x != m :: UpToDate(q1, target, x) == UpToDate(q, target, x);
      }
    }
  }

  predicate DistinctModels(us: seq<(Model, int)>) {
    forall i, j | 0 <= i < j < |us| :: us[i].0 != us[j].0
  }

  /** No model is updated twice, even when it occurs twice among the working models. */
  lemma DistinctModelsCons(u: (Model, int), rest: seq<(Model, int)>)
    requires DistinctModels(rest) && forall x | x in rest :: x.0 != u.0
    ensures DistinctModels([u] + rest)
  {
    var us := [u] + rest;
    forall i, j | 0 <= i < j < |us| ensures us[i].0 != us[j].0 {
      assert us[j] == rest[j - 1];
      if i > 0 {
        assert us[i] == rest[i - 1];
      }
    }
  }

  lemma {:induction false} PlanUpdatesEachModelOnce(ms: seq<Model>, target: map<Model, int>, q: QualityTable)
    requires forall m | m in ms :: m in target
    ensures DistinctModels(PlanUpdates(ms, target, q).1)
    decreases |ms|
  {
    if |ms| > 0 {
      var m := ms[0];
      var tail := ms[1..];
      if UpToDate(q, target, m) {
        PlanUpdatesEachModelOnce(tail, target, q);
        assert PlanUpdates(ms, target, q).1 == PlanUpdates(tail, target, q).1;
      } else {
        var q1 := q[m := target[m]];
        PlanUpdatesEachModelOnce(tail, target, q1);
        PlanRecordsOnlyChanges(tail, target, q1);
        var rest := PlanUpdates(tail, target, q1).1;
        assert UpToDate(q1, target, m);
        DistinctModelsCons((m, target[m]), rest);
      }
    }
  }

  /** Nothing is recorded exactly when every visited model is up to date, and then the
      table is left as it was. */
  lemma {:induction false} PlanEmptyIffUpToDate(ms: seq<Model>, target: map<Model, int>, q: QualityTable)
    requires forall m | m in ms :: m in target
    ensures PlanUpdates(ms, target, q).1 == [] <==> forall m | m in ms :: UpToDate(q, target, m)
    ensures PlanUpdates(ms, target, q).1 == [] ==> PlanUpdates(ms, target, q).0 == q
    decreases |ms|
  {
    if |ms| > 0 {
      assert forall x | x in ms[1..] :: x in ms;
      if UpToDate(q, target, ms[0]) {
        PlanEmptyIffUpToDate(ms[1..], target, q);
        assert forall x | x in ms :: x == ms[0] || x in ms[1..];
      }
    }
  }

  /** A second pass with the same targets records nothing and changes nothing. */
  lemma PlanIdempotent(ms: seq<Model>, target: map<Model, int>, q: QualityTable)
    requires forall m | m in ms :: m in target
    ensures var q1 := PlanUpdates(ms, target, q).0;
            PlanUpdates(ms, target, q1) == (q1, [])
  {
    var q1 := PlanUpdates(ms, target, q).0;
    PlanEmptyIffUpToDate(ms, target, q1);
  }

  /** The loop of `calculate_models_quality` as it runs: each out-of-date model gets its new
      quality and then an UpdatedModelQuality event is recorded; an exception from `record`
      stops the loop with the quality already assigned and the event in the history. */
  function RunUpdates(a: Archive, q: QualityTable, ms: seq<Model>, target: map<Model, int>): (r: Effect<(Archive, QualityTable), ArchiveError>)
    requires forall m | m in ms :: m in target
    ensures r.state.0.workingModels == a.workingModels && r.state.0.knownResults == a.knownResults
    // the loop completes only when no model needed an update, and then it changed nothing
    ensures r.raised.None? <==> forall m | m in ms :: UpToDate(q, target, m)
    ensures r.raised.None? ==> r.state == (a, q)
    decreases |ms|
  {
    if |ms| == 0 then Effect((a, q), None)
    else
      var m := ms[0];
      if UpToDate(q, target, m) then RunUpdates(a, q, ms[1..], target)
      else
        var q1 := q[m := target[m]];
        // `record` has no branch for UpdatedModelQuality, so it always raises here
        var rec := Record(a, UpdatedModelQuality(m, target[m]));
        Effect((rec.state, q1), rec.raised)
  }

  /** Because `record` has no branch for UpdatedModelQuality, the loop as written stops at the
      first planned update: that event is in the history, that model has its new quality,
      and the error is raised; with nothing to update, nothing changes. */
  lemma {:induction false} RunUpdatesStopsAtFirstUpdate(a: Archive, q: QualityTable, ms: seq<Model>, target: map<Model, int>)
    requires forall m | m in ms :: m in target
    ensures var p := PlanUpdates(ms, target, q);
            var r := RunUpdates(a, q, ms, target);
            && (p.1 == [] ==> r == Effect((a, q), None))
            && (p.1 != [] ==>
                  && r.raised == Some(UnknownEventType)
                  && r.state.0.developmentHistory == a.developmentHistory + [UpdatedModelQuality(p.1[0].0, p.1[0].1)]
                  && r.state.1 == q[p.1[0].0 := p.1[0].1])
    decreases |ms|
  {
    if |ms| > 0 {
      var m := ms[0];
      assert forall x | x in ms[1..] :: x in ms;
      if UpToDate(q, target, m) {
        RunUpdatesStopsAtFirstUpdate(a, q, ms[1..], target);
      } else {
        assert !HasRecordBranch(UpdatedModelQuality(m, target[m]));
      }
    }
  }

  /** `check_and_update_qualities`: score every working model, compute the targets,
      then bring every quality up to date, recording each change. */
  function CheckAndUpdateQualities(rule: ScoringRule, a: Archive, q: QualityTable): (r: Effect<(Archive, QualityTable), QualityError>)
    // the working models and the known results never change
    ensures r.state.0.workingModels == a.workingModels && r.state.0.knownResults == a.knownResults
    // a failed score, or the minimum of no scores, raises before anything is touched
    ensures (exists m | m in a.workingModels :: Score(rule, a, m).Failure?) ==> r.state == (a, q) && !r.Ok()
    ensures rule.SubtractsIgnored() && |a.workingModels| == 0 ==> r == Effect((a, q), Some(MinOfEmptySequence))
  {
    match Scores(rule, a, a.workingModels)
    case Failure(e) => Effect((a, q), Some(ArchiveFailure(e)))
    case Success(scores) =>
      match Shift(rule, scores)
      case Failure(e) => Effect((a, q), Some(e))
      case Success(k) =>
        var target := TargetTable(rule, a, a.workingModels, k);
        var r := RunUpdates(a, q, a.workingModels, target);
        Effect(r.state, if r.raised.Some? then Some(ArchiveFailure(r.raised.value)) else None)
  }

  /** The qualities `check_and_update_qualities` aims at: each working model's score plus
      the common shift, which is at least 1 for every model under the normalising rules. */
  lemma CheckAndUpdateTargets(rule: ScoringRule, a: Archive)
    requires forall m | m in a.workingModels :: Score(rule, a, m).Success?
    requires |a.workingModels| > 0
    ensures var scores := Scores(rule, a, a.workingModels).value;
            var k := Shift(rule, scores).value;
            && Targets(rule, scores).Success?
            && (forall i | 0 <= i < |scores| :: Targets(rule, scores).value[i] == scores[i] + k)
            && (rule.SubtractsIgnored() ==> forall m | m in a.workingModels :: Score(rule, a, m).value + k >= 1)
  {
    var scores := Scores(rule, a, a.workingModels).value;
    TargetsAreShiftedScores(rule, scores);
    if rule.SubtractsIgnored() {
      EveryModelLifted(rule, a);
    }
  }

  /** Under a normalising rule, the shift brings every working model's score to at least 1. */
  lemma EveryModelLifted(rule: ScoringRule, a: Archive)
    requires forall m | m in a.workingModels :: Score(rule, a, m).Success?
    requires |a.workingModels| > 0 && rule.SubtractsIgnored()
    ensures var scores := Scores(rule, a, a.workingModels).value;
            forall m | m in a.workingModels :: Score(rule, a, m).value + Shift(rule, scores).value >= 1
  {
    var ms := a.workingModels;
    var scores := Scores(rule, a, ms).value;
    var k := Shift(rule, scores).value;
    ShiftLiftsEveryScore(rule, scores);
    forall m | m in ms
      ensures Score(rule, a, m).value + k >= 1
    {
      var i := IndexOf(ms, m).value;
      assert scores[i] + k >= 1;
    }
  }

  /** A normalising rule's shift brings every score to at least 1. */
  lemma ShiftLiftsEveryScore(rule: ScoringRule, scores: seq<int>)
    requires rule.SubtractsIgnored() && |scores| > 0
    ensures forall i | 0 <= i < |scores| :: scores[i] + Shift(rule, scores).value >= 1
  {
  }

  /** Every target is its score plus the shift. */
  lemma TargetsAreShiftedScores(rule: ScoringRule, scores: seq<int>)
    requires Shift(rule, scores).Success?
    ensures Targets(rule, scores).Success?
    ensures forall i | 0 <= i < |scores| :: Targets(rule, scores).value[i] == scores[i] + Shift(rule, scores).value
  {
  }

  /** The outcome of `check_and_update_qualities` in terms of the plan: with every quality
      already at its target nothing happens; otherwise the first out-of-date working model
      gets its new quality, its UpdatedModelQuality event is recorded and `record` raises. */
  lemma CheckAndUpdateOutcome(rule: ScoringRule, a: Archive, q: QualityTable)
    requires forall m | m in a.workingModels :: Score(rule, a, m).Success?
    requires rule.SubtractsIgnored() ==> |a.workingModels| > 0
    ensures var k := Shift(rule, Scores(rule, a, a.workingModels).value).value;
            var target := TargetTable(rule, a, a.workingModels, k);
            var p := PlanUpdates(a.workingModels, target, q);
            var r := CheckAndUpdateQualities(rule, a, q);
            && (p.1 == [] <==> r.Ok())
            && (p.1 == [] ==> r.state == (a, q))
            && (p.1 != [] ==>
                  && r.raised == Some(ArchiveFailure(UnknownEventType))
                  && r.state.0.developmentHistory == a.developmentHistory + [UpdatedModelQuality(p.1[0].0, p.1[0].1)]
                  && r.state.1 == q[p.1[0].0 := p.1[0].1])
  {
    var k := Shift(rule, Scores(rule, a, a.workingModels).value).value;
    var target := TargetTable(rule, a, a.workingModels, k);
    RunUpdatesStopsAtFirstUpdate(a, q, a.workingModels, target);
  }
}

=== FILE: text.dfy ===
/** Python string formatting used by the serialisers and the analysis helpers:
    `str(n)` of a natural or integer, `"%s"` of a possibly-None string or a bool,
    `sep.join(parts)`, `s.split(sep)`, and the two-digit padding the analysis scripts
    build by hand. */
module Text {
  import opened Wrappers

  predicate IsDigit(c: char) {
    '0' <= c <= '9'
  }

  function DigitChar(d: nat): (c: char)
    requires d < 10
    ensures IsDigit(c)
    ensures c as int - '0' as int == d
  {
    "0123456789"[d]
  }

  function DigitValue(c: char): nat
    requires IsDigit(c)
  {
    c as int - '0' as int
  }

  /** `str(n)` for a natural number: decimal digits, most significant first, no leading zero. */
  function NatToString(n: nat): (s: string)
    ensures 1 <= |s|
    ensures forall i | 0 <= i < |s| :: IsDigit(s[i])
    ensures |s| == 1 <==> n < 10
    decreases n
  {
    if n < 10 then [DigitChar(n)] else NatToString(n / 10) + [DigitChar(n % 10)]
  }

  /** Reads back a string of decimal digits. */
  function ParseNat(s: string): nat
    requires forall i | 0 <= i < |s| :: IsDigit(s[i])
    decreases |s|
  {
    if |s| == 0 then 0 else 10 * ParseNat(s[..|s| - 1]) + DigitValue(s[|s| - 1])
  }

  /** Decimal printing is invertible: parsing `str(n)` gives back `n`. */
  lemma {:induction false} ParseNatToString(n: nat)
    ensures ParseNat(NatToString(n)) == n
    decreases n
  {
    var s := NatToString(n);
    if n >= 10 {
      ParseNatToString(n / 10);
      assert s[..|s| - 1] == NatToString(n / 10);
    }
  }

  /** `str(i)` for an integer. */
  function IntToString(i: int): (s: string)
    ensures 1 <= |s|
    ensures i >= 0 ==> s == NatToString(i)
    ensures i < 0 ==> s[0] == '-' && s[1..] == NatToString(-i)
  {
    if i < 0 then "-" + NatToString(-i) else NatToString(i)
  }

  /** `"%s" % x` where `x` is a string or None. */
  function ShowOption(o: Option<string>): string {
    match o
    case None => "None"
    case Some(s) => s
  }

  /** `"%s" % x` where `x` is an integer or None. */
  function ShowCost(o: Option<int>): string {
    match o
    case None => "None"
    case Some(i) => IntToString(i)
  }

  /** `"%s" % b` for a bool. */
  function ShowBool(b: bool): string {
    if b then "True" else "False"
  }

  /** A number below 100 padded to two digits, as the analysis scripts do by
      prefixing "0" when `len(str(n)) == 1`. */
  function Pad2(n: nat): (s: string)
    requires n < 100
    ensures |s| == 2
    ensures IsDigit(s[0]) && IsDigit(s[1])
    ensures DigitValue(s[0]) == n / 10 && DigitValue(s[1]) == n % 10
  {
    var d := NatToString(n);
    if |d| == 1 then "0" + d
    else
      assert d == NatToString(n / 10) + [DigitChar(n % 10)];
      d
  }

  /** Pads are distinct for distinct numbers. */
  lemma Pad2Injective(m: nat, n: nat)
    requires m < 100 && n < 100
    requires Pad2(m) == Pad2(n)
    ensures m == n
  {
    assert m / 10 == n / 10 && m % 10 == n % 10;
  }

  /** `sep.join(parts)`. */
  function Join(parts: seq<string>, sep: char): string {
    if |parts| == 0 then ""
    else if |parts| == 1 then parts[0]
    else parts[0] + [sep] + Join(parts[1..], sep)
  }

  /** `s.split(sep)`: the maximal pieces between separators; always at least one piece. */
  function Split(s: string, sep: char): (r: seq<string>)
    ensures |r| >= 1
    decreases |s|
  {
    if |s| == 0 then [""]
    else
      var rest := Split(s[1..], sep);
      if s[0] == sep then [""] + rest
      else [[s[0]] + rest[0]] + rest[1..]
  }

  /** Splitting a string that starts with a separator-free piece. */
  lemma {:induction false} SplitAfterPiece(a: string, tail: string, sep: char)
    requires sep !in a
    ensures Split(a + tail, sep) == [a + Split(tail, sep)[0]] + Split(tail, sep)[1..]
    decreases |a|
  {
    if |a| > 0 {
      assert (a + tail)[1..] == a[1..] + tail;
      assert (a + tail)[0] == a[0];
      SplitAfterPiece(a[1..], tail, sep);
      assert [a[0]] + (a[1..] + Split(tail, sep)[0]) == a + Split(tail, sep)[0];
    } else {
      assert a + tail == tail;
      var r := Split(tail, sep);
      assert a + r[0] == r[0];
      assert [r[0]] + r[1..] == r;
    }
  }

  /** Joining separator-free pieces and splitting the result again gives the pieces back.
      The join of an empty list is "", which splits into [""], so at least one piece is needed. */
  lemma {:induction false} SplitJoin(parts: seq<string>, sep: char)
    requires |parts| >= 1
    requires forall k | 0 <= k < |parts| :: sep !in parts[k]
    ensures Split(Join(parts, sep), sep) == parts
  {
    if |parts| == 1 {
      SplitAfterPiece(parts[0], "", sep);
      assert parts[0] + "" == parts[0];
    } else {
      var rest := Join(parts[1..], sep);
      SplitJoin(parts[1..], sep);
      assert Join(parts, sep) == parts[0] + ([sep] + rest);
      SplitAfterPiece(parts[0], [sep] + rest, sep);
      assert ([sep] + rest)[1..] == rest;
      assert Split([sep] + rest, sep) == [""] + parts[1..];
      assert parts[0] + "" == parts[0];
      assert parts == [parts[0]] + parts[1..];
    }
  }

  /** `s` cut at its first `c`: the text before it and the text after it; None when `c`
      does not occur. */
  function Cut(s: string, c: char): (r: Option<(string, string)>)
    ensures r.None? <==> c !in s
    ensures r.Some? ==> c !in r.value.0 && s == r.value.0 + ([c] + r.value.1)
    decreases |s|
  {
    if |s| == 0 then None
    else if s[0] == c then
      assert s == [] + ([c] + s[1..]);
      Some(([], s[1..]))
    else
      var rest := Cut(s[1..], c);
      assert c in s <==> c in s[1..] by {
        assert s == [s[0]] + s[1..];
      }
      if rest.None? then None
      else
        var (a, b) := rest.value;
        assert s == ([s[0]] + a) + ([c] + b) by {
          assert s == [s[0]] + s[1..];
        }
        Some(([s[0]] + a, b))
  }

  /** Cutting at `c` a text whose first piece has no `c` gives that piece and the rest. */
  lemma {:induction false} CutPiece(a: string, c: char, rest: string)
    requires c !in a
    ensures Cut(a + ([c] + rest), c) == Some((a, rest))
    decreases |a|
  {
    if |a| > 0 {
      assert (a + ([c] + rest))[1..] == a[1..] + ([c] + rest);
      CutPiece(a[1..], c, rest);
      assert [a[0]] + a[1..] == a;
    } else {
      assert a + ([c] + rest) == [c] + rest;
    }
  }

  /** `s` with the prefix `p` taken off; None when `s` does not start with `p`. */
  function After(p: string, s: string): (r: Option<string>)
    ensures r.Some? <==> |p| <= |s| && s[..|p|] == p
    ensures r.Some? ==> s == p + r.value
  {
    if |p| <= |s| && s[..|p|] == p then
      assert s == s[..|p|] + s[|p|..];
      Some(s[|p|..])
    else None
  }

  lemma AfterPrefix(p: string, rest: string)
    ensures After(p, p + rest) == Some(rest)
  {
    assert (p + rest)[..|p|] == p;
    assert (p + rest)[|p|..] == rest;
  }

  predicate AllDigits(s: string) {
    forall i | 0 <= i < |s| :: IsDigit(s[i])
  }

  /** Reads back what `ShowCost` prints: "None", a natural number, or '-' and a natural
      number; None for any other text. */
  function ReadCost(s: string): Option<Option<int>> {
    if s == "None" then Some(None)
    else if |s| >= 1 && AllDigits(s) then Some(Some(ParseNat(s)))
    else if |s| >= 2 && s[0] == '-' && AllDigits(s[1..]) then Some(Some(-(ParseNat(s[1..]) as int)))
    else None
  }

  /** A printed natural number reads back as itself, and holds no space. */
  lemma ReadNatString(n: nat)
    ensures ReadCost(NatToString(n)) == Some(Some(n))
    ensures ' ' !in NatToString(n)
  {
    var s := NatToString(n);
    ParseNatToString(n);
    assert s[0] != "None"[0];
  }

  /** A printed negative number reads back as itself, and holds no space. */
  lemma ReadNegativeString(n: nat)
    ensures ReadCost("-" + NatToString(n)) == Some(Some(-(n as int)))
    ensures ' ' !in "-" + NatToString(n)
  {
    var s := "-" + NatToString(n);
    ParseNatToString(n);
    assert s[0] != "None"[0] && !IsDigit(s[0]);
    assert s[1..] == NatToString(n);
  }

  /** A printed cost reads back as the cost, and holds no space. */
  lemma ReadShowCost(o: Option<int>)
    ensures ReadCost(ShowCost(o)) == Some(o)
    ensures ' ' !in ShowCost(o)
  {
    match o
    case None =>
    case Some(i) =>
      if i >= 0 {
        ReadNatString(i);
      } else {
        ReadNegativeString(-i);
      }
  }
}

=== FILE: wrappers.dfy ===
/** Failure-compatible wrappers shared by every module of the model.
    - Option<T>: a Python value that may be None.
    - Result<T, E>: a call that either returns a value or raises an exception.
    - Effect<S, E>: a call that mutates an object in place and may raise part-way;
      it carries the state the object is left in together with the exception, if any.
 */
module Wrappers {

  datatype Option<+T> = None | Some(value: T) {
    predicate IsFailure() {
      None?
    }

    function PropagateFailure<U>(): Option<U>
      requires None?
    {
      None
    }

    function Extract(): T
      requires Some?
    {
      value
    }
  }

  datatype Result<+T, +E> = Success(value: T) | Failure(error: E) {
    predicate IsFailure() {
      Failure?
    }

    function PropagateFailure<U>(): Result<U, E>
      requires Failure?
    {
      Failure(error)
    }

    function Extract(): T
      requires Success?
    {
      value
    }
  }

  /** The object left behind by an in-place operation, and the exception it raised (None if it returned). */
  datatype Effect<+S, +E> = Effect(state: S, raised: Option<E>) {
    predicate Ok() {
      raised.None?
    }
  }
}
